=== FILE: README.md ===
# Study notes pipeline, modelled in Dafny

This project models the rule-governed core of a browser study app. The app
turns free-form class notes into study material. It does five things:

- It extracts up to eight key points from a note. Each point is ranked
  high, medium or low by an ordered list of regular expressions and a
  casing rule.
- It writes a short summary from the note's opening lines.
- It turns each long enough key point into a question/answer flashcard.
- It moves each card's mastery score after every answer, and counts the
  answers in a study session.
- It keeps four in-memory record stores: notes, flashcards, study sessions
  and calendar review events. Each store has lookups, create with defaults,
  merge-update, delete and "not found" errors.

The project also models the pure values some components derive:

- the flashcard viewer's state machine;
- the progress figures;
- the plain-text export with its selection toggle;
- the summary display, which reads a stored summary back into points.

Every operation is a pure function over immutable datatypes. A store is a
`seq` of records. An operation that can throw returns a `Result` whose
failure carries the source's error message. Ids and timestamps come from
`Date.now()`, `new Date()` or `Math.random()` in the source. Here they are
parameters: `now`, or an id function `newId: nat -> Id` indexed by
position. Strings are `seq<char>`, with ASCII character classes
(whitespace, `\w`, letter case), and mastery is a `real`.

Modules, one per source file or component:

- `Text`: the JavaScript string primitives used, with their ASCII
  character classes.
- `Collections`: `find`, `findIndex`, `filter` and `splice`.
- `NoteAnalysis` and `NoteStore`: `noteService.js`.
- `Flashcards`: `flashcardService.js`.
- `Sessions`: `studySessionService.js`.
- `Calendar`: `studyCalendarService.js`.
- `Dashboard`: the handlers of `StudyDashboard.jsx` and the highlight
  toggle of `KeyPointsSidebar.jsx`.
- `Viewer`: `FlashcardViewer.jsx`.
- `Progress`: `StudyProgress.jsx`.
- `Export`: `ExportModal.jsx`.
- `SummaryDisplay`: `SummaryDisplay.jsx`.

## Notes on the code's behaviour

Some of what the code does is easy to misread. The model follows the code
in each case below.

- **Summary window.** A summary is built from the first five non-blank
  lines, and only then are the lines of 20 characters or fewer dropped
  (`noteService.js:65-70`). So a note whose opening five lines are short
  gets an empty summary, whatever follows: see
  `NoteAnalysis.ShortOpeningEmptySummary` and
  `NoteAnalysis.SummaryDependsOnOpeningOnly`.
- **Colon rule.** A card's answer is `parts[1]` only, the segment between
  the first and second colon (`flashcardService.js:77-79`). Text after a
  second colon is lost. See `Flashcards.ColonRuleShape`.
- **Define rule.** The define test is a substring test on the lower-cased
  text (`flashcardService.js:80`), so "undefined" triggers it too. See
  `Flashcards.UndefinedTriggersDefine`.
- **Review time.** The flashcard `update` stamps `lastReviewed` on every
  update, whatever the patch holds (`flashcardService.js:44-48`). See
  `Flashcards.MergeCard`.
- **Streak and scheduler.** `getStreak` is called at
  `StudyDashboard.jsx:51` but defined nowhere, and the calendar service
  has no scheduling logic. Neither is modelled.
- **Export summary bullets.** The summary is stored with `\n• ` between
  topics. The export then replaces every `\n` with `\n• `. So every topic
  after the first is exported with two bullets:
  `Export.ExportedSummaryDoubleBullets`.
- **Calendar Ids.** `create` spreads the caller's data last, so a
  caller-supplied `Id` wins over the counter and can repeat a stored Id.
  See `Calendar.CreateKeepsSuppliedId`. Lookups then find the first event
  with the Id.
- **Hexadecimal ids.** The calendar calls `parseInt(id)` with no radix
  (`studyCalendarService.js:18, 49, 63`), so an id such as `"0x1A"` is read
  in base 16 as 26, and `"0x"` alone is `NaN`. See
  `Text.ParseIntHexExamples`. In base 10 `parseInt` is just as lenient:
  `" 12"`, `"+12"` and `"12abc"` read as 12, `"007"` as 7 and `"5.0"` as
  5. See `Text.ParseIntDecimalValue`.
- **Negative durations.** The minutes shown are floored
  (`Math.floor(sessionDuration / 60000)`), but the seconds come from `%`,
  which keeps the dividend's sign (`StudyProgress.jsx:28-30`). A start
  time in the future gives a negative duration, and then, unless it is a
  whole number of minutes, the pair shown stands for one minute less than
  the duration: -30 s is shown as "-1m -30s". See
  `Progress.NegativeDurationShown` and `Progress.NegativeHalfMinute`.

## Model

| member | source | states |
|---|---|---|
| NoteAnalysis.Classify | src/services/api/noteService.js:88-98 | High exactly when one of the four patterns matches. Otherwise Medium exactly when the line holds `*` or has no lower-case letter, which is when it equals its upper-casing. Low otherwise. |
| NoteAnalysis.HighIff | src/services/api/noteService.js:81-95 | A line is high exactly when either it has the definition shape, or one of the eighteen listed keywords occurs in it as a whole word, in any case. |
| NoteAnalysis.DefinitionShapeFirstColon | src/services/api/noteService.js:82 | The definition pattern holds exactly when the line has a colon and every character before its first colon is a digit, a word character or whitespace. |
| NoteAnalysis.HyphenatedLabelIsNotDefinition | src/services/api/noteService.js:82 | A hyphen before the colon defeats the definition pattern. |
| NoteAnalysis.ImportantNotesIsHigh | src/services/api/noteService.js:94-97 | The keyword check runs before the casing check, so the all-caps "IMPORTANT NOTES" is high, not medium. |
| NoteAnalysis.DigitLineIsMedium | src/services/api/noteService.js:94-97 | A line of digits and blanks matches no pattern and equals its own upper-casing, so it is medium. |
| NoteAnalysis.QualifyingLines | src/services/api/noteService.js:88-90 | A line is kept exactly when its trimmed form is longer than 15 characters. The result is those trimmed lines, as many as qualify, with order stated by `QualifyingLinesAppend`. |
| NoteAnalysis.QualifyingLinesAppend | src/services/api/noteService.js:88-90 | The length filter keeps source order: the kept lines of a concatenation are the kept lines of each part, concatenated. |
| NoteAnalysis.MakePoints | src/services/api/noteService.js:100-105 | One point per kept line, in order; the i-th point takes the i-th id. |
| NoteAnalysis.ExtractKeyPoints | src/services/api/noteService.js:76-110 | At most 8 points. Each text is trimmed and longer than 15 characters. Each importance is the classifier's verdict on the text. A point is highlighted exactly when it is high. |
| NoteAnalysis.KeyPointsAreFirstQualifying | src/services/api/noteService.js:88-109 | The point texts are exactly the first eight qualifying lines in source order. Nothing is re-ranked by importance. |
| NoteAnalysis.KeyPointsComeFromLines | src/services/api/noteService.js:78-89 | Every point text is some `\n`-separated line of the content, trimmed. |
| NoteAnalysis.NoLongLineNoPoints | src/services/api/noteService.js:78-90 | Content without a trimmed line longer than 15 characters yields no points, and no error. |
| NoteAnalysis.AllShortNotQualifying | src/services/api/noteService.js:89-90 | Lines all 15 characters or shorter after trimming give no qualifying line. |
| NoteAnalysis.FifteenCharHeadingDropped | src/services/api/noteService.js:90 | The sample heading "Key Components:" is exactly 15 characters long, so it yields no point. |
| NoteAnalysis.OverviewHeadingIsHigh | src/services/api/noteService.js:82-104 | The sample heading "Photosynthesis Overview:" yields exactly one point: that text, high and highlighted. |
| NoteAnalysis.OverviewIsDefinition | src/services/api/noteService.js:82 | "Photosynthesis Overview:" has the definition shape. |
| NoteAnalysis.NonBlankLines | src/services/api/noteService.js:65 | A line of the text is kept exactly when it is non-blank after trimming. There are as many results as non-blank lines, and none holds a newline. |
| NoteAnalysis.NonBlankLinesAppend | src/services/api/noteService.js:65 | Source order is kept: the non-blank lines of `a + "\n" + b` are those of `a`, then those of `b`. |
| NoteAnalysis.Topic | src/services/api/noteService.js:68-69 | A line of at most 80 characters is kept whole. A longer one is cut to its first 80 characters, followed by `...`. A topic has at most 83 characters, is trimmed and is non-empty. |
| NoteAnalysis.TopicLines | src/services/api/noteService.js:66-68 | A window line gives a topic line exactly when it is longer than 20 characters once trimmed. There are as many topic lines as such lines, each the trimmed line. |
| NoteAnalysis.TopicLinesAppend | src/services/api/noteService.js:66-68 | Window order is kept: the topic lines of a concatenation are those of each part, concatenated. |
| NoteAnalysis.TopicsOf | src/services/api/noteService.js:66-71 | One topic per topic line, in order, never more topics than window lines. |
| NoteAnalysis.TopicsOfNoNewline | src/services/api/noteService.js:69 | Topics of newline-free lines hold no newline. |
| NoteAnalysis.TopicsOfKeepsLongLines | src/services/api/noteService.js:66-69 | Every window line longer than 20 characters once trimmed gives its topic. |
| NoteAnalysis.TopicKeepsAbsent | src/services/api/noteService.js:69 | Cutting a line adds no character other than `.`. |
| NoteAnalysis.SummaryTopics | src/services/api/noteService.js:65-71 | Every one of the first 5 non-blank lines that is longer than 20 characters once trimmed gives its topic, and the topic count equals the number of such lines. Each topic has at most 83 characters, is trimmed, is non-empty and holds no newline. |
| NoteAnalysis.SummaryTopicsFromWindow | src/services/api/noteService.js:66-69 | Every topic is the topic of one of those long lines among the first 5 non-blank lines. |
| NoteAnalysis.GenerateSummary | src/services/api/noteService.js:73 | With no topics the summary is the empty string. |
| NoteAnalysis.LongOpeningLineGivesSummary | src/services/api/noteService.js:65-73 | A long line among the first 5 non-blank lines makes the summary non-empty, and the summary starts with the first topic. |
| NoteAnalysis.ShortOpeningEmptySummary | src/services/api/noteService.js:65-70 | When the first five non-blank lines are all 20 characters or shorter, the summary is empty, whatever follows them. |
| NoteAnalysis.AllShortNoTopics | src/services/api/noteService.js:68 | A window of short lines yields no topic. |
| NoteAnalysis.SummaryDependsOnOpeningOnly | src/services/api/noteService.js:65-66 | Two contents whose first five non-blank lines agree get the same summary. |
| NoteStore.GetById | src/services/api/noteService.js:15-19 | Some note exactly when one with the id is stored, and then it is the first such note. Otherwise `null`. |
| NoteStore.Create | src/services/api/noteService.js:21-32 | Appends exactly one note. Its content and time are the ones given. Its summary and key points are computed from the content. |
| NoteStore.MergeNote | src/services/api/noteService.js:38-43 | The patch's keys override the note's. The summary and key points are re-derived from truthy new content. Otherwise they keep their stored values, even when the patch supplies its own. |
| NoteStore.Update | src/services/api/noteService.js:34-48 | Fails with "Note not found" exactly when no note has the id. Otherwise it replaces the first such note by the merge and returns the merged note. |
| NoteStore.UpdateWithoutContentKeepsDerived | src/services/api/noteService.js:41-42 | An update without truthy content keeps the stored summary and key points. |
| NoteStore.UpdateTouchesOneNote | src/services/api/noteService.js:36-45 | An update keeps the list length and every note with another id. The returned note stands at a position that had the id. |
| NoteStore.Delete | src/services/api/noteService.js:50-58 | Fails with "Note not found" exactly when no note has the id. Otherwise it removes exactly the first such note, as a multiset difference of one. |
| NoteStore.DeleteRemovesNote | src/services/api/noteService.js:50-58 | With distinct ids, the deleted id is gone and every other id is stored afterwards exactly when it was before. |
| Flashcards.RuleFor | src/services/api/flashcardService.js:76-84 | The colon rule applies exactly when the text has a colon. The define rule applies exactly when there is no colon and "define" occurs case-insensitively. The explain rule applies otherwise. |
| Flashcards.DefineTestIgnoresCase | src/services/api/flashcardService.js:80 | The define test lower-cases first, so upper-casing a text never changes its rule, and "DEFINE" takes the define rule. |
| Flashcards.QuestionAnswer | src/services/api/flashcardService.js:72-84 | Except under the colon rule, the answer is the full text. The define question is "Define: " plus the first three space-separated tokens. The explain question is "Explain: " plus the first 50 characters plus `...`. |
| Flashcards.SplitHasTwoParts | src/services/api/flashcardService.js:77 | Splitting a text that holds the colon gives at least two parts, so `parts[1]` exists. |
| Flashcards.ColonRuleShape | src/services/api/flashcardService.js:76-79 | For `term:body` and `term:body:rest`, the question is "What is " + trim(term) + "?" and the answer is trim(body). Anything after a second colon is lost. |
| Flashcards.ColonCard | src/services/api/flashcardService.js:76-79 | A `Term: explanation` text asks for the term and answers with the explanation. |
| Flashcards.TrailingColonEmptyAnswer | src/services/api/flashcardService.js:77-79 | A text ending in its only colon gets an empty answer. |
| Flashcards.UndefinedTriggersDefine | src/services/api/flashcardService.js:80 | The define test is a substring test, so a text containing "undefined" takes the define rule. |
| Flashcards.NewCard | src/services/api/flashcardService.js:86-93 | A generated card has the given note id, mastery 0 and no review time. |
| Flashcards.CardFor | src/services/api/flashcardService.js:86-93 | The card carries the given id and the question and answer the rules give for the text. |
| Flashcards.CardTexts | src/services/api/flashcardService.js:69-70 | Never more texts than points; each text is longer than 20 characters. |
| Flashcards.CardsFrom | src/services/api/flashcardService.js:69-96 | One card per long enough point, in point order, each built from that point's text. |
| Flashcards.GenerateFromKeyPoints | src/services/api/flashcardService.js:65-101 | The store grows by exactly the returned cards. Their number is the count of points longer than 20 characters, so never more than the points. The i-th card is the fresh card for the i-th such point. |
| Flashcards.HeadingCard | src/services/api/flashcardService.js:70-79 | A lone point `term:` becomes a single card asking "What is term?" with an empty answer. |
| Flashcards.OverviewHeadingCard | src/components/organisms/NoteInput.jsx:29 | The sample note's heading "Photosynthesis Overview:" yields the one card "What is Photosynthesis Overview?" with an empty answer. |
| Flashcards.CardTextsIsFilter | src/services/api/flashcardService.js:69-70 | The texts that become cards are exactly the point texts longer than 20 characters, in order. |
| Flashcards.CardTextsCount | src/services/api/flashcardService.js:69-70 | Their number is the count of points longer than 20 characters. |
| Flashcards.GetById | src/services/api/flashcardService.js:15-19 | Some card exactly when one with the id is stored, and then it is the first such card. |
| Flashcards.GetByNoteId | src/services/api/flashcardService.js:21-24 | A stored card is returned exactly when it belongs to the note, and the result has exactly as many cards as the store holds for that note. |
| Flashcards.GetByNoteIdAppend | src/services/api/flashcardService.js:23 | Store order is kept: cards appended later come later. |
| Flashcards.Create | src/services/api/flashcardService.js:26-38 | Appends one card with the given note id, question and answer, mastery 0 and no review time. Anything else the caller supplies is ignored. |
| Flashcards.MergeCard | src/services/api/flashcardService.js:44-48 | The merged card always carries the new review time. |
| Flashcards.Update | src/services/api/flashcardService.js:40-53 | Fails with "Flashcard not found" exactly when no card has the id. Otherwise it replaces the first such card by the merge. |
| Flashcards.MasteryUpdateKeepsContent | src/services/api/flashcardService.js:44-48 | A mastery-only update changes only mastery and the review time. |
| Flashcards.Delete | src/services/api/flashcardService.js:55-63 | Fails with "Flashcard not found" exactly when no card has the id. Otherwise it removes the first such card and keeps the others in their order. |
| Flashcards.DeleteRemovesCard | src/services/api/flashcardService.js:55-63 | With distinct ids, the deleted id is gone and every other id is stored afterwards exactly when it was before. |
| Sessions.Merge | src/services/api/studySessionService.js:39-42 | An empty patch leaves the session as it is. |
| Sessions.GetById | src/services/api/studySessionService.js:15-19 | Some session exactly when one with the id is stored, and then it is the first such session. Otherwise `null`, not a failure. |
| Sessions.NewSession | src/services/api/studySessionService.js:23-30 | Without supplied keys: the fresh id, start time now, zero counters and no end time. |
| Sessions.Create | src/services/api/studySessionService.js:21-33 | Appends exactly one session. Each field is the supplied value if any, else its default, because the spread comes last. |
| Sessions.StartedSessionIsOpen | src/services/api/studySessionService.js:23-31 | The session the dashboard creates has zero counters and no end time. |
| Sessions.Update | src/services/api/studySessionService.js:35-47 | Fails with "Study session not found" exactly when no session has the id. Otherwise it replaces the first such session by the merge. |
| Sessions.EndSession | src/services/api/studySessionService.js:59-71 | Fails exactly when no session has the id. Otherwise only that session's end time changes, and it is set to now. |
| Sessions.EndSessionIsUpdate | src/services/api/studySessionService.js:59-71 | Ending is an update whose patch has only an end time. Ending again later only moves the end time. |
| Sessions.Delete | src/services/api/studySessionService.js:49-57 | Fails exactly when no session has the id. Otherwise it removes the first such session and keeps the others in their order. |
| Sessions.DeleteRemovesSession | src/services/api/studySessionService.js:49-57 | With distinct ids, the deleted id is gone and every other id is stored afterwards exactly when it was before. |
| Calendar.MaxId | src/services/api/studyCalendarService.js:8 | `Math.max(...ids, 0)`: at least 0, no smaller than any Id, and either 0 or some event's Id. |
| Calendar.Init | src/services/api/studyCalendarService.js:6-9 | The seeded store holds the seed events, and no Id exceeds the counter. |
| Calendar.GetById | src/services/api/studyCalendarService.js:16-20 | Some event exactly when some Id equals `parseInt(id)`, and then it is the first such event. |
| Calendar.GetByNumericId | src/services/api/studyCalendarService.js:18 | Looking an event up by a number's decimal rendering finds one exactly when an event has that Id. |
| Calendar.GetByDate | src/services/api/studyCalendarService.js:22-25 | A stored event is returned exactly when its date string equals the argument, and the result has exactly as many events as match. |
| Calendar.GetByDateAppend | src/services/api/studyCalendarService.js:24 | Store order is kept: events appended later come later. |
| Calendar.GetByDateRange | src/services/api/studyCalendarService.js:27-32 | A stored event is returned exactly when start <= date <= end under string order, inclusive at both ends. The result has exactly as many events as match. |
| Calendar.GetByDateRangeAppend | src/services/api/studyCalendarService.js:29-31 | Store order is kept: events appended later come later. |
| Calendar.ReversedRangeEmpty | src/services/api/studyCalendarService.js:29-31 | A range whose start is after its end is empty. |
| Calendar.SingleDayRange | src/services/api/studyCalendarService.js:24-31 | A one-day range is the same query as the date lookup. |
| Calendar.Create | src/services/api/studyCalendarService.js:34-45 | Bumps the counter by one and appends one event. The event has the counter's new value as its Id, type "review", priority "medium" and not completed, unless the caller supplies any of these. |
| Calendar.CreateFreshId | src/services/api/studyCalendarService.js:8-37 | Without a supplied Id, the new Id exceeds every stored Id, and the store stays valid. |
| Calendar.CreateKeepsSuppliedId | src/services/api/studyCalendarService.js:36-42 | A supplied Id wins over the counter, so it may repeat a stored Id. |
| Calendar.CreatedIdsIncrease | src/services/api/studyCalendarService.js:37 | Two creations without supplied Ids give strictly increasing Ids. |
| Calendar.Merge | src/services/api/studyCalendarService.js:51-54 | Each field present in the patch overrides the event's value, and every absent field keeps it, so an empty patch leaves the event as it is. |
| Calendar.Update | src/services/api/studyCalendarService.js:47-59 | Fails with "Calendar event not found" exactly when no Id matches. Otherwise it replaces the first match by the merge. |
| Calendar.UpdateKeepsValid | src/services/api/studyCalendarService.js:47-59 | An update whose Id, if any, is within the counter keeps the store valid. |
| Calendar.MarkCompleted | src/services/api/studyCalendarService.js:71-74 | Fails exactly when no Id matches. Otherwise the matched event becomes completed and nothing else changes. |
| Calendar.MarkCompletedIdempotent | src/services/api/studyCalendarService.js:71-74 | Marking an event completed a second time changes nothing. |
| Calendar.Reschedule | src/services/api/studyCalendarService.js:76-79 | Fails exactly when no Id matches. Otherwise only the matched event's date changes, to any string. |
| Calendar.RescheduleMovesEvent | src/services/api/studyCalendarService.js:76-79 | The moved event appears in its new date's lookup, and every other event stays as it was. |
| Calendar.Delete | src/services/api/studyCalendarService.js:61-69 | Fails exactly when no Id matches. Otherwise it removes the first match, keeps the other events in their order and does not rewind the counter. |
| Calendar.DeleteKeepsValid | src/services/api/studyCalendarService.js:61-69 | Deleting keeps the store valid, so later Ids stay fresh. |
| Dashboard.NextMastery | src/components/pages/StudyDashboard.jsx:114-116 | A correct answer gives min(1, m + 0.2): at most both, and equal to one of them. An incorrect one gives max(0, m - 0.1): at least both, and equal to one of them. |
| Dashboard.MasteryStaysInUnit | src/components/pages/StudyDashboard.jsx:114-116 | Mastery stays in [0, 1]. A correct answer never lowers it, and an incorrect one never raises it. |
| Dashboard.MasteryFixedPoints | src/components/pages/StudyDashboard.jsx:114-116 | Mastery stays put exactly when it is 1 and the answer is correct, or 0 and the answer is incorrect. |
| Dashboard.RightThenWrongGains | src/components/pages/StudyDashboard.jsx:114-116 | Below 0.8, a right answer and then a wrong one gain 0.1 overall. |
| Dashboard.SetMastery | src/components/pages/StudyDashboard.jsx:121-123 | Only cards with the answered id get the new mastery; every other card is untouched. |
| Dashboard.SubmitNote | src/components/pages/StudyDashboard.jsx:57-86 | Whitespace-only content leaves the page as it is. Otherwise one note is created with the given id and time and the summary of its content; it is put first in the list and made current. The page's cards are one fresh card of this note per key point longer than 20 characters, in point order, each built from that point's text. The summary view opens. |
| Dashboard.SubmittedNoteReloads | src/components/pages/StudyDashboard.jsx:62-75 | With a fresh note id, and no stored card of that id yet, looking the note up by its id gives the current note, and looking cards up by the note id gives exactly the page's cards. |
| Dashboard.StartSession | src/components/pages/StudyDashboard.jsx:88-105 | With no flashcards nothing happens. Otherwise a session with zero counters is stored and made current, and the flashcard view opens. Nothing else changes. |
| Dashboard.AnswerCard | src/components/pages/StudyDashboard.jsx:112-124 | A card not on the page changes nothing. A card missing from the store is a failure. Otherwise the first stored card with the id gets the new mastery and the review time, the page's copies get the new mastery, and nothing else changes. |
| Dashboard.Answer | src/components/pages/StudyDashboard.jsx:107-141 | Without a session nothing happens, and a failed card update changes nothing. Otherwise the card step is kept. When the session is stored, its stored record gets cardsReviewed + 1 and correctAnswers + 1 exactly when correct, and that record becomes the current session. Nothing else changes. |
| Dashboard.AnswerTouchesOneCard | src/components/pages/StudyDashboard.jsx:112-123 | The page's list keeps its length and order; only the answered card's mastery can change. |
| Dashboard.AnswerUnknownCardStillCounts | src/components/pages/StudyDashboard.jsx:112-130 | An answer for a card not on the page changes no card but still counts. |
| Dashboard.AnswerKeepsCountsConsistent | src/components/pages/StudyDashboard.jsx:127-130 | Answers keep 0 <= correctAnswers <= cardsReviewed. |
| Dashboard.AnswerPersistsMastery | src/components/pages/StudyDashboard.jsx:112-123 | After answering a card on the page, the store lookup of that card shows the new mastery and the review time, the mastery the page shows. |
| Dashboard.AnswerPersistsCounters | src/components/pages/StudyDashboard.jsx:127-131 | After an answer, the store lookup of a stored session gives the page's current session, counters included. |
| Dashboard.EndSession | src/components/pages/StudyDashboard.jsx:143-154 | Without a session nothing happens. Otherwise the stored session gets its end time, the page drops the session and shows the summary. When the service throws, nothing changes. |
| Dashboard.UpdatePoints | src/components/pages/StudyDashboard.jsx:253-255 | The patch is merged into exactly the points with the matching id. |
| Dashboard.UpdatePoint | src/components/pages/StudyDashboard.jsx:252-257 | Only the current note's key points change; the note list and stores do not see the edit. |
| Dashboard.ToggleHighlight | src/components/organisms/KeyPointsSidebar.jsx:25-27 | Every point with the id gets the negated flag. All other points, the note's other fields and the rest of the page are unchanged. |
| Dashboard.ToggleHighlightFlips | src/components/organisms/KeyPointsSidebar.jsx:25-27 | The toggled point's highlight is negated and nothing else changes. Toggling back restores the page. |
| Viewer.StartValid | src/components/organisms/FlashcardViewer.jsx:9-11 | The initial state is valid: index 0, and both flags false and equal. |
| Viewer.Flip | src/components/organisms/FlashcardViewer.jsx:16-19 | Flipping negates both flags and keeps the index. |
| Viewer.Next | src/components/organisms/FlashcardViewer.jsx:37-43 | Moves to the next card, front side up. A no-op on the last card. |
| Viewer.Previous | src/components/organisms/FlashcardViewer.jsx:45-51 | Moves to the previous card, front side up. A no-op on the first card. |
| Viewer.Answer | src/components/organisms/FlashcardViewer.jsx:21-35 | Without a current card and a session, nothing happens. Otherwise it reports (card id, correct). Then it advances by one card, or on the last card asks to end the session and stays. |
| Viewer.TransitionsKeepValid | src/components/organisms/FlashcardViewer.jsx:16-51 | Every transition keeps the index in range and the two flags equal. |
| Viewer.NextThenPrevious | src/components/organisms/FlashcardViewer.jsx:37-51 | Going forward then back returns to the same card, front side up. |
| Viewer.IdsFrom | src/components/organisms/FlashcardViewer.jsx:13 | Proof helper for `Viewer.AnswerAllReportsDeck`: the ids of the deck from a position on, in order. |
| Viewer.AnswerAllReportsDeck | src/components/organisms/FlashcardViewer.jsx:21-33 | Answering through the deck from any card reports each remaining card once, in order, and ends the session on the last. |
| Viewer.Progress | src/components/organisms/FlashcardViewer.jsx:14 | Undefined for an empty deck. Otherwise in (0, 100] for a card of the deck, and 100 exactly on the last card. |
| Viewer.ProgressIncreases | src/components/organisms/FlashcardViewer.jsx:14 | Progress grows strictly with the position. |
| Viewer.MasteryTier | src/components/organisms/FlashcardViewer.jsx:53-57 | Green from 0.8, yellow in [0.5, 0.8), red below 0.5. The tiers are disjoint and exhaustive. |
| Viewer.MasteryTierMonotone | src/components/organisms/FlashcardViewer.jsx:53-57 | More mastery never gives a lower tier. |
| Progress.Round | src/components/organisms/StudyProgress.jsx:21 | `Math.round`: the integer within half a unit, halves rounded up. |
| Progress.RoundUnique | src/components/organisms/StudyProgress.jsx:21 | That integer is unique. |
| Progress.RoundMonotone | src/components/organisms/StudyProgress.jsx:21 | Rounding is monotone. |
| Progress.RoundPercent | src/components/organisms/StudyProgress.jsx:21-25 | Rounding a value in [0, 100] stays in [0, 100]. |
| Progress.Accuracy | src/components/organisms/StudyProgress.jsx:20-22 | 0 before any answer. Otherwise within half a unit of correct / reviewed × 100, halves going up. With 0 <= correct <= reviewed it lies in [0, 100]; it is 100 when every answer was correct and 0 when none was. |
| Progress.Incorrect | src/components/organisms/StudyProgress.jsx:97 | Incorrect plus correct is the number reviewed. |
| Progress.IncorrectCountsWrongAnswers | src/components/organisms/StudyProgress.jsx:97 | One more answer raises the incorrect figure by one exactly when it is wrong. |
| Progress.MasterySum | src/components/organisms/StudyProgress.jsx:25 | The `reduce` over the masteries. With masteries in [0, 1], the sum lies between 0 and the number of cards. |
| Progress.OverallMastery | src/components/organisms/StudyProgress.jsx:24-26 | 0 with no cards. Otherwise within half a unit of the mean mastery × 100, halves going up. With masteries in [0, 1] it lies in [0, 100]. |
| Progress.FreshDeckHasNoMastery | src/components/organisms/StudyProgress.jsx:24-26 | A deck of fresh cards has overall mastery 0. |
| Progress.Breakdown | src/components/organisms/StudyProgress.jsx:121-134 | At most the first five cards, each with its question and rounded percentage. |
| Progress.JsRem | src/components/organisms/StudyProgress.jsx:30 | JavaScript's `%`: the remainder takes the dividend's sign and is smaller than the divisor in size. |
| Progress.MinutesSecondsSplit | src/components/organisms/StudyProgress.jsx:28-30 | For a non-negative duration: whole minutes and the seconds left over, with seconds in [0, 59]. |
| Progress.NegativeDurationSeconds | src/components/organisms/StudyProgress.jsx:28-30 | A negative duration gives seconds in [-60, 0]. |
| Progress.NegativeDurationShown | src/components/organisms/StudyProgress.jsx:28-30 | For a negative duration the minutes are floored. A whole number of minutes shows exactly, with 0 seconds. Otherwise minutes and seconds together stand for the duration less one minute. |
| Progress.NegativeHalfMinute | src/components/organisms/StudyProgress.jsx:28-30 | A duration of -30 s shows as -1 minute and -30 seconds. |
| Progress.MinuteSplitUnique | src/components/organisms/StudyProgress.jsx:29 | A duration written as whole minutes plus a rest below one minute gives those minutes and that rest under floored `/` and `%`. |
| Export.Toggle | src/components/organisms/ExportModal.jsx:26-32 | Flips the membership of exactly the given option. |
| Export.ToggleTwice | src/components/organisms/ExportModal.jsx:26-32 | Toggling twice restores which options are selected. |
| Export.ToggleKeepsDistinct | src/components/organisms/ExportModal.jsx:26-32 | Toggling never lists an option twice. |
| Export.CanExport | src/components/organisms/ExportModal.jsx:68-72 | True exactly when some option is ticked. |
| Export.Emit | src/components/organisms/ExportModal.jsx:34-65 | Empty when nothing is ticked, and at least as long as each ticked option's block. |
| Export.BlocksFilterCons | src/components/organisms/ExportModal.jsx:37-63 | Filtering a list headed by an option keeps its block exactly when it is selected. |
| Export.FixedSectionOrder | src/components/organisms/ExportModal.jsx:37-63 | The text is the blocks of the selected options in the fixed order summary, key points, flashcards, original. |
| Export.EmitEmpty | src/components/organisms/ExportModal.jsx:35-63 | With non-empty blocks, the text is empty exactly when nothing is selected. |
| Export.GenerateContent | src/components/organisms/ExportModal.jsx:34-72 | The text is empty exactly when nothing is selected, so the export guard refuses exactly the empty selection. |
| Export.GenerateContentOrder | src/components/organisms/ExportModal.jsx:37-63 | Each section appears exactly when selected, in the fixed order. |
| Export.SelectionOrderIrrelevant | src/components/organisms/ExportModal.jsx:37-63 | Two selections holding the same options give the same text. |
| Export.Header | src/components/organisms/ExportModal.jsx:38 | A section starts with its title, a newline, fifty `=` and a blank line. |
| Export.SummaryBody | src/components/organisms/ExportModal.jsx:39 | The summary's lines joined by a newline and a bullet, then a blank line. |
| Export.Block | src/components/organisms/ExportModal.jsx:37-63 | No emitted section is empty. |
| Export.Body | src/components/organisms/ExportModal.jsx:37-63 | The note's content is exported verbatim. The flashcards body is empty exactly when there are no cards. Every other body ends in a newline. |
| Export.KeyPointTexts | src/components/organisms/ExportModal.jsx:44-46 | One line per key point, numbered from the start, with the text and the upper-cased importance in brackets. |
| Export.KeyPointsBody | src/components/organisms/ExportModal.jsx:44-47 | Ends in a newline. When no point text holds a newline it reads back as one line per point numbered from 1, then the blank line. |
| Export.KeyPointText | src/components/organisms/ExportModal.jsx:45 | A single line whenever the point's text is one. |
| Export.UpperImportanceNames | src/components/organisms/ExportModal.jsx:45 | The bracketed importances are HIGH, MEDIUM and LOW. |
| Export.DecimalHasNoNewline | src/components/organisms/ExportModal.jsx:45-56 | Rendered numbers hold no line break. |
| Export.CardBlocks | src/components/organisms/ExportModal.jsx:52-57 | The card text is empty exactly when there are no cards. |
| Export.CardsLines | src/components/organisms/ExportModal.jsx:52-57 | Five lines per card, in card order: "Card n:", "Q: …", "A: …", "Mastery: …%" and a blank line. |
| Export.CardBlock | src/components/organisms/ExportModal.jsx:53-56 | When the question and answer hold no newline, one card's block reads back as its four lines and a blank line. |
| Export.CardBlocksAreLines | src/components/organisms/ExportModal.jsx:52-57 | The card text is all card lines, each ending in a newline. |
| Export.CardLines | src/components/organisms/ExportModal.jsx:53-56 | Four lines, each a single line when the question and answer are. |
| Export.CardsLinesNoNewline | src/components/organisms/ExportModal.jsx:52-57 | The same for every card. |
| Export.CardBlocksRead | src/components/organisms/ExportModal.jsx:52-57 | The card text reads back as five lines per card, numbered from 1. |
| Export.ExportedSummaryDoubleBullets | src/components/organisms/ExportModal.jsx:39 | The exported summary is the topics joined by `\n• `, with every topic after the first carrying a second bullet. |
| SummaryDisplay.SummaryPoints | src/components/organisms/SummaryDisplay.jsx:21 | A line of the summary is a point exactly when it is non-blank, and there are as many points as such lines. No point holds a newline. |
| SummaryDisplay.SummaryPointsAppend | src/components/organisms/SummaryDisplay.jsx:21 | Line order is kept: the points of `a + "\n" + b` are those of `a`, then those of `b`. |
| SummaryDisplay.DisplayPoint | src/components/organisms/SummaryDisplay.jsx:105 | Removes the first `• ` and nothing else: a point without one is unchanged, and otherwise the bullet at its first occurrence is cut out. The result is never longer than the point. |
| SummaryDisplay.DisplayShrinks | src/components/organisms/SummaryDisplay.jsx:105 | The replacement of the first bullet by nothing does not lengthen the text. |
| SummaryDisplay.DisplayedPoints | src/components/organisms/SummaryDisplay.jsx:21-105 | The displayed text of each summary point, in order. |
| SummaryDisplay.SummaryLines | src/services/api/noteService.js:73 | A generated summary's lines are the first topic, then each further topic behind its bullet. |
| SummaryDisplay.JoinedTopicLines | src/services/api/noteService.js:73 | For any single-line topics, the lines of their bullet join are the first topic, then each further topic behind its bullet. |
| SummaryDisplay.GeneratedPoints | src/components/organisms/SummaryDisplay.jsx:21 | Every line of a non-empty generated summary is a point. |
| SummaryDisplay.JoinedTopicPoints | src/components/organisms/SummaryDisplay.jsx:21 | For any trimmed, non-empty, single-line topics, every line of their bullet join is a point. |
| SummaryDisplay.DisplayUndoesBullets | src/components/organisms/SummaryDisplay.jsx:105 | Removing the first bullet from each point gives back the parts, when the first part holds no bullet. |
| SummaryDisplay.SummaryRoundTrip | src/components/organisms/SummaryDisplay.jsx:21-105 | Reading a generated summary back gives its topics, provided the first topic holds no `• `. |
| SummaryDisplay.LeadingBulletLost | src/components/organisms/SummaryDisplay.jsx:105 | A point that itself starts with a bullet loses it on display. |
| SummaryDisplay.HighPriorityCount | src/components/organisms/SummaryDisplay.jsx:173 | The number of high-importance points. |
| SummaryDisplay.HighPriorityIsHighlighted | src/components/organisms/SummaryDisplay.jsx:173 | For freshly extracted points, this is also the number of highlighted points. |
| SummaryDisplay.ReadTime | src/components/organisms/SummaryDisplay.jsx:179 | The least number of minutes covering the space-separated tokens at 200 a minute, and at least 1. |
| SummaryDisplay.InitialOpenSections | src/components/organisms/SummaryDisplay.jsx:9-12 | Initially the summary is open and the original is closed. |
| SummaryDisplay.ToggleSection | src/components/organisms/SummaryDisplay.jsx:14-19 | Flips exactly the named section; a never-set section counts as closed. |
| SummaryDisplay.ToggleSectionTwice | src/components/organisms/SummaryDisplay.jsx:14-19 | Toggling a section twice restores every section. |
| Collections.FindIndex | src/services/api/noteService.js:36 | `findIndex`: the least position where the test holds, or `None` (the source's -1) exactly when it holds nowhere. |
| Collections.Find | src/services/api/noteService.js:17 | `find`: the element at the position `findIndex` gives, or `None` (`undefined`) exactly when nothing matches. |
| Collections.Filter | src/services/api/flashcardService.js:23 | `filter`: never longer than the input; every kept element is in the input and passes; every passing element is kept. |
| Collections.FilterAppend | src/services/api/flashcardService.js:23 | Filtering a concatenation filters each part, so kept elements stay in input order. |
| Collections.RemoveAt | src/services/api/noteService.js:54 | `splice(i, 1)`: one element shorter, the elements before `i` in place and the later ones moved down by one. |
| Collections.RemoveAtKeys | src/services/api/noteService.js:54 | After removing position `i`, a key occurs exactly when it occurred at some other position. |
| Collections.RemoveFirst | src/services/api/noteService.js:52-55 | `findIndex` then `splice`: `None` exactly when nothing matches; otherwise the input without its first match. |
| Text.Trim | src/services/api/noteService.js:89 | The result has neither end blank and is no longer than the input. |
| Text.TrimIsMiddle | src/services/api/noteService.js:89 | Trimming removes only a blank prefix and a blank suffix. |
| Text.TrimEmptyIffAllSpace | src/components/pages/StudyDashboard.jsx:58 | Trimming gives the empty string exactly when the text is all whitespace. |
| Text.Split | src/services/api/noteService.js:78 | At least one part, none holding the separator. |
| Text.JoinSplit | src/services/api/noteService.js:78 | Joining the parts with the separator gives back the text. |
| Text.SplitJoin | src/services/api/noteService.js:73 | Splitting the join of separator-free parts gives back the parts. |
| Text.SplitAppend | src/services/api/noteService.js:65 | Splitting at a separator placed between two texts splits each text on its own. |
| Text.JoinAppend | src/services/api/noteService.js:73 | Joining two non-empty lists is joining each, with the separator between. |
| Text.JoinStartsWithFirst | src/services/api/noteService.js:73 | A join starts with its first piece. |
| Text.UpperFixedIff | src/services/api/noteService.js:96 | A text equals its upper-casing exactly when it has no lower-case letter. |
| Text.ToUpper | src/services/api/noteService.js:96 | Same length, and each character is upper-cased on its own: ASCII letters move, everything else stays. |
| Text.WordBoundaryCases | src/services/api/noteService.js:83-85 | `\b` at an end of a non-empty text holds exactly when the end character is a word character; inside, exactly between a word and a non-word character; never in the empty text. |
| Text.ParseInt | src/services/api/studyCalendarService.js:18 | After leading whitespace and one optional sign, a `0x` or `0X` prefix selects base 16, and anything else base 10. `NaN` exactly when no digit of that base follows. |
| Text.ParseIntRendered | src/services/api/studyCalendarService.js:18 | `parseInt` reads back the decimal rendering of every integer. |
| Text.ParseIntHexValue | src/services/api/studyCalendarService.js:18 | Behind an optional sign, `0x` and a run of hex digits ending at a non-hex character or the end read as the run's base-16 value, negated after `-`. |
| Text.ParseIntHexNaN | src/services/api/studyCalendarService.js:18 | `0x` with no hex digit after it is `NaN`, though a decimal reading would find the 0. |
| Text.ParseIntHexExamples | src/services/api/studyCalendarService.js:18 | `parseInt("0x1A")` is 26 and `parseInt("0x")` is `NaN`. |
| Text.Magnitude | src/services/api/studyCalendarService.js:18 | The unsigned part has a value exactly when a digit of the base `RadixOf` picks starts the text after the prefix. |
| Text.DecimalMagnitude | src/services/api/studyCalendarService.js:18 | With no `0x` prefix, a run of decimal digits ended by a non-digit or the end has the run's base-10 value, and no value when the run is empty. |
| Text.HexMagnitude | src/services/api/studyCalendarService.js:18 | Behind `0x`, a run of hex digits ended by a non-hex character or the end has the run's base-16 value, and no value when the run is empty. |
| Text.ParseIntDecimalValue | src/services/api/studyCalendarService.js:18 | Whitespace, one optional sign, a non-empty decimal run and a tail that does not start with a digit (and no `0x` prefix) read as the run's base-10 value, negated after `-`. Leading zeros count as digits and the tail is ignored. |
| Text.ParseIntSigned | src/services/api/studyCalendarService.js:18 | Whitespace, one optional sign and a text with magnitude `m` that does not start with whitespace or a sign read as `m` under that sign. |
| Text.SignedMagnitude | src/services/api/studyCalendarService.js:18 | With no whitespace in front, the first character decides the sign of the magnitude read. |
| Text.ReadAfterTrim | src/services/api/studyCalendarService.js:18 | Once whitespace is trimmed, a leading `-` negates the magnitude read after the sign and anything else keeps it. |
| Text.TrimStartSkips | src/services/api/studyCalendarService.js:18 | Trimming drops all the whitespace in front of a text that does not start with whitespace, and nothing else. |
| Text.ParseIntLeadingSpace | src/services/api/studyCalendarService.js:18 | `parseInt(" 12")` is 12. |
| Text.ParseIntPlusSign | src/services/api/studyCalendarService.js:18 | `parseInt("+12")` is 12. |
| Text.ParseIntTrailingJunk | src/services/api/studyCalendarService.js:18 | `parseInt("12abc")` is 12. |
| Text.ParseIntLeadingZeros | src/services/api/studyCalendarService.js:18 | `parseInt("007")` is 7. |
| Text.ParseIntFraction | src/services/api/studyCalendarService.js:18 | `parseInt("5.0")` is 5. |
| Text.DigitPrefix | src/services/api/studyCalendarService.js:18 | The longest prefix of digits of the base: all its characters are digits, and the next character, if any, is not. |
| Text.LexLeTotalOrder | src/services/api/studyCalendarService.js:30 | String `<=` is reflexive, transitive and total. |
| Text.ReplaceNewlinesIsJoin | src/components/organisms/ExportModal.jsx:39 | Replacing every newline is splitting on newlines and joining with the longer separator. |
| Text.ReplaceNewlines | src/components/organisms/ExportModal.jsx:39 | `replace(/\n/g, rep)` never shortens the text. What it gives is stated by `Text.ReplaceNewlinesIsJoin`. |
| Text.FirstOccurrence | src/components/organisms/SummaryDisplay.jsx:105 | The least position where the pattern occurs; `None` exactly when it does not occur. |
| Text.ReplaceFirstSpec | src/components/organisms/SummaryDisplay.jsx:105 | `replace` with a string pattern: the text is unchanged when the pattern is absent, and otherwise only its first occurrence is replaced. |

## Left out

- Async plumbing: `delay`, promises, toasts, loading flags and React state
  setters. Only the effect on the data is modelled.
- `getAll` of each store: it returns a copy of the list, which the model
  already has.
- Ids and timestamps from `Date.now()`, `new Date()` and `Math.random()`
  are parameters. The model does not state that they are distinct.
- Floating point: mastery and the figures are `real`, and `Math.round` is
  rounding to nearest with halves up. Float drift is not modelled.
- Unicode: `trim`, `\s`, `\w`, `\b` and `toUpperCase` are modelled on
  ASCII, with the sets written out in `Text`.
- `undefined` values in patches: a key is either absent (`None`) or
  present with a value of the record's own type.
- Calendar drafts: `date`, `title` and `cardCount` are required. The
  source accepts events without them.
- The unused `sentences` in `generateSummary` (`noteService.js:61`): it
  has no effect on the result.
- `handleExport` file output (`ExportModal.jsx:74-113`): the Blob
  download, the PDF and JSON formats and the file name. Only the
  empty-selection guard and `generateContent` are modelled.
- Streak computation and spaced-repetition scheduling: the code has
  neither (`getStreak` is called but never defined).
- Presentation components and the seed JSON data. The seed lists are
  parameters.
- Progress.JsRem: only the sign and size of the remainder are stated, not
  the relation to the quotient. `Progress.MinutesSecondsSplit` states that
  for non-negative durations.
- Progress.MinutesSeconds has no contract of its own. Its figures are
  stated by `Progress.MinutesSecondsSplit` for non-negative durations and
  by `Progress.NegativeDurationSeconds` and `Progress.NegativeDurationShown`
  for negative ones.
- Dashboard.CountAnswer has no contract of its own. The counter steps it
  builds are stated by `Dashboard.Answer`.
- NoteAnalysis.GenerateSummary only states the empty case itself. The join
  is stated by `SummaryDisplay.SummaryLines`,
  `SummaryDisplay.SummaryRoundTrip` and
  `NoteAnalysis.LongOpeningLineGivesSummary`.
- Text.ParseInt: its own contract states when the result is `NaN`. The
  values it reads are stated by `Text.ParseIntDecimalValue` (whitespace,
  sign, decimal run, any tail), `Text.ParseIntHexValue` (sign, `0x`, hex
  run, any tail) and `Text.ParseIntRendered`. Whitespace in front of a
  hex prefix is not covered by a lemma.
- Text.Magnitude: its own contract states only when there is a value. The
  value is stated by `Text.DecimalMagnitude` for base 10 and by
  `Text.HexMagnitude` for base 16.
- Text.ReplaceNewlines: its own contract gives only the length bound. Its
  result is stated by `Text.ReplaceNewlinesIsJoin`.
- Text.ReplaceFirst has no contract of its own. `Text.ReplaceFirstSpec`
  states its result.
- Flashcards.MentionsDefine has no contract of its own: it is the define
  test itself. `Flashcards.RuleFor` and `Flashcards.DefineTestIgnoresCase`
  state how it is used.
- Viewer.AnswerAll is a proof helper with no contract of its own: it
  answers the rest of the deck. `Viewer.AnswerAllReportsDeck` states what
  it reports.

=== FILE: calendar.dfy ===
/** Review events as kept by `studyCalendarService.js`: a list of events and
    the counter `lastId` from which new numeric ids are drawn. */
module Calendar {
  import opened Wrappers
  import opened Text
  import opened Collections

  /** `kind` is the event's `type` key, a keyword in Dafny. */
  datatype CalendarEvent = CalendarEvent(
    Id: int,
    date: string,
    title: string,
    kind: string,
    priority: string,
    completed: bool,
    cardCount: int)

  datatype CalendarStore = CalendarStore(events: seq<CalendarEvent>, lastId: int)

  /** What a caller passes to `create`.  Only the four keys with defaults
      may be left out; the others have none to fall back on. */
  datatype EventDraft = EventDraft(
    Id: Option<int>,
    date: string,
    title: string,
    kind: Option<string>,
    priority: Option<string>,
    completed: Option<bool>,
    cardCount: int)

  /** The keys an update may carry; `None` is a key left out. */
  datatype EventPatch = EventPatch(
    Id: Option<int>,
    date: Option<string>,
    title: Option<string>,
    kind: Option<string>,
    priority: Option<string>,
    completed: Option<bool>,
    cardCount: Option<int>)

  const DefaultKind: string := "review"
  const DefaultPriority: string := "medium"
  const EventNotFound: string := "Calendar event not found"

  const NoKeys: EventPatch := EventPatch(None, None, None, None, None, None, None)

  // ---------------------------------------------------------------- ids

  /** `Math.max(...ids, 0)`. */
  function MaxId(events: seq<CalendarEvent>): (m: int)
    ensures m >= 0
    ensures forall i | 0 <= i < |events| :: events[i].Id <= m
    ensures m == 0 || exists i | 0 <= i < |events| :: events[i].Id == m
    decreases |events|
  {
    if |events| == 0 then 0
    else
      var rest := MaxId(events[1..]);
      if events[0].Id > rest then events[0].Id else rest
  }

  /** The store the constructor builds from its seed list. */
  function Init(seed: seq<CalendarEvent>): (s: CalendarStore)
    ensures s.events == seed && Valid(s)
  {
    CalendarStore(seed, MaxId(seed))
  }

  /** No stored Id exceeds the counter, so the next one drawn is fresh. */
  predicate Valid(s: CalendarStore) {
    s.lastId >= 0 && forall i | 0 <= i < |s.events| :: s.events[i].Id <= s.lastId
  }

  /** `parseInt(id)` compared with `===`; `NaN` matches nothing. */
  predicate Matches(e: CalendarEvent, id: string) {
    var key := ParseInt(id);
    key.Some? && e.Id == key.value
  }

  predicate HasEvent(events: seq<CalendarEvent>, id: string) {
    exists i | 0 <= i < |events| :: Matches(events[i], id)
  }

  function FindEvent(events: seq<CalendarEvent>, id: string): Option<nat> {
    FindIndex(events, (e: CalendarEvent) => Matches(e, id))
  }

  // ---------------------------------------------------------------- queries

  /** `getById`: the first event whose Id is `parseInt(id)`, or `null`. */
  function GetById(events: seq<CalendarEvent>, id: string): (r: Option<CalendarEvent>)
    ensures r.Some? <==> HasEvent(events, id)
    ensures r.Some? ==> r.value in events && Some(r.value.Id) == ParseInt(id)
    ensures r.Some? ==> r.value == events[FindEvent(events, id).value]
  {
    Find(events, (e: CalendarEvent) => Matches(e, id))
  }

  /** A numeric argument, rendered by `parseInt`'s own `String` conversion,
      finds the event with that Id. */
  lemma GetByNumericId(events: seq<CalendarEvent>, n: int)
    ensures GetById(events, IntToDecimal(n)).Some? <==> exists i | 0 <= i < |events| :: events[i].Id == n
  {
    ParseIntRendered(n);
  }

  /** `getByDate`: exactly the events on that date string, in store order. */
  function GetByDate(events: seq<CalendarEvent>, date: string): (r: seq<CalendarEvent>)
    ensures |r| <= |events|
    ensures |r| == Count(events, OnDate(date))
    ensures forall i | 0 <= i < |r| :: r[i] in events && r[i].date == date
    ensures forall j | 0 <= j < |events| :: events[j].date == date ==> events[j] in r
  {
    FilterLength(events, OnDate(date));
    Filter(events, OnDate(date))
  }

  /** The test `getByDate` filters with. */
  function OnDate(date: string): CalendarEvent -> bool {
    (e: CalendarEvent) => e.date == date
  }

  /** Events appended later come after, so store order is kept. */
  lemma GetByDateAppend(a: seq<CalendarEvent>, b: seq<CalendarEvent>, date: string)
    ensures GetByDate(a + b, date) == GetByDate(a, date) + GetByDate(b, date)
  {
    FilterAppend(a, b, OnDate(date));
  }

  predicate InRange(date: string, startDate: string, endDate: string) {
    LexLe(startDate, date) && LexLe(date, endDate)
  }

  /** `getByDateRange`: the events with `startDate <= date <= endDate` under
      string order, both ends included, in store order. */
  function GetByDateRange(events: seq<CalendarEvent>, startDate: string, endDate: string): (r: seq<CalendarEvent>)
    ensures |r| <= |events|
    ensures |r| == Count(events, Within(startDate, endDate))
    ensures forall i | 0 <= i < |r| :: r[i] in events && InRange(r[i].date, startDate, endDate)
    ensures forall j | 0 <= j < |events| :: InRange(events[j].date, startDate, endDate) ==> events[j] in r
  {
    FilterLength(events, Within(startDate, endDate));
    Filter(events, Within(startDate, endDate))
  }

  /** The test `getByDateRange` filters with. */
  function Within(startDate: string, endDate: string): CalendarEvent -> bool {
    (e: CalendarEvent) => InRange(e.date, startDate, endDate)
  }

  /** Events appended later come after, so store order is kept. */
  lemma GetByDateRangeAppend(a: seq<CalendarEvent>, b: seq<CalendarEvent>, startDate: string, endDate: string)
    ensures GetByDateRange(a + b, startDate, endDate) == GetByDateRange(a, startDate, endDate) + GetByDateRange(b, startDate, endDate)
  {
    FilterAppend(a, b, Within(startDate, endDate));
  }

  /** A reversed range is empty. */
  lemma ReversedRangeEmpty(events: seq<CalendarEvent>, startDate: string, endDate: string)
    requires LexLess(endDate, startDate)
    ensures GetByDateRange(events, startDate, endDate) == []
  {
    var r := GetByDateRange(events, startDate, endDate);
    if r != [] {
      LexLeTotalOrder(startDate, r[0].date, endDate);
    }
  }

  /** A one-day range is the same query as `getByDate`. */
  lemma SingleDayRange(events: seq<CalendarEvent>, date: string)
    ensures GetByDateRange(events, date, date) == GetByDate(events, date)
  {
    forall j | 0 <= j < |events| ensures InRange(events[j].date, date, date) == (events[j].date == date) {
      LexLeTotalOrder(date, events[j].date, date);
    }
    FilterSame(events, Within(date, date), OnDate(date));
  }

  // ---------------------------------------------------------------- changes

  /** The event `create` builds: id `Id`, the three defaults, then every key
      of the draft on top. */
  function NewEvent(Id: int, draft: EventDraft): CalendarEvent {
    CalendarEvent(
      draft.Id.GetOr(Id),
      draft.date,
      draft.title,
      draft.kind.GetOr(DefaultKind),
      draft.priority.GetOr(DefaultPriority),
      draft.completed.GetOr(false),
      draft.cardCount)
  }

  /** `create`: bumps the counter, appends one event and returns it. */
  function Create(s: CalendarStore, draft: EventDraft): (r: (CalendarStore, CalendarEvent))
    ensures r.0.lastId == s.lastId + 1
    ensures r.0.events == s.events + [r.1]
    ensures r.1.Id == draft.Id.GetOr(s.lastId + 1)
    ensures r.1.kind == draft.kind.GetOr(DefaultKind)
    ensures r.1.priority == draft.priority.GetOr(DefaultPriority)
    ensures r.1.completed == draft.completed.GetOr(false)
    ensures r.1.date == draft.date && r.1.title == draft.title && r.1.cardCount == draft.cardCount
  {
    var Id := s.lastId + 1;
    var e := NewEvent(Id, draft);
    (CalendarStore(s.events + [e], Id), e)
  }

  /** Without a caller-supplied Id, the new event's Id is larger than every
      Id already stored, and the store stays valid. */
  lemma CreateFreshId(s: CalendarStore, draft: EventDraft)
    requires Valid(s) && draft.Id.None?
    ensures var r := Create(s, draft);
      && Valid(r.0)
      && r.1.Id > s.lastId
      && forall i | 0 <= i < |s.events| :: s.events[i].Id < r.1.Id
  {
    var r := Create(s, draft);
    assert forall i | 0 <= i < |s.events| :: r.0.events[i] == s.events[i];
  }

  /** An Id supplied by the caller wins over the counter, so it may clash
      with a stored one. */
  lemma CreateKeepsSuppliedId(s: CalendarStore, draft: EventDraft, e: CalendarEvent)
    requires e in s.events && draft.Id == Some(e.Id)
    ensures var r := Create(s, draft);
      && r.1.Id == e.Id
      && r.0.events[|s.events|] == r.1
      && exists k | 0 <= k < |s.events| :: r.0.events[k].Id == r.1.Id
  {
    var r := Create(s, draft);
    var k :| 0 <= k < |s.events| && s.events[k] == e;
    assert r.0.events[k] == e;
  }

  /** Two creations in a row without supplied Ids give increasing Ids. */
  lemma CreatedIdsIncrease(s: CalendarStore, d1: EventDraft, d2: EventDraft)
    requires d1.Id.None? && d2.Id.None?
    ensures var r1 := Create(s, d1); var r2 := Create(r1.0, d2);
      r1.1.Id < r2.1.Id && r2.1.Id == s.lastId + 2
  {
  }

  /** `{...event, ...data}`: each key present in `data` overrides, every
      other field keeps the event's value. */
  function Merge(e: CalendarEvent, data: EventPatch): (u: CalendarEvent)
    ensures data == NoKeys ==> u == e
    ensures u.Id == data.Id.GetOr(e.Id) && u.date == data.date.GetOr(e.date)
    ensures u.title == data.title.GetOr(e.title) && u.kind == data.kind.GetOr(e.kind)
    ensures u.priority == data.priority.GetOr(e.priority)
    ensures u.completed == data.completed.GetOr(e.completed)
    ensures u.cardCount == data.cardCount.GetOr(e.cardCount)
  {
    CalendarEvent(
      data.Id.GetOr(e.Id),
      data.date.GetOr(e.date),
      data.title.GetOr(e.title),
      data.kind.GetOr(e.kind),
      data.priority.GetOr(e.priority),
      data.completed.GetOr(e.completed),
      data.cardCount.GetOr(e.cardCount))
  }

  /** `update`: merges `data` into the first matching event, or throws and
      leaves the store unchanged. */
  function Update(s: CalendarStore, id: string, data: EventPatch): (r: Result<(CalendarStore, CalendarEvent)>)
    ensures r.Failure? <==> !HasEvent(s.events, id)
    ensures r.Failure? ==> r.error == EventNotFound
    ensures r.Success? ==>
      var i := FindEvent(s.events, id).value;
      && r.value.0 == s.(events := s.events[i := r.value.1])
      && r.value.1 == Merge(s.events[i], data)
  {
    match FindEvent(s.events, id)
    case None => Failure(EventNotFound)
    case Some(i) =>
      var u := Merge(s.events[i], data);
      Success((s.(events := s.events[i := u]), u))
  }

  /** An update that keeps Ids within the counter keeps the store valid. */
  lemma UpdateKeepsValid(s: CalendarStore, id: string, data: EventPatch)
    requires Valid(s) && (data.Id.None? || data.Id.value <= s.lastId)
    ensures Update(s, id, data).Success? ==> Valid(Update(s, id, data).value.0)
  {
  }

  function CompletedPatch(): EventPatch {
    NoKeys.(completed := Some(true))
  }

  function DatePatch(newDate: string): EventPatch {
    NoKeys.(date := Some(newDate))
  }

  /** `markCompleted`: `update(id, {completed: true})`. */
  function MarkCompleted(s: CalendarStore, id: string): (r: Result<(CalendarStore, CalendarEvent)>)
    ensures r.Failure? <==> !HasEvent(s.events, id)
    ensures r.Success? ==>
      var i := FindEvent(s.events, id).value;
      && r.value.1 == s.events[i].(completed := true)
      && r.value.0 == s.(events := s.events[i := r.value.1])
  {
    Update(s, id, CompletedPatch())
  }

  /** Marking an event completed a second time changes nothing. */
  lemma MarkCompletedIdempotent(s: CalendarStore, id: string)
    requires MarkCompleted(s, id).Success?
    ensures var once := MarkCompleted(s, id).value;
      MarkCompleted(once.0, id) == Success(once)
  {
    var once := MarkCompleted(s, id).value;
    var i := FindEvent(s.events, id).value;
    FindIndexAt(once.0.events, (e: CalendarEvent) => Matches(e, id), i);
    assert once.0.events[i := once.1] == once.0.events;
  }

  /** `reschedule`: `update(id, {date: newDate})`; any string is accepted. */
  function Reschedule(s: CalendarStore, id: string, newDate: string): (r: Result<(CalendarStore, CalendarEvent)>)
    ensures r.Failure? <==> !HasEvent(s.events, id)
    ensures r.Success? ==>
      var i := FindEvent(s.events, id).value;
      && r.value.1 == s.events[i].(date := newDate)
      && r.value.0 == s.(events := s.events[i := r.value.1])
  {
    Update(s, id, DatePatch(newDate))
  }

  /** Rescheduling moves the event into exactly the one-day query of its new
      date and changes no other event. */
  lemma RescheduleMovesEvent(s: CalendarStore, id: string, newDate: string)
    requires Reschedule(s, id, newDate).Success?
    ensures var r := Reschedule(s, id, newDate).value;
      && r.1 in GetByDate(r.0.events, newDate)
      && |r.0.events| == |s.events|
      && forall j | 0 <= j < |s.events| && !Matches(s.events[j], id) :: r.0.events[j] == s.events[j]
  {
    var r := Reschedule(s, id, newDate).value;
    var i := FindEvent(s.events, id).value;
    assert r.0.events[i] == r.1;
  }

  /** `delete`: removes the first matching event, or throws.  The counter is
      not rewound, so an Id is never handed out twice. */
  function Delete(s: CalendarStore, id: string): (r: Result<CalendarStore>)
    ensures r.Failure? <==> !HasEvent(s.events, id)
    ensures r.Failure? ==> r.error == EventNotFound
    ensures r.Success? ==>
      var i := FindEvent(s.events, id).value;
      && r.value.lastId == s.lastId
      && |r.value.events| == |s.events| - 1
      && multiset(r.value.events) + multiset{s.events[i]} == multiset(s.events)
      && r.value.events == RemoveAt(s.events, i)
  {
    match RemoveFirst(s.events, (e: CalendarEvent) => Matches(e, id))
    case None => Failure(EventNotFound)
    case Some(rest) => Success(s.(events := rest))
  }

  lemma DeleteKeepsValid(s: CalendarStore, id: string)
    requires Valid(s)
    ensures Delete(s, id).Success? ==> Valid(Delete(s, id).value)
  {
    if Delete(s, id).Success? {
      var r := Delete(s, id).value;
      var i := FindEvent(s.events, id).value;
      assert forall j | 0 <= j < |r.events| :: r.events[j] == s.events[if j < i then j else j + 1];
    }
  }
}

=== FILE: collections.dfy ===
/** The array operations the in-memory stores are built from:
    `findIndex`, `filter`, `splice(i, 1)`, and a few counting helpers. */
module Collections {
  import opened Wrappers

  /** `xs.findIndex(p)`, with `-1` rendered as `None`. */
  function FindIndex<T>(xs: seq<T>, p: T -> bool): (r: Option<nat>)
    ensures r.Some? ==> r.value < |xs| && p(xs[r.value])
    ensures r.Some? ==> forall j | 0 <= j < r.value :: !p(xs[j])
    ensures r.None? <==> forall j | 0 <= j < |xs| :: !p(xs[j])
    decreases |xs|
  {
    if |xs| == 0 then None
    else if p(xs[0]) then Some(0)
    else match FindIndex(xs[1..], p)
      case None => None
      case Some(k) => Some(k + 1)
  }

  /** The first match is determined by where `p` holds: a position that
      matches, with no match before it, is what `findIndex` returns. */
  lemma FindIndexAt<T>(xs: seq<T>, p: T -> bool, k: nat)
    requires k < |xs| && p(xs[k])
    requires forall j | 0 <= j < k :: !p(xs[j])
    ensures FindIndex(xs, p) == Some(k)
  {
  }

  /** `xs.find(p)`: the first element satisfying `p`, if any. */
  function Find<T>(xs: seq<T>, p: T -> bool): (r: Option<T>)
    ensures r.Some? ==> r.value in xs && p(r.value)
    ensures r.Some? ==> r.value == xs[FindIndex(xs, p).value]
    ensures r.None? <==> forall j | 0 <= j < |xs| :: !p(xs[j])
  {
    match FindIndex(xs, p)
    case None => None
    case Some(k) => Some(xs[k])
  }

  /** `xs.filter(p)`. */
  function Filter<T>(xs: seq<T>, p: T -> bool): (r: seq<T>)
    ensures |r| <= |xs|
    ensures forall i | 0 <= i < |r| :: r[i] in xs && p(r[i])
    ensures forall j | 0 <= j < |xs| :: p(xs[j]) ==> xs[j] in r
    decreases |xs|
  {
    if |xs| == 0 then []
    else if p(xs[0]) then [xs[0]] + Filter(xs[1..], p)
    else Filter(xs[1..], p)
  }

  /** Filtering distributes over concatenation, so the kept elements stay in
      their original order. */
  lemma {:induction false} FilterAppend<T>(xs: seq<T>, ys: seq<T>, p: T -> bool)
    ensures Filter(xs + ys, p) == Filter(xs, p) + Filter(ys, p)
    decreases |xs|
  {
    if |xs| > 0 {
      assert (xs + ys)[0] == xs[0];
      assert (xs + ys)[1..] == xs[1..] + ys;
      FilterAppend(xs[1..], ys, p);
    } else {
      assert xs + ys == ys;
    }
  }

  /** Filters that agree on every element give the same result. */
  lemma {:induction false} FilterSame<T>(xs: seq<T>, p: T -> bool, q: T -> bool)
    requires forall j | 0 <= j < |xs| :: p(xs[j]) == q(xs[j])
    ensures Filter(xs, p) == Filter(xs, q)
    decreases |xs|
  {
    if |xs| > 0 {
      assert forall j | 0 <= j < |xs[1..]| :: xs[1..][j] == xs[j + 1];
      FilterSame(xs[1..], p, q);
    }
  }

  /** A filter every element passes returns the sequence itself. */
  lemma {:induction false} FilterAll<T>(xs: seq<T>, p: T -> bool)
    requires forall j | 0 <= j < |xs| :: p(xs[j])
    ensures Filter(xs, p) == xs
    decreases |xs|
  {
    if |xs| > 0 {
      assert forall j | 0 <= j < |xs[1..]| :: xs[1..][j] == xs[j + 1];
      FilterAll(xs[1..], p);
    }
  }

  /** Number of elements satisfying `p`. */
  function Count<T>(xs: seq<T>, p: T -> bool): (n: nat)
    ensures n <= |xs|
    ensures n == 0 <==> forall j | 0 <= j < |xs| :: !p(xs[j])
    decreases |xs|
  {
    if |xs| == 0 then 0 else (if p(xs[0]) then 1 else 0) + Count(xs[1..], p)
  }

  /** The length of a filter is the count of the elements it keeps. */
  lemma {:induction false} FilterLength<T>(xs: seq<T>, p: T -> bool)
    ensures |Filter(xs, p)| == Count(xs, p)
    decreases |xs|
  {
    if |xs| > 0 {
      FilterLength(xs[1..], p);
    }
  }

  /** Predicates that agree on every element count the same. */
  lemma {:induction false} CountSame<T>(xs: seq<T>, p: T -> bool, q: T -> bool)
    requires forall j | 0 <= j < |xs| :: p(xs[j]) == q(xs[j])
    ensures Count(xs, p) == Count(xs, q)
    decreases |xs|
  {
    if |xs| > 0 {
      assert forall j | 0 <= j < |xs[1..]| :: xs[1..][j] == xs[j + 1];
      CountSame(xs[1..], p, q);
    }
  }

  /** Nothing passes, so nothing is kept. */
  lemma {:induction false} FilterNone<T>(xs: seq<T>, p: T -> bool)
    requires forall j | 0 <= j < |xs| :: !p(xs[j])
    ensures Filter(xs, p) == []
    decreases |xs|
  {
    if |xs| > 0 {
      assert forall j | 0 <= j < |xs[1..]| :: xs[1..][j] == xs[j + 1];
      FilterNone(xs[1..], p);
    }
  }

  /** No element occurs twice. */
  predicate Distinct<T(==)>(xs: seq<T>) {
    forall i, j | 0 <= i < j < |xs| :: xs[i] != xs[j]
  }

  /** Filtering a list without repeats keeps it without repeats. */
  lemma {:induction false} FilterDistinct<T>(xs: seq<T>, p: T -> bool)
    requires Distinct(xs)
    ensures Distinct(Filter(xs, p))
    decreases |xs|
  {
    if |xs| > 0 {
      var rest := xs[1..];
      assert Distinct(rest) by {
        forall i, j | 0 <= i < j < |rest| ensures rest[i] != rest[j] {
          assert rest[i] == xs[i + 1] && rest[j] == xs[j + 1];
        }
      }
      FilterDistinct(rest, p);
      if p(xs[0]) {
        var f := Filter(rest, p);
        assert xs[0] !in rest by {
          forall k | 0 <= k < |rest| ensures rest[k] != xs[0] {
            assert rest[k] == xs[k + 1];
          }
        }
        var r := [xs[0]] + f;
        forall i, j | 0 <= i < j < |r| ensures r[i] != r[j] {
          if i == 0 {
            assert r[j] == f[j - 1] && f[j - 1] in rest;
          } else {
            assert r[i] == f[i - 1] && r[j] == f[j - 1];
          }
        }
      }
    }
  }

  /** `xs.splice(i, 1)`: the sequence without its `i`-th element. */
  function RemoveAt<T>(xs: seq<T>, i: nat): (r: seq<T>)
    requires i < |xs|
    ensures |r| == |xs| - 1
    ensures forall j | 0 <= j < i :: r[j] == xs[j]
    ensures forall j | i <= j < |r| :: r[j] == xs[j + 1]
  {
    xs[..i] + xs[i + 1..]
  }

  /** A key occurs after removing position `i` exactly when it occurs at
      some other position. */
  lemma RemoveAtKeys<T, K>(xs: seq<T>, i: nat, key: T -> K, k: K)
    requires i < |xs|
    ensures (exists j | 0 <= j < |RemoveAt(xs, i)| :: key(RemoveAt(xs, i)[j]) == k)
        <==> (exists j | 0 <= j < |xs| && j != i :: key(xs[j]) == k)
  {
    var r := RemoveAt(xs, i);
    if j :| 0 <= j < |r| && key(r[j]) == k {
      var at := if j < i then j else j + 1;
      assert xs[at] == r[j];
    }
    if j :| 0 <= j < |xs| && j != i && key(xs[j]) == k {
      var at := if j < i then j else j - 1;
      assert r[at] == xs[j];
    }
  }

  /** `findIndex` followed by `splice(index, 1)`: the sequence without its
      first element satisfying `p`, or `None` when there is none. */
  function RemoveFirst<T>(xs: seq<T>, p: T -> bool): (r: Option<seq<T>>)
    ensures r.None? <==> forall j | 0 <= j < |xs| :: !p(xs[j])
    ensures r.Some? ==>
      var i := FindIndex(xs, p).value;
      && r.value == RemoveAt(xs, i)
      && multiset(r.value) + multiset{xs[i]} == multiset(xs)
  {
    match FindIndex(xs, p)
    case None => None
    case Some(i) =>
      assert xs == xs[..i] + [xs[i]] + xs[i + 1..];
      Some(RemoveAt(xs, i))
  }

  /** `xs.slice(0, n)` or `s.substring(0, n)` for `n >= 0`. */
  function Prefix<T>(xs: seq<T>, n: nat): (r: seq<T>)
    ensures |r| == if n <= |xs| then n else |xs|
    ensures r == xs[..|r|]
  {
    if n <= |xs| then xs[..n] else xs
  }
}

=== FILE: dashboard.dfy ===
/** The handlers of `StudyDashboard.jsx`: the page state, the three service
    stores it drives, and what each user action does to both.  A rejected
    promise is caught by the handler, so a failing store call leaves the
    page as the calls before it left it. */
module Dashboard {
  import opened Wrappers
  import opened Ids
  import opened Text
  import opened Collections
  import opened NoteAnalysis
  import NoteStore
  import Flashcards
  import Sessions

  type Note = NoteStore.Note
  type Flashcard = Flashcards.Flashcard
  type StudySession = Sessions.StudySession

  datatype Mode = InputMode | SummaryMode | FlashcardsMode

  /** The service stores followed by the component's own state. */
  datatype Page = Page(
    noteStore: seq<Note>,
    cardStore: seq<Flashcard>,
    sessionStore: seq<StudySession>,
    notes: seq<Note>,
    currentNote: Option<Note>,
    flashcards: seq<Flashcard>,
    mode: Mode,
    currentSession: Option<StudySession>)

  // ---------------------------------------------------------------- mastery

  const CorrectStep: real := 0.2
  const IncorrectStep: real := 0.1

  /** `Math.min(1, m + 0.2)` after a correct answer, `Math.max(0, m - 0.1)`
      after an incorrect one. */
  function NextMastery(m: real, correct: bool): (r: real)
    ensures correct ==> r <= 1.0 && r <= m + CorrectStep && (r == 1.0 || r == m + CorrectStep)
    ensures !correct ==> r >= 0.0 && r >= m - IncorrectStep && (r == 0.0 || r == m - IncorrectStep)
  {
    if correct then (if m + CorrectStep < 1.0 then m + CorrectStep else 1.0)
    else (if m - IncorrectStep > 0.0 then m - IncorrectStep else 0.0)
  }

  /** Mastery never leaves [0, 1]; a correct answer never lowers it and an
      incorrect one never raises it. */
  lemma MasteryStaysInUnit(m: real, correct: bool)
    requires 0.0 <= m <= 1.0
    ensures 0.0 <= NextMastery(m, correct) <= 1.0
    ensures correct ==> NextMastery(m, correct) >= m
    ensures !correct ==> NextMastery(m, correct) <= m
  {
  }

  /** Full mastery is kept by correct answers, zero mastery by incorrect
      ones, and every other value moves. */
  lemma MasteryFixedPoints(m: real, correct: bool)
    requires 0.0 <= m <= 1.0
    ensures NextMastery(m, correct) == m <==> (correct && m == 1.0) || (!correct && m == 0.0)
  {
  }

  /** The update is asymmetric: a right and then a wrong answer from the
      middle of the range leave mastery higher than before. */
  lemma RightThenWrongGains(m: real)
    requires 0.0 <= m <= 0.8
    ensures NextMastery(NextMastery(m, true), false) == m + 0.1
  {
  }

  /** The answered card's new mastery in the page's own list; cards with
      other ids are untouched. */
  function SetMastery(cards: seq<Flashcard>, id: CardId, m: real): (r: seq<Flashcard>)
    ensures |r| == |cards|
    ensures forall i | 0 <= i < |cards| ::
      r[i] == if cards[i].id == id then cards[i].(mastery := m) else cards[i]
  {
    seq(|cards|, i requires 0 <= i < |cards| => if cards[i].id == id then cards[i].(mastery := m) else cards[i])
  }

  // ---------------------------------------------------------------- notes

  /** `handleNoteSubmit`: whitespace-only content is refused; otherwise the
      note is created, put first in the page's list and made current, its
      key points become flashcards, and the summary view opens. */
  function SubmitNote(p: Page, content: string, noteId: NoteId, now: Timestamp,
                      pointIds: nat -> PointId, cardIds: nat -> CardId): (r: Page)
    ensures AllSpace(content) ==> r == p
    ensures !AllSpace(content) ==>
      && |r.noteStore| == |p.noteStore| + 1
      && r.currentNote.Some?
      && r.notes == [r.currentNote.value] + p.notes
      && r.noteStore == p.noteStore + [r.currentNote.value]
      && r.currentNote.value.id == noteId
      && r.currentNote.value.content == content
      && r.currentNote.value.createdAt == now
      && r.currentNote.value.summary == GenerateSummary(content)
      && r.currentNote.value.keyPoints == ExtractKeyPoints(content, pointIds)
      && r.cardStore == p.cardStore + r.flashcards
      && |r.flashcards| == |Flashcards.CardTexts(r.currentNote.value.keyPoints)|
      && (forall i | 0 <= i < |r.flashcards| ::
            Flashcards.IsCardFor(r.flashcards[i], noteId, Flashcards.CardTexts(r.currentNote.value.keyPoints)[i]))
      && r.mode == SummaryMode
      && r.sessionStore == p.sessionStore && r.currentSession == p.currentSession
  {
    TrimEmptyIffAllSpace(content);
    if Trim(content) == [] then p
    else
      var (noteStore, note) := NoteStore.Create(p.noteStore, noteId, now, content, pointIds);
      var (cardStore, cards) := Flashcards.GenerateFromKeyPoints(p.cardStore, note.id, note.keyPoints, cardIds);
      p.(noteStore := noteStore, cardStore := cardStore, notes := [note] + p.notes,
         currentNote := Some(note), flashcards := cards, mode := SummaryMode)
  }

  /** With a fresh note id, what the page shows after a submit is what the
      stores give back: `getById` finds the current note and `getByNoteId`
      returns exactly the page's cards. */
  lemma SubmittedNoteReloads(p: Page, content: string, noteId: NoteId, now: Timestamp,
                             pointIds: nat -> PointId, cardIds: nat -> CardId)
    requires !AllSpace(content)
    requires !NoteStore.HasNote(p.noteStore, noteId)
    requires forall i | 0 <= i < |p.cardStore| :: p.cardStore[i].noteId != noteId
    ensures var r := SubmitNote(p, content, noteId, now, pointIds, cardIds);
      && NoteStore.GetById(r.noteStore, noteId) == r.currentNote
      && Flashcards.GetByNoteId(r.cardStore, noteId) == r.flashcards
  {
    var r := SubmitNote(p, content, noteId, now, pointIds, cardIds);
    var byId := (n: Note) => n.id == noteId;
    FindIndexAt(r.noteStore, byId, |p.noteStore|);
    var ofNote := (c: Flashcard) => c.noteId == noteId;
    Flashcards.GetByNoteIdAppend(p.cardStore, r.flashcards, noteId);
    FilterNone(p.cardStore, ofNote);
    FilterAll(r.flashcards, ofNote);
  }

  // ---------------------------------------------------------------- sessions

  /** `handleStartStudySession`: refused without flashcards; otherwise a
      session with both counters at zero is created and made current. */
  function StartSession(p: Page, sessionId: SessionId, now: Timestamp): (r: Page)
    ensures |p.flashcards| == 0 ==> r == p
    ensures |p.flashcards| > 0 ==>
      && r.currentSession == Some(Sessions.StudySession(sessionId, now, 0, 0, None))
      && r.sessionStore == p.sessionStore + [r.currentSession.value]
      && r.mode == FlashcardsMode
      && r.(sessionStore := p.sessionStore, currentSession := p.currentSession, mode := p.mode) == p
  {
    if |p.flashcards| == 0 then p
    else
      var (store, s) := Sessions.Create(p.sessionStore, sessionId, now, Sessions.Counters(0, 0));
      p.(sessionStore := store, currentSession := Some(s), mode := FlashcardsMode)
  }

  /** The counter patch sent after an answer. */
  function CountAnswer(s: StudySession, correct: bool): Sessions.SessionPatch {
    Sessions.Counters(s.cardsReviewed + 1, s.correctAnswers + if correct then 1 else 0)
  }

  /** The card step of `handleFlashcardAnswer`: `None` when
      `flashcardService.update` throws.  Otherwise the first stored card with
      the id gets the new mastery and the review time, and so do the page's
      copies; nothing else changes. */
  function AnswerCard(p: Page, cardId: CardId, correct: bool, now: Timestamp): (r: Option<Page>)
    ensures var card := Find(p.flashcards, (f: Flashcard) => f.id == cardId);
      && (card.None? ==> r == Some(p))
      && (card.Some? ==> (r.None? <==> !Flashcards.HasCard(p.cardStore, cardId)))
      && (card.Some? && r.Some? ==>
            r.value == p.(cardStore := r.value.cardStore,
                          flashcards := SetMastery(p.flashcards, cardId, NextMastery(card.value.mastery, correct))))
      && (card.Some? && r.Some? ==>
            && Flashcards.FindCard(p.cardStore, cardId).Some?
            && var i := Flashcards.FindCard(p.cardStore, cardId).value;
               r.value.cardStore == p.cardStore[i := p.cardStore[i].(mastery := NextMastery(card.value.mastery, correct),
                                                                     lastReviewed := Some(now))])
  {
    match Find(p.flashcards, (f: Flashcard) => f.id == cardId)
    case None => Some(p)
    case Some(card) =>
      var m := NextMastery(card.mastery, correct);
      match Flashcards.Update(p.cardStore, cardId, Flashcards.MasteryPatch(m), now)
      case Failure(_) => None
      case Success((store, _)) => Some(p.(cardStore := store, flashcards := SetMastery(p.flashcards, cardId, m)))
  }

  /** `handleFlashcardAnswer`: a no-op without a session; otherwise the
      card's mastery is moved (if the card is on the page), then the session
      counters advance.  A failing card update skips the counters; a failing
      session update keeps the card change. */
  function Answer(p: Page, cardId: CardId, correct: bool, now: Timestamp): (r: Page)
    ensures p.currentSession.None? ==> r == p
    ensures p.currentSession.Some? && AnswerCard(p, cardId, correct, now).None? ==> r == p
    ensures p.currentSession.Some? && AnswerCard(p, cardId, correct, now).Some? ==>
      var q := AnswerCard(p, cardId, correct, now).value;
      var s := p.currentSession.value;
      && r.flashcards == q.flashcards && r.cardStore == q.cardStore
      && (Sessions.HasSession(q.sessionStore, s.id) ==>
            && r.currentSession.Some?
            && r.currentSession.value.cardsReviewed == s.cardsReviewed + 1
            && r.currentSession.value.correctAnswers == s.correctAnswers + (if correct then 1 else 0)
            && Sessions.FindSession(q.sessionStore, s.id).Some?
            && var j := Sessions.FindSession(q.sessionStore, s.id).value;
               && r.currentSession.value == q.sessionStore[j].(cardsReviewed := s.cardsReviewed + 1,
                                                               correctAnswers := s.correctAnswers + (if correct then 1 else 0))
               && r.sessionStore == q.sessionStore[j := r.currentSession.value])
      && r.(sessionStore := q.sessionStore, currentSession := q.currentSession) == q
      && (!Sessions.HasSession(q.sessionStore, s.id) ==> r == q)
  {
    match p.currentSession
    case None => p
    case Some(s) =>
      match AnswerCard(p, cardId, correct, now)
      case None => p
      case Some(q) =>
        match Sessions.Update(q.sessionStore, s.id, CountAnswer(s, correct))
        case Failure(_) => q
        case Success((store, updated)) => q.(sessionStore := store, currentSession := Some(updated))
  }

  /** Only the answered card's mastery can change on the page, and the
      page's list keeps its length and order. */
  lemma AnswerTouchesOneCard(p: Page, cardId: CardId, correct: bool, now: Timestamp)
    ensures var r := Answer(p, cardId, correct, now);
      && |r.flashcards| == |p.flashcards|
      && forall i | 0 <= i < |p.flashcards| ::
           && (p.flashcards[i].id != cardId ==> r.flashcards[i] == p.flashcards[i])
           && r.flashcards[i] == p.flashcards[i].(mastery := r.flashcards[i].mastery)
  {
  }

  /** An answer for a card that is not on the page changes no card but still
      counts, provided the session is stored. */
  lemma AnswerUnknownCardStillCounts(p: Page, cardId: CardId, correct: bool, now: Timestamp)
    requires p.currentSession.Some? && Sessions.HasSession(p.sessionStore, p.currentSession.value.id)
    requires forall i | 0 <= i < |p.flashcards| :: p.flashcards[i].id != cardId
    ensures var r := Answer(p, cardId, correct, now);
      && r.flashcards == p.flashcards && r.cardStore == p.cardStore
      && r.currentSession.value.cardsReviewed == p.currentSession.value.cardsReviewed + 1
  {
  }

  /** After an answer to a card on the page, looking the card up in the
      store gives the new mastery and the review time, the same mastery the
      page now shows. */
  lemma AnswerPersistsMastery(p: Page, cardId: CardId, correct: bool, now: Timestamp)
    requires p.currentSession.Some?
    requires Find(p.flashcards, (f: Flashcard) => f.id == cardId).Some?
    requires Flashcards.HasCard(p.cardStore, cardId)
    ensures var r := Answer(p, cardId, correct, now);
      var m := NextMastery(Find(p.flashcards, (f: Flashcard) => f.id == cardId).value.mastery, correct);
      var c := Flashcards.GetById(r.cardStore, cardId);
      && c.Some? && c.value.mastery == m && c.value.lastReviewed == Some(now)
      && forall i | 0 <= i < |r.flashcards| && r.flashcards[i].id == cardId :: r.flashcards[i].mastery == m
  {
    var q := AnswerCard(p, cardId, correct, now).value;
    var i := Flashcards.FindCard(p.cardStore, cardId).value;
    assert q.cardStore[i].id == cardId;
    FindIndexAt(q.cardStore, (c: Flashcard) => c.id == cardId, i);
  }

  /** After an answer, looking the session up in the store gives the page's
      session, counters included, as long as the store holds it. */
  lemma AnswerPersistsCounters(p: Page, cardId: CardId, correct: bool, now: Timestamp)
    requires p.currentSession.Some?
    requires AnswerCard(p, cardId, correct, now).Some?
    requires Sessions.HasSession(p.sessionStore, p.currentSession.value.id)
    ensures var r := Answer(p, cardId, correct, now);
      && r.currentSession.Some?
      && Sessions.GetById(r.sessionStore, p.currentSession.value.id) == r.currentSession
  {
    var q := AnswerCard(p, cardId, correct, now).value;
    var id := p.currentSession.value.id;
    var j := Sessions.FindSession(q.sessionStore, id).value;
    var r := Answer(p, cardId, correct, now);
    assert r.sessionStore[j].id == id;
    FindIndexAt(r.sessionStore, (s: StudySession) => s.id == id, j);
  }

  /** Correct answers never outnumber reviewed ones. */
  predicate CountsConsistent(p: Page) {
    p.currentSession.Some? ==>
      0 <= p.currentSession.value.correctAnswers <= p.currentSession.value.cardsReviewed
  }

  lemma AnswerKeepsCountsConsistent(p: Page, cardId: CardId, correct: bool, now: Timestamp)
    requires CountsConsistent(p)
    ensures CountsConsistent(Answer(p, cardId, correct, now))
  {
  }

  /** `handleEndSession`: a no-op without a session; otherwise the stored
      session gets its end time and the page returns to the summary.  When
      the service throws, nothing changes. */
  function EndSession(p: Page, now: Timestamp): (r: Page)
    ensures p.currentSession.None? ==> r == p
    ensures p.currentSession.Some? ==>
      var s := p.currentSession.value;
      && (!Sessions.HasSession(p.sessionStore, s.id) ==> r == p)
      && (Sessions.HasSession(p.sessionStore, s.id) ==>
            && r.currentSession.None? && r.mode == SummaryMode
            && r.sessionStore == Sessions.EndSession(p.sessionStore, s.id, now).value.0
            && r.(sessionStore := p.sessionStore, currentSession := p.currentSession, mode := p.mode) == p)
  {
    match p.currentSession
    case None => p
    case Some(s) =>
      match Sessions.EndSession(p.sessionStore, s.id, now)
      case Failure(_) => p
      case Success((store, _)) => p.(sessionStore := store, currentSession := None, mode := SummaryMode)
  }

  // ---------------------------------------------------------------- key points

  /** The keys `onPointUpdate` may merge into a key point. */
  datatype PointPatch = PointPatch(
    id: Option<PointId>,
    text: Option<string>,
    importance: Option<Importance>,
    highlighted: Option<bool>)

  function MergePoint(k: KeyPoint, u: PointPatch): KeyPoint {
    KeyPoint(u.id.GetOr(k.id), u.text.GetOr(k.text), u.importance.GetOr(k.importance), u.highlighted.GetOr(k.highlighted))
  }

  /** `keyPoints.map(point => point.id === pointId ? {...point, ...updates} : point)`. */
  function UpdatePoints(points: seq<KeyPoint>, pointId: PointId, u: PointPatch): (r: seq<KeyPoint>)
    ensures |r| == |points|
    ensures forall i | 0 <= i < |points| ::
      r[i] == if points[i].id == pointId then MergePoint(points[i], u) else points[i]
  {
    seq(|points|, i requires 0 <= i < |points| => if points[i].id == pointId then MergePoint(points[i], u) else points[i])
  }

  /** `onPointUpdate`: merges `u` into the current note's points with the
      id.  Only the page's current note changes: neither the note list nor
      the note store sees the edit. */
  function UpdatePoint(p: Page, pointId: PointId, u: PointPatch): (r: Page)
    ensures p.currentNote.None? ==> r == p
    ensures p.currentNote.Some? ==>
      && r.currentNote == Some(p.currentNote.value.(keyPoints := UpdatePoints(p.currentNote.value.keyPoints, pointId, u)))
      && r.(currentNote := p.currentNote) == p
  {
    match p.currentNote
    case None => p
    case Some(note) => p.(currentNote := Some(note.(keyPoints := UpdatePoints(note.keyPoints, pointId, u))))
  }

  /** `toggleHighlight(pointId, currentHighlighted)`: every point with the id
      gets the negated flag, and nothing else on the page changes (see
      `ToggleHighlightFlips` for toggling back). */
  function ToggleHighlight(p: Page, pointId: PointId, currentHighlighted: bool): (r: Page)
    ensures p.currentNote.None? ==> r == p
    ensures p.currentNote.Some? ==>
      var ks := p.currentNote.value.keyPoints;
      && r.currentNote.Some?
      && r.currentNote.value == p.currentNote.value.(keyPoints := r.currentNote.value.keyPoints)
      && |r.currentNote.value.keyPoints| == |ks|
      && (forall j | 0 <= j < |ks| ::
            r.currentNote.value.keyPoints[j] == if ks[j].id == pointId then ks[j].(highlighted := !currentHighlighted) else ks[j])
      && r.(currentNote := p.currentNote) == p
  {
    UpdatePoint(p, pointId, PointPatch(None, None, None, Some(!currentHighlighted)))
  }

  /** Toggling a point flips its highlight and leaves every other field and
      every other point as it was; toggling again with the new value
      restores the page. */
  lemma ToggleHighlightFlips(p: Page, i: nat)
    requires p.currentNote.Some? && i < |p.currentNote.value.keyPoints|
    requires var ks := p.currentNote.value.keyPoints;
      forall j | 0 <= j < |ks| && ks[j].id == ks[i].id :: ks[j] == ks[i]
    ensures var k := p.currentNote.value.keyPoints[i];
      var r := ToggleHighlight(p, k.id, k.highlighted);
      && (forall j | 0 <= j < |p.currentNote.value.keyPoints| ::
            r.currentNote.value.keyPoints[j] ==
              if j == i || p.currentNote.value.keyPoints[j].id == k.id then k.(highlighted := !k.highlighted)
              else p.currentNote.value.keyPoints[j])
      && ToggleHighlight(r, k.id, !k.highlighted) == p
  {
    var note := p.currentNote.value;
    var ks := note.keyPoints;
    var k := ks[i];
    var r := ToggleHighlight(p, k.id, k.highlighted);
    var back := ToggleHighlight(r, k.id, !k.highlighted);
    assert back.currentNote.value.keyPoints == ks;
  }
}

=== FILE: export.dfy ===
/** The plain-text study sheet of `ExportModal.jsx`: which sections the
    user has ticked, and the text `generateContent` writes for them. */
module Export {
  import opened Text
  import opened Collections
  import opened NoteAnalysis
  import opened Flashcards
  import opened Progress
  import NoteStore
  import SummaryDisplay

  type Note = NoteStore.Note

  /** The four content options, in the order the text emits them. */
  datatype Section = SummarySection | KeyPointsSection | FlashcardsSection | OriginalSection

  const AllSections: seq<Section> := [SummarySection, KeyPointsSection, FlashcardsSection, OriginalSection]

  const InitialSelection: seq<Section> := [SummarySection, KeyPointsSection, FlashcardsSection]

  // ---------------------------------------------------------------- selection

  /** `handleContentToggle`: removes the option when present, appends it
      otherwise; every other option keeps its state. */
  function Toggle(selection: seq<Section>, id: Section): (r: seq<Section>)
    ensures id in r <==> id !in selection
    ensures forall s | s != id :: s in r <==> s in selection
  {
    if id in selection then
      var r := Filter(selection, (s: Section) => s != id);
      assert forall s | s != id && s in selection :: s in r by {
        forall s | s != id && s in selection ensures s in r {
          var j :| 0 <= j < |selection| && selection[j] == s;
        }
      }
      r
    else selection + [id]
  }

  /** Toggling the same option twice restores which options are selected. */
  lemma ToggleTwice(selection: seq<Section>, id: Section)
    ensures forall s :: s in Toggle(Toggle(selection, id), id) <==> s in selection
  {
  }

  /** Toggling never lists an option twice. */
  lemma ToggleKeepsDistinct(selection: seq<Section>, id: Section)
    requires Distinct(selection)
    ensures Distinct(Toggle(selection, id))
  {
    if id in selection {
      FilterDistinct(selection, (s: Section) => s != id);
    }
  }

  /** The guard of `handleExport` and of the Export button: some option is
      ticked. */
  predicate CanExport(selection: seq<Section>)
    ensures CanExport(selection) <==> exists s :: s in selection
  {
    if |selection| > 0 then assert selection[0] in selection; true else false
  }

  // ---------------------------------------------------------------- assembling

  /** The four `if (selectedContent.includes(...))` steps, in source order,
      for any way of rendering one section. */
  function Emit(selection: seq<Section>, block: Section -> string): (r: string)
    ensures (forall s :: s !in selection) ==> r == ""
    ensures forall s | s in selection :: |block(s)| <= |r|
  {
    var b0 := if SummarySection in selection then block(SummarySection) else "";
    var b1 := if KeyPointsSection in selection then block(KeyPointsSection) else "";
    var b2 := if FlashcardsSection in selection then block(FlashcardsSection) else "";
    var b3 := if OriginalSection in selection then block(OriginalSection) else "";
    var r := b0 + (b1 + (b2 + b3));
    assert forall s | s in selection :: |block(s)| <= |r| by {
      forall s | s in selection ensures |block(s)| <= |r| {
        assert s == SummarySection || s == KeyPointsSection || s == FlashcardsSection || s == OriginalSection;
      }
    }
    r
  }

  /** The blocks of `sections`, one after the other. */
  function Blocks(sections: seq<Section>, block: Section -> string): string
    decreases |sections|
  {
    if |sections| == 0 then "" else block(sections[0]) + Blocks(sections[1..], block)
  }

  /** Filtering a list headed by `x` keeps `x`'s block exactly when `x` is
      selected. */
  lemma BlocksFilterCons(x: Section, rest: seq<Section>, selection: seq<Section>, block: Section -> string)
    ensures var p := (s: Section) => s in selection;
      Blocks(Filter([x] + rest, p), block)
      == (if x in selection then block(x) else "") + Blocks(Filter(rest, p), block)
  {
    var p := (s: Section) => s in selection;
    assert ([x] + rest)[1..] == rest;
    if x in selection {
      var f := [x] + Filter(rest, p);
      assert f[1..] == Filter(rest, p);
    }
  }

  /** The text is the blocks of the selected options taken in the fixed
      order summary, key points, flashcards, original, each exactly once,
      whatever order the options were ticked in. */
  lemma FixedSectionOrder(selection: seq<Section>, block: Section -> string)
    ensures Emit(selection, block) == Blocks(Filter(AllSections, (s: Section) => s in selection), block)
  {
    var p := (s: Section) => s in selection;
    var e: seq<Section> := [];
    var l3 := [OriginalSection] + e;
    var l2 := [FlashcardsSection] + l3;
    var l1 := [KeyPointsSection] + l2;
    assert [SummarySection] + l1 == AllSections;
    var b0 := if SummarySection in selection then block(SummarySection) else "";
    var b1 := if KeyPointsSection in selection then block(KeyPointsSection) else "";
    var b2 := if FlashcardsSection in selection then block(FlashcardsSection) else "";
    var b3 := if OriginalSection in selection then block(OriginalSection) else "";
    assert Blocks(Filter(e, p), block) == "";
    BlocksFilterCons(OriginalSection, e, selection, block);
    assert b3 + "" == b3;
    assert Blocks(Filter(l3, p), block) == b3;
    BlocksFilterCons(FlashcardsSection, l3, selection, block);
    assert Blocks(Filter(l2, p), block) == b2 + b3;
    BlocksFilterCons(KeyPointsSection, l2, selection, block);
    assert Blocks(Filter(l1, p), block) == b1 + (b2 + b3);
    BlocksFilterCons(SummarySection, l1, selection, block);
  }

  /** With every block non-empty, the text is empty exactly when nothing is
      selected. */
  lemma EmitEmpty(selection: seq<Section>, block: Section -> string)
    requires forall s :: block(s) != ""
    ensures Emit(selection, block) == "" <==> !CanExport(selection)
  {
    if |selection| > 0 {
      var s := selection[0];
      assert s in selection;
      assert |block(s)| > 0;
      match s
      case SummarySection =>
      case KeyPointsSection =>
      case FlashcardsSection =>
      case OriginalSection =>
    }
  }

  // ---------------------------------------------------------------- section text

  const RuleWidth: nat := 50

  function Title(s: Section): string {
    match s
    case SummarySection => "STUDY SUMMARY"
    case KeyPointsSection => "KEY POINTS"
    case FlashcardsSection => "FLASHCARDS"
    case OriginalSection => "ORIGINAL NOTES"
  }

  /** A section title, a rule of fifty `=` and a blank line. */
  function Header(title: string): (h: string)
    ensures |h| == |title| + RuleWidth + 3
    ensures h[..|title|] == title && h[|title|] == '\n'
    ensures forall i | |title| < i <= |title| + RuleWidth :: h[i] == '='
    ensures h[|title| + RuleWidth + 1..] == "\n\n"
  {
    title + "\n" + Repeat('=', RuleWidth) + "\n\n"
  }

  /** `summary.replace(/\n/g, '\n• ') + '\n\n'`: the summary's lines
      joined by a newline and a bullet, then a blank line. */
  function SummaryBody(summary: string): (r: string)
    ensures r == Join(Split(summary, '\n'), "\n" + Bullet) + "\n\n"
  {
    ReplaceNewlinesIsJoin(summary, Bullet);
    ReplaceNewlines(summary, Bullet) + "\n\n"
  }

  /** `${n}. ${text} [${IMPORTANCE}]`: a single line whenever the point's
      text is. */
  function KeyPointText(n: nat, k: KeyPoint): (r: string)
    ensures '\n' !in k.text ==> '\n' !in r
  {
    var up := ToUpper(ImportanceName(k.importance));
    DecimalHasNoNewline(n);
    assert '\n' !in up by {
      forall i | 0 <= i < |up| ensures up[i] != '\n' {
        assert up[i] == UpperChar(ImportanceName(k.importance)[i]);
      }
    }
    NatToDecimal(n) + ". " + k.text + " [" + up + "]"
  }

  /** The key-point lines, numbered from `start`. */
  function KeyPointTexts(points: seq<KeyPoint>, start: nat): (r: seq<string>)
    ensures |r| == |points|
    ensures forall i | 0 <= i < |points| :: r[i] == KeyPointText(start + i, points[i])
  {
    seq(|points|, i requires 0 <= i < |points| => KeyPointText(start + i, points[i]))
  }

  /** One line per key point numbered from 1, then a blank line.  When no
      point text holds a newline, the body reads back as exactly those
      lines. */
  function KeyPointsBody(points: seq<KeyPoint>): (r: string)
    ensures |r| > 0 && r[|r| - 1] == '\n'
    ensures (forall i | 0 <= i < |points| :: '\n' !in points[i].text) ==>
      Split(r, '\n') == KeyPointTexts(points, 1) + ["", ""]
  {
    var ls := KeyPointTexts(points, 1) + [""];
    assert (forall i | 0 <= i < |points| :: '\n' !in points[i].text) ==>
      Split(Terminated(ls, '\n'), '\n') == KeyPointTexts(points, 1) + ["", ""] by {
      if forall i | 0 <= i < |points| :: '\n' !in points[i].text {
        forall i | 0 <= i < |ls| ensures '\n' !in ls[i] {
          if i < |points| {
            assert ls[i] == KeyPointText(1 + i, points[i]);
          }
        }
        SplitTerminated(ls, '\n');
        assert ls + [""] == KeyPointTexts(points, 1) + ["", ""];
      }
    }
    Terminated(ls, '\n')
  }

  /** The "Card n:", "Q:", "A:" and "Mastery:" lines of one card; single
      lines whenever the question and the answer are. */
  function CardLines(n: nat, c: Flashcard): (r: seq<string>)
    ensures |r| == 4
    ensures '\n' !in c.question && '\n' !in c.answer ==> forall j | 0 <= j < 4 :: '\n' !in r[j]
  {
    DecimalHasNoNewline(n);
    DecimalHasNoNewline(Round(c.mastery * 100.0));
    ["Card " + NatToDecimal(n) + ":",
     "Q: " + c.question,
     "A: " + c.answer,
     "Mastery: " + IntToDecimal(Round(c.mastery * 100.0)) + "%"]
  }

  /** One card's block: its four lines, then a blank line.  When the
      question and answer hold no newline, it reads back as those lines. */
  function CardBlock(n: nat, c: Flashcard): (r: string)
    ensures '\n' !in c.question && '\n' !in c.answer ==> Split(r, '\n') == CardLines(n, c) + ["", ""]
  {
    var ls := CardLines(n, c) + [""];
    assert '\n' !in c.question && '\n' !in c.answer ==>
      Split(Terminated(ls, '\n'), '\n') == CardLines(n, c) + ["", ""] by {
      if '\n' !in c.question && '\n' !in c.answer {
        assert forall i | 0 <= i < |ls| :: '\n' !in ls[i];
        SplitTerminated(ls, '\n');
        assert ls + [""] == CardLines(n, c) + ["", ""];
      }
    }
    Terminated(ls, '\n')
  }

  /** The card blocks, numbered from `start`. */
  function CardBlocks(cards: seq<Flashcard>, start: nat): (r: string)
    ensures |cards| == 0 <==> r == ""
    decreases |cards|
  {
    if |cards| == 0 then ""
    else CardBlock(start, cards[0]) + CardBlocks(cards[1..], start + 1)
  }

  /** The lines of all card blocks, numbered from `start`: five per card,
      the fifth one blank. */
  function CardsLines(cards: seq<Flashcard>, start: nat): (r: seq<string>)
    ensures |r| == 5 * |cards|
    ensures forall i | 0 <= i < |cards| :: r[5 * i..5 * i + 5] == CardLines(start + i, cards[i]) + [""]
    decreases |cards|
  {
    if |cards| == 0 then []
    else
      var head := CardLines(start, cards[0]) + [""];
      var rest := CardsLines(cards[1..], start + 1);
      var r := head + rest;
      assert forall i | 1 <= i < |cards| :: r[5 * i..5 * i + 5] == rest[5 * (i - 1)..5 * (i - 1) + 5];
      r
  }

  /** The text under one section's header.  The note's content is
      exported verbatim; the flashcards section is empty exactly when there
      are no cards; every other section ends in a newline. */
  function Body(s: Section, note: Note, cards: seq<Flashcard>): (r: string)
    ensures s == FlashcardsSection ==> (r == "" <==> |cards| == 0)
    ensures s != FlashcardsSection ==> |r| > 0 && r[|r| - 1] == '\n'
    ensures s == OriginalSection ==> |note.content| <= |r| && r[..|note.content|] == note.content
  {
    match s
    case SummarySection => SummaryBody(note.summary)
    case KeyPointsSection => KeyPointsBody(note.keyPoints)
    case FlashcardsSection => CardBlocks(cards, 1)
    case OriginalSection => note.content + "\n\n"
  }

  /** One emitted section: its header, then its body. */
  function Block(s: Section, note: Note, cards: seq<Flashcard>): (b: string)
    ensures |b| > 0
  {
    Header(Title(s)) + Body(s, note, cards)
  }

  /** `generateContent`.  The text is empty exactly when nothing is
      selected, so the export guard refuses exactly the selections that
      would write nothing. */
  function GenerateContent(selection: seq<Section>, note: Note, cards: seq<Flashcard>): (r: string)
    ensures r == "" <==> !CanExport(selection)
  {
    var block := (s: Section) => Block(s, note, cards);
    EmitEmpty(selection, block);
    Emit(selection, block)
  }

  /** The text is the blocks of the ticked options in the fixed order
      summary, key points, flashcards, original. */
  lemma GenerateContentOrder(selection: seq<Section>, note: Note, cards: seq<Flashcard>)
    ensures GenerateContent(selection, note, cards)
      == Blocks(Filter(AllSections, (s: Section) => s in selection), (s: Section) => Block(s, note, cards))
  {
    FixedSectionOrder(selection, (s: Section) => Block(s, note, cards));
  }

  /** Two selections with the same options give the same text. */
  lemma SelectionOrderIrrelevant(a: seq<Section>, b: seq<Section>, note: Note, cards: seq<Flashcard>)
    requires forall s :: s in a <==> s in b
    ensures GenerateContent(a, note, cards) == GenerateContent(b, note, cards)
  {
  }

  // ---------------------------------------------------------------- section contents

  /** In the exported summary every topic after the first gets a second
      bullet, since the summary already joins its topics with `\n• `. */
  lemma ExportedSummaryDoubleBullets(content: string)
    ensures var ts := SummaryTopics(content);
      ReplaceNewlines(GenerateSummary(content), Bullet) == Join(PrefixRest(ts, Bullet), TopicSeparator)
  {
    var ts := SummaryTopics(content);
    ReplaceNewlinesIsJoin(GenerateSummary(content), Bullet);
    SummaryDisplay.SummaryLines(content);
    assert "\n" + Bullet == TopicSeparator;
    if ts == [] {
      assert Join([""], TopicSeparator) == "";
    }
  }

  /** Rendered numbers hold no line break. */
  lemma DecimalHasNoNewline(n: int)
    ensures '\n' !in NatToDecimal(if n < 0 then -n else n)
    ensures '\n' !in IntToDecimal(n)
  {
    var d := NatToDecimal(if n < 0 then -n else n);
    assert forall i | 0 <= i < |d| :: d[i] != '\n' by {
      forall i | 0 <= i < |d| ensures d[i] != '\n' { assert IsDigit(d[i]); }
    }
    if n < 0 {
      assert IntToDecimal(n) == "-" + d;
    }
  }

  /** The card blocks are the terminated lines of all cards. */
  lemma {:induction false} CardBlocksAreLines(cards: seq<Flashcard>, start: nat)
    ensures CardBlocks(cards, start) == Terminated(CardsLines(cards, start), '\n')
    decreases |cards|
  {
    if |cards| > 0 {
      CardBlocksAreLines(cards[1..], start + 1);
      TerminatedAppend(CardLines(start, cards[0]) + [""], CardsLines(cards[1..], start + 1), '\n');
    }
  }

  lemma {:induction false} CardsLinesNoNewline(cards: seq<Flashcard>, start: nat)
    requires forall i | 0 <= i < |cards| :: '\n' !in cards[i].question && '\n' !in cards[i].answer
    ensures forall k | 0 <= k < |CardsLines(cards, start)| :: '\n' !in CardsLines(cards, start)[k]
    decreases |cards|
  {
    if |cards| > 0 {
      var head := CardLines(start, cards[0]) + [""];
      var rest := CardsLines(cards[1..], start + 1);
      assert CardsLines(cards, start) == head + rest;
      CardsLinesNoNewline(cards[1..], start + 1);
    }
  }

  /** The flashcards body reads back as five lines per card, numbered from
      `start`, when no question or answer holds a newline. */
  lemma CardBlocksRead(cards: seq<Flashcard>, start: nat)
    requires forall i | 0 <= i < |cards| :: '\n' !in cards[i].question && '\n' !in cards[i].answer
    ensures Split(CardBlocks(cards, start), '\n') == CardsLines(cards, start) + [""]
  {
    CardBlocksAreLines(cards, start);
    CardsLinesNoNewline(cards, start);
    SplitTerminated(CardsLines(cards, start), '\n');
  }

  /** The bracketed importance is the upper-cased name. */
  lemma UpperImportanceNames()
    ensures ToUpper(ImportanceName(High)) == "HIGH"
    ensures ToUpper(ImportanceName(Medium)) == "MEDIUM"
    ensures ToUpper(ImportanceName(Low)) == "LOW"
  {
  }
}

=== FILE: flashcards.dfy ===
/** Flashcards as kept by `flashcardService.js`: the question synthesiser
    that turns key points into cards, and the card store. */
module Flashcards {
  import opened Wrappers
  import opened Ids
  import opened Text
  import opened Collections
  import opened NoteAnalysis

  datatype Flashcard = Flashcard(
    id: CardId,
    noteId: NoteId,
    question: string,
    answer: string,
    mastery: real,
    lastReviewed: Option<Timestamp>)

  /** Only key points longer than this become cards. */
  const MinCardTextLength: nat := 20
  /** The "Explain" question quotes at most this many characters. */
  const ExplainQuote: nat := 50
  /** The "Define" question quotes this many space-separated tokens. */
  const DefineTokens: nat := 3

  const FlashcardNotFound: string := "Flashcard not found"

  // ---------------------------------------------------------------- synthesis

  datatype Rule = ColonRule | DefineRule | ExplainRule

  /** The `toLowerCase().includes` test of the define rule. */
  predicate MentionsDefine(text: string) {
    Contains(ToLower(text), "define") || Contains(ToLower(text), "definition")
  }

  /** The define test ignores case: upper-casing a text never changes
      whether it takes the define rule, so "DEFINE" triggers it too. */
  lemma DefineTestIgnoresCase(text: string)
    ensures MentionsDefine(ToUpper(text)) <==> MentionsDefine(text)
    ensures MentionsDefine("DEFINE")
  {
    LowerOfUpper(text);
    assert OccursAt(ToLower("DEFINE"), "define", 0);
  }

  /** Which branch of the decision tree a text takes: colon first, then
      "define", then the fallback. */
  function RuleFor(text: string): (r: Rule)
    ensures r == ColonRule <==> ':' in text
    ensures r == DefineRule <==> ':' !in text && MentionsDefine(text)
    ensures r == ExplainRule <==> ':' !in text && !MentionsDefine(text)
  {
    if ':' in text then ColonRule
    else if MentionsDefine(text) then DefineRule
    else ExplainRule
  }

  /** The question and answer for one key-point text. */
  function QuestionAnswer(text: string): (qa: (string, string))
    ensures RuleFor(text) != ColonRule ==> qa.1 == text
    ensures RuleFor(text) == DefineRule ==> qa.0 == "Define: " + Join(Prefix(Split(text, ' '), DefineTokens), " ")
    ensures RuleFor(text) == ExplainRule ==> qa.0 == "Explain: " + Prefix(text, ExplainQuote) + "..."
  {
    match RuleFor(text)
    case ColonRule =>
      var parts := Split(text, ':');
      assert |parts| >= 2 by { SplitHasTwoParts(text, ':'); }
      ("What is " + Trim(parts[0]) + "?", Trim(parts[1]))
    case DefineRule =>
      ("Define: " + Join(Prefix(Split(text, ' '), DefineTokens), " "), text)
    case ExplainRule =>
      ("Explain: " + Prefix(text, ExplainQuote) + "...", text)
  }

  /** A text holding the separator splits into at least two pieces. */
  lemma SplitHasTwoParts(s: string, sep: char)
    requires sep in s
    ensures |Split(s, sep)| >= 2
  {
    var k := FirstIndex(s, sep);
    assert Split(s, sep) == [s[..k]] + Split(s[k + 1..], sep);
  }

  /** The colon rule: `term: body` asks for the term and answers with the
      body between the first colon and the next one (or the end). */
  lemma ColonRuleShape(term: string, body: string, rest: string)
    requires ':' !in term && ':' !in body
    ensures var qa := QuestionAnswer(term + ":" + body);
      qa.0 == "What is " + Trim(term) + "?" && qa.1 == Trim(body)
    ensures var qa := QuestionAnswer(term + ":" + body + ":" + rest);
      qa.0 == "What is " + Trim(term) + "?" && qa.1 == Trim(body)
  {
    var t1 := term + ":" + body;
    SplitPrefix(term, body, ':');
    assert t1[|term|] == ':';
    var t2 := term + ":" + body + ":" + rest;
    assert t2 == term + ":" + (body + ":" + rest);
    SplitPrefix(term, body + ":" + rest, ':');
    SplitPrefix(body, rest, ':');
    assert t2[|term|] == ':';
  }

  /** One leading blank before trimmed text is dropped by `trim`. */
  lemma TrimLeadingBlank(t: string)
    requires t != [] && IsTrimmed(t)
    ensures Trim([' '] + t) == t
  {
    assert ([' '] + t)[1..] == t;
    assert TrimStart([' '] + t) == TrimStart(t);
    TrimTrimmed(t);
  }

  /** The usual `Term: explanation` line: the question names the term and
      the answer is the explanation after the one blank. */
  lemma ColonCard(term: string, body: string)
    requires ':' !in term && ':' !in body
    requires IsTrimmed(term) && body != [] && IsTrimmed(body)
    ensures QuestionAnswer(term + ": " + body) == ("What is " + term + "?", body)
  {
    assert term + ": " + body == term + ":" + ([' '] + body);
    ColonRuleShape(term, [' '] + body, "");
    TrimTrimmed(term);
    TrimLeadingBlank(body);
  }

  /** A heading that ends in its only colon, such as "Photosynthesis
      Overview:", yields a card whose answer is empty. */
  lemma TrailingColonEmptyAnswer(term: string)
    requires ':' !in term
    ensures QuestionAnswer(term + ":") == ("What is " + Trim(term) + "?", "")
  {
    assert term + ":" == term + ":" + "";
    ColonRuleShape(term, "", "");
    TrimTrimmed("");
  }

  /** The define rule is a substring test, so "undefined" triggers it. */
  lemma UndefinedTriggersDefine()
    ensures RuleFor("The limit is undefined at zero") == DefineRule
  {
    var t := "The limit is undefined at zero";
    assert ToLower(t)[15..21] == "define";
    assert OccursAt(ToLower(t), "define", 15);
  }

  // ---------------------------------------------------------------- generation

  /** A fresh card: mastery 0, never reviewed. */
  function NewCard(id: CardId, noteId: NoteId, question: string, answer: string): (c: Flashcard)
    ensures c.noteId == noteId && c.mastery == 0.0 && c.lastReviewed.None?
  {
    Flashcard(id, noteId, question, answer, 0.0, None)
  }

  /** `c` is the fresh card the generator builds from `text`. */
  predicate IsCardFor(c: Flashcard, noteId: NoteId, text: string) {
    && c.noteId == noteId && c.mastery == 0.0 && c.lastReviewed.None?
    && (c.question, c.answer) == QuestionAnswer(text)
  }

  function CardFor(id: CardId, noteId: NoteId, text: string): (c: Flashcard)
    ensures c.id == id && IsCardFor(c, noteId, text)
  {
    var qa := QuestionAnswer(text);
    NewCard(id, noteId, qa.0, qa.1)
  }

  /** Texts of the key points long enough to become cards, in order. */
  function CardTexts(points: seq<KeyPoint>): (r: seq<string>)
    ensures |r| <= |points|
    ensures forall i | 0 <= i < |r| :: |r[i]| > MinCardTextLength
    decreases |points|
  {
    if |points| == 0 then []
    else (if |points[0].text| > MinCardTextLength then [points[0].text] else []) + CardTexts(points[1..])
  }

  /** Cards for `points`, the point at position `i` of the original list
      getting id `newId(start + i)`. */
  function CardsFrom(noteId: NoteId, points: seq<KeyPoint>, newId: nat -> CardId, start: nat): (r: seq<Flashcard>)
    ensures |r| == |CardTexts(points)|
    ensures forall i | 0 <= i < |r| :: IsCardFor(r[i], noteId, CardTexts(points)[i])
    decreases |points|
  {
    if |points| == 0 then []
    else
      var rest := CardsFrom(noteId, points[1..], newId, start + 1);
      var t := points[0].text;
      if |t| > MinCardTextLength then
        assert CardTexts(points) == [t] + CardTexts(points[1..]);
        [CardFor(newId(start), noteId, t)] + rest
      else
        assert CardTexts(points) == CardTexts(points[1..]);
        rest
  }

  /** `generateFromKeyPoints`: one card per long enough key point, in order,
      each also appended to the store. */
  function GenerateFromKeyPoints(cards: seq<Flashcard>, noteId: NoteId, points: seq<KeyPoint>, newId: nat -> CardId)
    : (r: (seq<Flashcard>, seq<Flashcard>))
    ensures r.0 == cards + r.1
    ensures |r.1| <= |points|
    ensures |r.1| == Count(points, (p: KeyPoint) => |p.text| > MinCardTextLength)
    ensures |r.1| == |CardTexts(points)|
    ensures forall i | 0 <= i < |r.1| :: IsCardFor(r.1[i], noteId, CardTexts(points)[i])
  {
    var made := CardsFrom(noteId, points, newId, 0);
    CardTextsCount(points);
    (cards + made, made)
  }

  /** A lone key point `term:` becomes a single card asking for the term,
      with an empty answer. */
  lemma HeadingCard(cards: seq<Flashcard>, noteId: NoteId, k: KeyPoint, term: string, cardIds: nat -> CardId)
    requires k.text == term + ":" && ':' !in term && IsTrimmed(term) && |term| >= MinCardTextLength
    ensures var made := GenerateFromKeyPoints(cards, noteId, [k], cardIds).1;
      |made| == 1 && made[0].question == "What is " + term + "?" && made[0].answer == ""
  {
    assert CardTexts([k]) == [k.text] + CardTexts([]);
    TrailingColonEmptyAnswer(term);
    TrimTrimmed(term);
  }

  /** The sample note's opening heading becomes the card "What is
      Photosynthesis Overview?" with an empty answer. */
  lemma OverviewHeadingCard(cards: seq<Flashcard>, noteId: NoteId, pointIds: nat -> PointId, cardIds: nat -> CardId)
    ensures var made := GenerateFromKeyPoints(cards, noteId, ExtractKeyPoints("Photosynthesis Overview:", pointIds), cardIds).1;
      |made| == 1 && made[0].question == "What is Photosynthesis Overview?" && made[0].answer == ""
  {
    var ks := ExtractKeyPoints("Photosynthesis Overview:", pointIds);
    OverviewHeadingIsHigh(pointIds);
    HeadingKeyPointCard(cards, noteId, ks, cardIds);
  }

  lemma HeadingKeyPointCard(cards: seq<Flashcard>, noteId: NoteId, ks: seq<KeyPoint>, cardIds: nat -> CardId)
    requires |ks| == 1 && ks[0].text == "Photosynthesis Overview:"
    ensures var made := GenerateFromKeyPoints(cards, noteId, ks, cardIds).1;
      |made| == 1 && made[0].question == "What is Photosynthesis Overview?" && made[0].answer == ""
  {
    var term := "Photosynthesis Overview";
    assert ks == [ks[0]];
    assert ks[0].text == term + ":";
    assert ':' !in term;
    assert IsTrimmed(term);
    assert |term| >= MinCardTextLength;
    assert "What is " + term + "?" == "What is Photosynthesis Overview?";
    HeadingCard(cards, noteId, ks[0], term, cardIds);
  }

  /** The texts that become cards are exactly the key-point texts longer
      than the threshold, in key-point order. */
  lemma {:induction false} CardTextsIsFilter(points: seq<KeyPoint>)
    ensures CardTexts(points) == Filter(Texts(points), (t: string) => |t| > MinCardTextLength)
    decreases |points|
  {
    if |points| > 0 {
      CardTextsIsFilter(points[1..]);
      assert Texts(points)[1..] == Texts(points[1..]);
    }
  }

  lemma {:induction false} CardTextsCount(points: seq<KeyPoint>)
    ensures |CardTexts(points)| == Count(points, (p: KeyPoint) => |p.text| > MinCardTextLength)
    decreases |points|
  {
    if |points| > 0 {
      CardTextsCount(points[1..]);
    }
  }

  // ---------------------------------------------------------------- store

  /** What a caller passes to `create`; only the first three fields are read. */
  datatype CardDraft = CardDraft(
    noteId: NoteId,
    question: string,
    answer: string,
    mastery: Option<real>,
    lastReviewed: Option<Timestamp>)

  /** The fields an update may carry. */
  datatype CardPatch = CardPatch(
    id: Option<CardId>,
    noteId: Option<NoteId>,
    question: Option<string>,
    answer: Option<string>,
    mastery: Option<real>)

  function MasteryPatch(m: real): CardPatch {
    CardPatch(None, None, None, None, Some(m))
  }

  function FindCard(cards: seq<Flashcard>, id: CardId): Option<nat> {
    FindIndex(cards, (c: Flashcard) => c.id == id)
  }

  predicate HasCard(cards: seq<Flashcard>, id: CardId) {
    exists i | 0 <= i < |cards| :: cards[i].id == id
  }

  /** `getById`: the first card with the id, or `null`. */
  function GetById(cards: seq<Flashcard>, id: CardId): (r: Option<Flashcard>)
    ensures r.Some? <==> HasCard(cards, id)
    ensures r.Some? ==> r.value in cards && r.value.id == id
    ensures r.Some? ==> r.value == cards[FindCard(cards, id).value]
  {
    Find(cards, (c: Flashcard) => c.id == id)
  }

  /** `getByNoteId`: the stored cards of one note, in store order. */
  function GetByNoteId(cards: seq<Flashcard>, noteId: NoteId): (r: seq<Flashcard>)
    ensures |r| <= |cards|
    ensures |r| == Count(cards, OfNote(noteId))
    ensures forall i | 0 <= i < |r| :: r[i] in cards && r[i].noteId == noteId
    ensures forall j | 0 <= j < |cards| :: cards[j].noteId == noteId ==> cards[j] in r
  {
    FilterLength(cards, OfNote(noteId));
    Filter(cards, OfNote(noteId))
  }

  /** The test `getByNoteId` filters with. */
  function OfNote(noteId: NoteId): Flashcard -> bool {
    (c: Flashcard) => c.noteId == noteId
  }

  /** Cards appended later come after, so store order is kept. */
  lemma GetByNoteIdAppend(a: seq<Flashcard>, b: seq<Flashcard>, noteId: NoteId)
    ensures GetByNoteId(a + b, noteId) == GetByNoteId(a, noteId) + GetByNoteId(b, noteId)
  {
    FilterAppend(a, b, OfNote(noteId));
  }

  /** `create`: appends one card with mastery 0 and no review date; any
      mastery or review date in the draft is ignored. */
  function Create(cards: seq<Flashcard>, id: CardId, draft: CardDraft): (r: (seq<Flashcard>, Flashcard))
    ensures r.0 == cards + [r.1]
    ensures r.1.id == id && r.1.noteId == draft.noteId
    ensures r.1.question == draft.question && r.1.answer == draft.answer
    ensures r.1.mastery == 0.0 && r.1.lastReviewed.None?
  {
    var c := NewCard(id, draft.noteId, draft.question, draft.answer);
    (cards + [c], c)
  }

  /** `{...card, ...data, lastReviewed: now}`. */
  function MergeCard(card: Flashcard, data: CardPatch, now: Timestamp): (u: Flashcard)
    ensures u.lastReviewed == Some(now)
  {
    Flashcard(
      data.id.GetOr(card.id),
      data.noteId.GetOr(card.noteId),
      data.question.GetOr(card.question),
      data.answer.GetOr(card.answer),
      data.mastery.GetOr(card.mastery),
      Some(now))
  }

  /** `update`: merges `data` into the first card with the id and stamps
      the review time, or throws with the store unchanged. */
  function Update(cards: seq<Flashcard>, id: CardId, data: CardPatch, now: Timestamp)
    : (r: Result<(seq<Flashcard>, Flashcard)>)
    ensures r.Failure? <==> !HasCard(cards, id)
    ensures r.Failure? ==> r.error == FlashcardNotFound
    ensures r.Success? ==>
      var i := FindCard(cards, id).value;
      && r.value.0 == cards[i := r.value.1]
      && r.value.1.lastReviewed == Some(now)
      && r.value.1.mastery == data.mastery.GetOr(cards[i].mastery)
      && r.value.1.question == data.question.GetOr(cards[i].question)
      && r.value.1.answer == data.answer.GetOr(cards[i].answer)
      && r.value.1.noteId == data.noteId.GetOr(cards[i].noteId)
      && r.value.1.id == data.id.GetOr(id)
  {
    match FindCard(cards, id)
    case None => Failure(FlashcardNotFound)
    case Some(i) =>
      var u := MergeCard(cards[i], data, now);
      Success((cards[i := u], u))
  }

  /** A mastery update changes only mastery and the review time. */
  lemma MasteryUpdateKeepsContent(cards: seq<Flashcard>, id: CardId, m: real, now: Timestamp)
    requires HasCard(cards, id)
    ensures var r := Update(cards, id, MasteryPatch(m), now);
      && r.Success?
      && r.value.1 == GetById(cards, id).value.(mastery := m, lastReviewed := Some(now))
  {
  }

  /** `delete`: removes the first card with the id, or throws. */
  function Delete(cards: seq<Flashcard>, id: CardId): (r: Result<seq<Flashcard>>)
    ensures r.Failure? <==> !HasCard(cards, id)
    ensures r.Failure? ==> r.error == FlashcardNotFound
    ensures r.Success? ==>
      var i := FindCard(cards, id).value;
      && |r.value| == |cards| - 1
      && multiset(r.value) + multiset{cards[i]} == multiset(cards)
      && r.value == RemoveAt(cards, i)
  {
    match RemoveFirst(cards, (c: Flashcard) => c.id == id)
    case None => Failure(FlashcardNotFound)
    case Some(rest) => Success(rest)
  }

  /** With distinct ids, deleting a card takes its id out of the store and
      leaves every other id findable exactly as before. */
  lemma DeleteRemovesCard(xs: seq<Flashcard>, id: CardId, other: CardId)
    requires forall i, j | 0 <= i < j < |xs| :: xs[i].id != xs[j].id
    requires HasCard(xs, id)
    ensures !HasCard(Delete(xs, id).value, id)
    ensures other != id ==> (HasCard(Delete(xs, id).value, other) <==> HasCard(xs, other))
  {
    var i := FindCard(xs, id).value;
    var key := (x: Flashcard) => x.id;
    RemoveAtKeys(xs, i, key, id);
    RemoveAtKeys(xs, i, key, other);
  }
}

=== FILE: ids.dfy ===
/** Identity and time values.  The services draw them from `Date.now()`,
    `new Date().toISOString()` and `Math.random()`; the model takes them as
    parameters instead, so every type here is just the shape of the value. */
module Ids {
  /** An ISO-8601 timestamp string as produced by `toISOString`. */
  type Timestamp = string

  /** Note, flashcard and study-session ids are strings (`Date.now().toString()`). */
  type NoteId = string
  type CardId = string
  type SessionId = string

  /** Key-point ids are the number `Date.now() + Math.random()`. */
  type PointId = real
}

=== FILE: note_analysis.dfy ===
/** Note analysis as done by `noteService.js`: the line classifier, the
    key-point extractor and the summariser.  All three are pure functions of
    the note text; the only outside input is the source of key-point ids. */
module NoteAnalysis {
  import opened Text
  import opened Collections
  import opened Ids

  datatype Importance = Low | Medium | High

  /** The lower-case label the services and components use for a tier. */
  function ImportanceName(i: Importance): string {
    match i
    case Low => "low"
    case Medium => "medium"
    case High => "high"
  }

  datatype KeyPoint = KeyPoint(id: PointId, text: string, importance: Importance, highlighted: bool)

  /** A line becomes a key point only when its trimmed length exceeds this. */
  const MinPointLength: nat := 15
  /** At most this many key points are kept. */
  const MaxKeyPoints: nat := 8
  /** A summary looks at no more than this many non-blank lines. */
  const SummaryLineWindow: nat := 5
  /** A summary line must be longer than this to become a topic. */
  const MinTopicLength: nat := 20
  /** Topics are cut to this many characters. */
  const TopicCut: nat := 80
  /** Separator between topics in a stored summary. */
  const Bullet: string := "\U{2022} "
  const TopicSeparator: string := "\n" + Bullet

  // ---------------------------------------------------------------- classifier

  /** The regular expressions tried, in order, by the high-importance check. */
  datatype Pattern =
    | DefinitionPattern                     // /^[\d\w\s]*:[\s\S]*$/
    | WholeWordPattern(words: seq<string>)  // /\b(w1|w2|...)\b/i

  const ImportantPatterns: seq<Pattern> := [
    DefinitionPattern,
    WholeWordPattern(["important", "key", "main", "primary", "essential", "critical", "fundamental"]),
    WholeWordPattern(["definition", "concept", "theory", "principle", "rule", "law"]),
    WholeWordPattern(["remember", "note", "attention", "warning", "caution"])
  ]

  /** Characters of the class `[\d\w\s]`. */
  predicate IsLabelChar(c: char) {
    IsWordChar(c) || IsSpace(c)
  }

  /** Some colon of `t` is preceded only by label characters. */
  predicate DefinitionShape(t: string) {
    exists i | 0 <= i < |t| :: t[i] == ':' && forall j | 0 <= j < i :: IsLabelChar(t[j])
  }

  /** Lower-case word `w` occurs case-insensitively in `t` at `i`, with a word
      boundary on each side. */
  predicate WholeWordAt(t: string, w: string, i: int) {
    OccursAt(ToLower(t), w, i) && WordBoundary(t, i) && WordBoundary(t, i + |w|)
  }

  predicate HasWholeWord(t: string, w: string) {
    exists i | 0 <= i <= |t| - |w| :: WholeWordAt(t, w, i)
  }

  predicate PatternMatches(p: Pattern, t: string) {
    match p
    case DefinitionPattern => DefinitionShape(t)
    case WholeWordPattern(words) => exists k | 0 <= k < |words| :: HasWholeWord(t, words[k])
  }

  /** `importantPatterns.some(pattern => pattern.test(t))`. */
  predicate IsHighLine(t: string) {
    exists k | 0 <= k < |ImportantPatterns| :: PatternMatches(ImportantPatterns[k], t)
  }

  /** `t.includes('*') || t.includes('**') || t.toUpperCase() === t`. */
  predicate IsMediumLine(t: string) {
    '*' in t || Contains(t, "**") || ToUpper(t) == t
  }

  /** The ordered rule list: high is tried first, then medium, else low. */
  function Classify(t: string): (r: Importance)
    ensures r == High <==> IsHighLine(t)
    ensures r == Medium <==> !IsHighLine(t) && ('*' in t || !HasLowerLetter(t))
    ensures r == Low <==> !IsHighLine(t) && '*' !in t && HasLowerLetter(t)
  {
    UpperFixedIff(t);
    assert Contains(t, "**") ==> '*' in t by {
      if Contains(t, "**") {
        var i :| 0 <= i <= |t| - 2 && OccursAt(t, "**", i);
        assert t[i..i + 2][0] == t[i];
      }
    }
    if IsHighLine(t) then High
    else if IsMediumLine(t) then Medium
    else Low
  }

  /** A line is high exactly when it has the definition shape or contains one
      of the listed keywords as a whole word, ignoring case. */
  lemma HighIff(t: string)
    ensures Classify(t) == High <==>
      DefinitionShape(t)
      || (exists w | w in ["important", "key", "main", "primary", "essential", "critical", "fundamental"] :: HasWholeWord(t, w))
      || (exists w | w in ["definition", "concept", "theory", "principle", "rule", "law"] :: HasWholeWord(t, w))
      || (exists w | w in ["remember", "note", "attention", "warning", "caution"] :: HasWholeWord(t, w))
  {
    if PatternMatches(ImportantPatterns[1], t) {
      var words := ImportantPatterns[1].words;
      var k :| 0 <= k < |words| && HasWholeWord(t, words[k]);
      assert words[k] in words;
    }
    if PatternMatches(ImportantPatterns[2], t) {
      var words := ImportantPatterns[2].words;
      var k :| 0 <= k < |words| && HasWholeWord(t, words[k]);
      assert words[k] in words;
    }
    if PatternMatches(ImportantPatterns[3], t) {
      var words := ImportantPatterns[3].words;
      var k :| 0 <= k < |words| && HasWholeWord(t, words[k]);
      assert words[k] in words;
    }
    assert IsHighLine(t) <==> (
      || PatternMatches(ImportantPatterns[0], t) || PatternMatches(ImportantPatterns[1], t)
      || PatternMatches(ImportantPatterns[2], t) || PatternMatches(ImportantPatterns[3], t));
  }

  /** The definition pattern holds exactly when the text has a colon and
      everything before the FIRST colon is a word character or whitespace. */
  lemma DefinitionShapeFirstColon(t: string)
    ensures DefinitionShape(t) <==>
      ':' in t && forall j | 0 <= j < FirstIndex(t, ':') :: IsLabelChar(t[j])
  {
    if DefinitionShape(t) {
      var i :| 0 <= i < |t| && t[i] == ':' && forall j | 0 <= j < i :: IsLabelChar(t[j]);
      var f := FirstIndex(t, ':');
      assert !IsLabelChar(':');
      assert f <= i by {
        assert forall j | 0 <= j < f :: t[..f][j] == t[j];
      }
    }
    if ':' in t && forall j | 0 <= j < FirstIndex(t, ':') :: IsLabelChar(t[j]) {
      assert t[FirstIndex(t, ':')] == ':';
    }
  }

  /** A hyphen before the colon defeats the definition pattern. */
  lemma HyphenatedLabelIsNotDefinition()
    ensures !DefinitionShape("Light-dependent: reactions")
  {
    var t := "Light-dependent: reactions";
    assert t[5] == '-' && !IsLabelChar(t[5]);
    assert forall i | 0 <= i <= 5 :: t[i] != ':';
  }

  /** The keyword rule runs before the casing rule: an all-caps heading that
      names a keyword is high, not medium. */
  lemma ImportantNotesIsHigh()
    ensures Classify("IMPORTANT NOTES") == High
  {
    var t := "IMPORTANT NOTES";
    assert ToLower(t)[..9] == "important";
    assert WholeWordAt(t, "important", 0);
    assert PatternMatches(ImportantPatterns[1], t) by {
      assert ImportantPatterns[1].words[0] == "important";
    }
  }

  /** A line of digits and blanks matches no pattern and equals its
      upper-casing, so it is medium. */
  lemma DigitLineIsMedium(t: string)
    requires forall i | 0 <= i < |t| :: IsDigit(t[i]) || t[i] == ' '
    ensures Classify(t) == Medium
  {
    assert !DefinitionShape(t) by {
      assert forall i | 0 <= i < |t| :: t[i] != ':';
    }
    forall k | 1 <= k < |ImportantPatterns|
      ensures !PatternMatches(ImportantPatterns[k], t)
    {
      var words := ImportantPatterns[k].words;
      forall m, i | 0 <= m < |words| && 0 <= i <= |t| - |words[m]|
        ensures !WholeWordAt(t, words[m], i)
      {
        NoLetterAt(t, words[m], i);
      }
    }
    assert !HasLowerLetter(t);
  }

  /** A keyword, which starts with a letter, never occurs where the text
      holds a digit or a blank. */
  lemma NoLetterAt(t: string, w: string, i: int)
    requires forall j | 0 <= j < |t| :: IsDigit(t[j]) || t[j] == ' '
    requires |w| > 0 && 'a' <= w[0] <= 'z'
    ensures !OccursAt(ToLower(t), w, i)
  {
    if 0 <= i && i + |w| <= |t| {
      assert ToLower(t)[i] == LowerChar(t[i]) == t[i];
      assert ToLower(t)[i..i + |w|][0] == t[i];
    }
  }

  // ---------------------------------------------------------------- key points

  /** Every line of `lines`, trimmed. */
  function TrimAll(lines: seq<string>): (r: seq<string>)
    ensures |r| == |lines| && forall j | 0 <= j < |lines| :: r[j] == Trim(lines[j])
  {
    seq(|lines|, j requires 0 <= j < |lines| => Trim(lines[j]))
  }

  /** Trimming line by line distributes over concatenation. */
  lemma TrimAllAppend(a: seq<string>, b: seq<string>)
    ensures TrimAll(a + b) == TrimAll(a) + TrimAll(b)
  {
    assert forall j | 0 <= j < |a + b| :: TrimAll(a + b)[j] == (TrimAll(a) + TrimAll(b))[j] by {
      forall j | 0 <= j < |a + b| ensures TrimAll(a + b)[j] == (TrimAll(a) + TrimAll(b))[j] {
        if j < |a| {
          assert (a + b)[j] == a[j];
        } else {
          assert (a + b)[j] == b[j - |a|];
        }
      }
    }
  }

  predicate LongPoint(t: string) {
    |t| > MinPointLength
  }

  /** The trimmed lines longer than `MinPointLength`, in source order: each
      one is the trimmed form of some input line, every such line is kept,
      and there are as many as there are such lines. */
  function QualifyingLines(lines: seq<string>): (r: seq<string>)
    ensures |r| <= |lines|
    ensures |r| == Count(TrimAll(lines), LongPoint)
    ensures forall i | 0 <= i < |r| :: |r[i]| > MinPointLength && IsTrimmed(r[i]) && r[i] in TrimAll(lines)
    ensures forall j | 0 <= j < |lines| :: |Trim(lines[j])| > MinPointLength ==> Trim(lines[j]) in r
  {
    var all := TrimAll(lines);
    var r := Filter(all, LongPoint);
    FilterLength(all, LongPoint);
    assert forall j | 0 <= j < |lines| :: all[j] == Trim(lines[j]);
    assert forall i | 0 <= i < |r| :: IsTrimmed(r[i]) by {
      forall i | 0 <= i < |r| ensures IsTrimmed(r[i]) {
        var j :| 0 <= j < |all| && all[j] == r[i];
      }
    }
    r
  }

  /** Qualifying lines of a concatenation are the concatenated qualifying
      lines: the extractor never reorders. */
  lemma QualifyingLinesAppend(a: seq<string>, b: seq<string>)
    ensures QualifyingLines(a + b) == QualifyingLines(a) + QualifyingLines(b)
  {
    TrimAllAppend(a, b);
    FilterAppend(TrimAll(a), TrimAll(b), LongPoint);
  }

  function MakePoint(id: PointId, text: string): KeyPoint {
    var importance := Classify(text);
    KeyPoint(id, text, importance, importance == High)
  }

  /** Points for `texts`, the `i`-th one taking id `newId(start + i)`. */
  function MakePoints(texts: seq<string>, newId: nat -> PointId, start: nat): (r: seq<KeyPoint>)
    ensures |r| == |texts|
    ensures forall i | 0 <= i < |r| :: r[i] == MakePoint(newId(start + i), texts[i])
    decreases |texts|
  {
    if |texts| == 0 then [] else [MakePoint(newId(start), texts[0])] + MakePoints(texts[1..], newId, start + 1)
  }

  /** `extractKeyPoints`: one point per qualifying line of `content`, first
      `MaxKeyPoints` only.  `newId(i)` is the id given to the `i`-th point. */
  function ExtractKeyPoints(content: string, newId: nat -> PointId): (r: seq<KeyPoint>)
    ensures |r| <= MaxKeyPoints
    ensures forall i | 0 <= i < |r| ::
      && |r[i].text| > MinPointLength
      && IsTrimmed(r[i].text)
      && r[i].importance == Classify(r[i].text)
      && (r[i].highlighted <==> r[i].importance == High)
  {
    MakePoints(Prefix(QualifyingLines(Split(content, '\n')), MaxKeyPoints), newId, 0)
  }

  function Texts(points: seq<KeyPoint>): (r: seq<string>)
    ensures |r| == |points| && forall i | 0 <= i < |points| :: r[i] == points[i].text
  {
    seq(|points|, i requires 0 <= i < |points| => points[i].text)
  }

  /** The key points are the first eight qualifying lines in source order, or
      all of them when there are fewer: no line is skipped and none is
      promoted for its importance. */
  lemma KeyPointsAreFirstQualifying(content: string, newId: nat -> PointId)
    ensures var q := QualifyingLines(Split(content, '\n'));
      Texts(ExtractKeyPoints(content, newId)) == Prefix(q, MaxKeyPoints)
  {
    var q := QualifyingLines(Split(content, '\n'));
    var r := ExtractKeyPoints(content, newId);
    assert |Texts(r)| == |Prefix(q, MaxKeyPoints)|;
    assert forall i | 0 <= i < |r| :: Texts(r)[i] == Prefix(q, MaxKeyPoints)[i];
  }

  /** Each key point is some line of the content with its surrounding
      whitespace removed. */
  lemma KeyPointsComeFromLines(content: string, newId: nat -> PointId)
    ensures var r := ExtractKeyPoints(content, newId);
      forall i | 0 <= i < |r| :: r[i].text in TrimAll(Split(content, '\n'))
  {
    var lines := Split(content, '\n');
    var q := QualifyingLines(lines);
    var r := ExtractKeyPoints(content, newId);
    assert forall i | 0 <= i < |r| :: r[i].text == q[i];
  }

  /** Content without a line longer than `MinPointLength` after trimming
      yields no key points (and no error). */
  lemma NoLongLineNoPoints(content: string, newId: nat -> PointId)
    requires forall j | 0 <= j < |Split(content, '\n')| :: |Trim(Split(content, '\n')[j])| <= MinPointLength
    ensures ExtractKeyPoints(content, newId) == []
  {
    AllShortNotQualifying(Split(content, '\n'));
  }

  lemma AllShortNotQualifying(lines: seq<string>)
    requires forall j | 0 <= j < |lines| :: |Trim(lines[j])| <= MinPointLength
    ensures QualifyingLines(lines) == []
  {
    FilterNone(TrimAll(lines), LongPoint);
  }

  /** The sample heading "Key Components:" is exactly fifteen characters,
      so it is dropped even though it names a keyword. */
  lemma FifteenCharHeadingDropped(newId: nat -> PointId)
    ensures ExtractKeyPoints("Key Components:", newId) == []
  {
    var a := "Key Components:";
    assert '\n' !in a;
    assert Split(a, '\n') == [a];
    assert |a| == 15;
    TrimTrimmed(a);
    assert QualifyingLines([a]) == [];
    assert Prefix(QualifyingLines(Split(a, '\n')), MaxKeyPoints) == [];
  }

  /** The sample heading "Photosynthesis Overview:" is kept as a
      high-importance, highlighted point. */
  lemma OverviewHeadingIsHigh(newId: nat -> PointId)
    ensures var r := ExtractKeyPoints("Photosynthesis Overview:", newId);
      |r| == 1 && r[0].text == "Photosynthesis Overview:" && r[0].importance == High && r[0].highlighted
  {
    var b := "Photosynthesis Overview:";
    assert '\n' !in b;
    assert Split(b, '\n') == [b];
    TrimTrimmed(b);
    assert QualifyingLines([b]) == [b];
    assert Prefix(QualifyingLines(Split(b, '\n')), MaxKeyPoints) == [b];
    OverviewIsDefinition();
  }

  lemma OverviewIsDefinition()
    ensures Classify("Photosynthesis Overview:") == High
  {
    var b := "Photosynthesis Overview:";
    assert DefinitionShape(b) by {
      assert b[23] == ':';
      assert forall j | 0 <= j < 23 :: IsLabelChar(b[j]);
    }
    assert PatternMatches(ImportantPatterns[0], b);
  }

  // ---------------------------------------------------------------- summary

  predicate NonBlank(line: string) {
    |Trim(line)| > 0
  }

  /** `content.split('\n').filter(line => line.trim().length > 0)`: the
      non-blank lines, each of them and nothing else, in order (see
      `NonBlankLinesAppend`). */
  function NonBlankLines(content: string): (r: seq<string>)
    ensures forall i | 0 <= i < |r| :: NonBlank(r[i]) && '\n' !in r[i]
    ensures var lines := Split(content, '\n');
      && |r| == Count(lines, NonBlank)
      && (forall i | 0 <= i < |r| :: r[i] in lines)
      && (forall j | 0 <= j < |lines| :: NonBlank(lines[j]) ==> lines[j] in r)
  {
    var lines := Split(content, '\n');
    var r := Filter(lines, NonBlank);
    FilterLength(lines, NonBlank);
    assert forall i | 0 <= i < |r| :: r[i] in lines;
    r
  }

  /** The non-blank lines of two texts joined by a newline are those of the
      first text, then those of the second: source order is kept. */
  lemma NonBlankLinesAppend(a: string, b: string)
    ensures NonBlankLines(a + "\n" + b) == NonBlankLines(a) + NonBlankLines(b)
  {
    SplitAppend(a, b, '\n');
    FilterAppend(Split(a, '\n'), Split(b, '\n'), NonBlank);
  }

  predicate LongTopic(t: string) {
    |t| > MinTopicLength
  }

  /** One topic from one trimmed line: cut to `TopicCut` characters, with
      `...` when something was cut. */
  function Topic(line: string): (r: string)
    requires IsTrimmed(line) && |line| > MinTopicLength
    ensures |r| <= TopicCut + 3 && IsTrimmed(r) && |r| > 0
    ensures |line| <= TopicCut ==> r == line
    ensures |line| > TopicCut ==> r == line[..TopicCut] + "..."
  {
    Prefix(line, TopicCut) + (if |line| > TopicCut then "..." else "")
  }

  /** The lines of a window that become topics, trimmed, in order (see
      `TopicLinesAppend`): every trimmed line longer than `MinTopicLength`
      and nothing else. */
  function TopicLines(window: seq<string>): (r: seq<string>)
    ensures |r| <= |window|
    ensures |r| == Count(TrimAll(window), LongTopic)
    ensures forall i | 0 <= i < |r| :: LongTopic(r[i]) && IsTrimmed(r[i]) && r[i] in TrimAll(window)
    ensures forall j | 0 <= j < |window| :: LongTopic(Trim(window[j])) ==> Trim(window[j]) in r
  {
    var all := TrimAll(window);
    var r := Filter(all, LongTopic);
    FilterLength(all, LongTopic);
    assert forall j | 0 <= j < |window| :: all[j] == Trim(window[j]);
    assert forall i | 0 <= i < |r| :: IsTrimmed(r[i]) by {
      forall i | 0 <= i < |r| ensures IsTrimmed(r[i]) {
        var j :| 0 <= j < |all| && all[j] == r[i];
      }
    }
    r
  }

  /** Topic lines of a concatenation are the concatenated topic lines. */
  lemma TopicLinesAppend(a: seq<string>, b: seq<string>)
    ensures TopicLines(a + b) == TopicLines(a) + TopicLines(b)
  {
    TrimAllAppend(a, b);
    FilterAppend(TrimAll(a), TrimAll(b), LongTopic);
  }

  /** Topics from a window of lines: one per long enough line, in order. */
  function TopicsOf(window: seq<string>): (r: seq<string>)
    ensures |r| == |TopicLines(window)| && |r| <= |window|
    ensures forall i | 0 <= i < |r| :: r[i] == Topic(TopicLines(window)[i])
  {
    var ls := TopicLines(window);
    seq(|ls|, i requires 0 <= i < |ls| => Topic(ls[i]))
  }

  /** Topics of newline-free lines are newline-free. */
  lemma TopicsOfNoNewline(window: seq<string>)
    requires forall j | 0 <= j < |window| :: '\n' !in window[j]
    ensures forall i | 0 <= i < |TopicsOf(window)| :: '\n' !in TopicsOf(window)[i]
  {
    var ls := TopicLines(window);
    var all := TrimAll(window);
    assert forall j | 0 <= j < |all| :: '\n' !in all[j] by {
      forall j | 0 <= j < |all| ensures '\n' !in all[j] {
        TrimKeepsAbsent(window[j], '\n');
      }
    }
    forall i | 0 <= i < |ls| ensures '\n' !in Topic(ls[i]) {
      assert ls[i] in all;
      TopicKeepsAbsent(ls[i], '\n');
    }
  }

  /** Every long enough line of a window gives its topic. */
  lemma TopicsOfKeepsLongLines(window: seq<string>)
    ensures forall j | 0 <= j < |window| && LongTopic(Trim(window[j])) :: Topic(Trim(window[j])) in TopicsOf(window)
  {
    var r := TopicsOf(window);
    var ls := TopicLines(window);
    forall j | 0 <= j < |window| && LongTopic(Trim(window[j])) ensures Topic(Trim(window[j])) in r {
      var i :| 0 <= i < |ls| && ls[i] == Trim(window[j]);
      assert r[i] == Topic(ls[i]);
    }
  }

  /** Cutting a line adds no character other than the dots. */
  lemma TopicKeepsAbsent(line: string, c: char)
    requires IsTrimmed(line) && |line| > MinTopicLength
    requires c !in line && c != '.'
    ensures c !in Topic(line)
  {
    var t := Prefix(line, TopicCut);
    assert forall k | 0 <= k < |t| :: t[k] == line[k];
  }

  /** The topics of `generateSummary`, before they are joined. */
  function SummaryTopics(content: string): (r: seq<string>)
    ensures |r| <= SummaryLineWindow
    ensures forall i | 0 <= i < |r| :: |r[i]| <= TopicCut + 3 && IsTrimmed(r[i]) && |r[i]| > 0 && '\n' !in r[i]
    ensures var w := Prefix(NonBlankLines(content), SummaryLineWindow);
      && |r| == Count(TrimAll(w), LongTopic)
      && forall j | 0 <= j < |w| && LongTopic(Trim(w[j])) :: Topic(Trim(w[j])) in r
  {
    var window := Prefix(NonBlankLines(content), SummaryLineWindow);
    TopicsOfNoNewline(window);
    TopicsOfKeepsLongLines(window);
    TopicsOf(window)
  }

  /** Each summary topic is the topic of one of the first five non-blank
      lines, a line longer than `MinTopicLength` once trimmed. */
  lemma SummaryTopicsFromWindow(content: string, i: nat)
    requires i < |SummaryTopics(content)|
    ensures var w := Prefix(NonBlankLines(content), SummaryLineWindow);
      exists j | 0 <= j < |w| && LongTopic(Trim(w[j])) :: SummaryTopics(content)[i] == Topic(Trim(w[j]))
  {
    var w := Prefix(NonBlankLines(content), SummaryLineWindow);
    var ls := TopicLines(w);
    assert ls[i] in TrimAll(w);
    var j :| 0 <= j < |w| && TrimAll(w)[j] == ls[i];
    assert SummaryTopics(content)[i] == Topic(Trim(w[j]));
  }

  /** `generateSummary`: the topics joined by a newline and a bullet. */
  function GenerateSummary(content: string): (r: string)
    ensures SummaryTopics(content) == [] ==> r == ""
  {
    Join(SummaryTopics(content), TopicSeparator)
  }

  /** A line longer than `MinTopicLength` among the first five non-blank
      lines gives a non-empty summary that starts with the first topic. */
  lemma LongOpeningLineGivesSummary(content: string, j: nat)
    requires var w := Prefix(NonBlankLines(content), SummaryLineWindow);
      j < |w| && LongTopic(Trim(w[j]))
    ensures SummaryTopics(content) != []
    ensures var ts := SummaryTopics(content);
      |GenerateSummary(content)| >= |ts[0]| > 0 && GenerateSummary(content)[..|ts[0]|] == ts[0]
  {
    var ts := SummaryTopics(content);
    var w := Prefix(NonBlankLines(content), SummaryLineWindow);
    assert Topic(Trim(w[j])) in ts;
    JoinStartsWithFirst(ts, TopicSeparator);
  }

  /** Only the first five non-blank lines are looked at: when those are all
      short the summary is empty, whatever follows them. */
  lemma ShortOpeningEmptySummary(content: string)
    requires var lines := NonBlankLines(content);
      forall i | 0 <= i < |lines| && i < SummaryLineWindow :: |Trim(lines[i])| <= MinTopicLength
    ensures GenerateSummary(content) == ""
  {
    var w := Prefix(NonBlankLines(content), SummaryLineWindow);
    AllShortNoTopics(w);
  }

  lemma AllShortNoTopics(window: seq<string>)
    requires forall i | 0 <= i < |window| :: |Trim(window[i])| <= MinTopicLength
    ensures TopicsOf(window) == []
  {
    FilterNone(TrimAll(window), LongTopic);
  }

  /** Two contents whose first five non-blank lines agree get the same
      summary. */
  lemma SummaryDependsOnOpeningOnly(c1: string, c2: string)
    requires Prefix(NonBlankLines(c1), SummaryLineWindow) == Prefix(NonBlankLines(c2), SummaryLineWindow)
    ensures GenerateSummary(c1) == GenerateSummary(c2)
  {
  }
}

=== FILE: note_store.dfy ===
/** The note records kept by `noteService.js`: creation runs the analysis,
    updates re-run it only when new non-empty content arrives. */
module NoteStore {
  import opened Wrappers
  import opened Ids
  import opened Collections
  import opened NoteAnalysis

  datatype Note = Note(id: NoteId, content: string, createdAt: Timestamp, summary: string, keyPoints: seq<KeyPoint>)

  /** The fields an update may carry; `None` is a key the caller left out. */
  datatype NotePatch = NotePatch(
    id: Option<NoteId>,
    content: Option<string>,
    createdAt: Option<Timestamp>,
    summary: Option<string>,
    keyPoints: Option<seq<KeyPoint>>)

  const NoteNotFound: string := "Note not found"

  function FindNote(notes: seq<Note>, id: NoteId): Option<nat> {
    FindIndex(notes, (n: Note) => n.id == id)
  }

  predicate HasNote(notes: seq<Note>, id: NoteId) {
    exists i | 0 <= i < |notes| :: notes[i].id == id
  }

  /** `getById`: the first note with the id, or `null`. */
  function GetById(notes: seq<Note>, id: NoteId): (r: Option<Note>)
    ensures r.Some? <==> HasNote(notes, id)
    ensures r.Some? ==> r.value in notes && r.value.id == id
    ensures r.Some? ==> r.value == notes[FindNote(notes, id).value]
  {
    Find(notes, (n: Note) => n.id == id)
  }

  /** The record `create` builds for `content`. */
  function AnalysedNote(id: NoteId, now: Timestamp, content: string, newId: nat -> PointId): Note {
    Note(id, content, now, GenerateSummary(content), ExtractKeyPoints(content, newId))
  }

  /** `create`: appends exactly one note, whose summary and key points are
      derived from its content. */
  function Create(notes: seq<Note>, id: NoteId, now: Timestamp, content: string, newId: nat -> PointId)
    : (r: (seq<Note>, Note))
    ensures r.0 == notes + [r.1]
    ensures r.1.id == id && r.1.content == content && r.1.createdAt == now
    ensures r.1.summary == GenerateSummary(content)
    ensures r.1.keyPoints == ExtractKeyPoints(content, newId)
  {
    var n := AnalysedNote(id, now, content, newId);
    (notes + [n], n)
  }

  /** JavaScript truthiness of an optional string: present and non-empty. */
  predicate Truthy(s: Option<string>) {
    s.Some? && s.value != ""
  }

  /** `{...note, ...data}` with summary and key points re-derived from truthy
      new content, and otherwise taken from the stored note. */
  function MergeNote(note: Note, data: NotePatch, newId: nat -> PointId): (u: Note)
    ensures u.id == data.id.GetOr(note.id)
    ensures u.content == data.content.GetOr(note.content)
    ensures u.createdAt == data.createdAt.GetOr(note.createdAt)
    ensures Truthy(data.content) ==>
      u.summary == GenerateSummary(data.content.value) && u.keyPoints == ExtractKeyPoints(data.content.value, newId)
    ensures !Truthy(data.content) ==> u.summary == note.summary && u.keyPoints == note.keyPoints
  {
    var rederive := Truthy(data.content);
    Note(
      data.id.GetOr(note.id),
      data.content.GetOr(note.content),
      data.createdAt.GetOr(note.createdAt),
      if rederive then GenerateSummary(data.content.value) else note.summary,
      if rederive then ExtractKeyPoints(data.content.value, newId) else note.keyPoints)
  }

  /** `update`: merges `data` into the first note with the id, or throws
      "Note not found" and leaves the list unchanged. */
  function Update(notes: seq<Note>, id: NoteId, data: NotePatch, newId: nat -> PointId)
    : (r: Result<(seq<Note>, Note)>)
    ensures r.Failure? <==> !HasNote(notes, id)
    ensures r.Failure? ==> r.error == NoteNotFound
    ensures r.Success? ==>
      var i := FindNote(notes, id).value;
      && r.value.1 == MergeNote(notes[i], data, newId)
      && r.value.0 == notes[i := r.value.1]
  {
    match FindNote(notes, id)
    case None => Failure(NoteNotFound)
    case Some(i) =>
      var u := MergeNote(notes[i], data, newId);
      Success((notes[i := u], u))
  }

  /** An update without truthy content keeps the stored summary and key
      points, even when `data` supplies its own. */
  lemma UpdateWithoutContentKeepsDerived(notes: seq<Note>, id: NoteId, data: NotePatch, newId: nat -> PointId)
    requires HasNote(notes, id) && !Truthy(data.content)
    ensures var r := Update(notes, id, data, newId);
      && r.Success?
      && r.value.1.summary == GetById(notes, id).value.summary
      && r.value.1.keyPoints == GetById(notes, id).value.keyPoints
  {
  }

  /** An update changes the one note it found and no other. */
  lemma UpdateTouchesOneNote(notes: seq<Note>, id: NoteId, data: NotePatch, newId: nat -> PointId)
    requires HasNote(notes, id)
    ensures var r := Update(notes, id, data, newId);
      && r.Success?
      && |r.value.0| == |notes|
      && (forall j | 0 <= j < |notes| && notes[j].id != id :: r.value.0[j] == notes[j])
      && (exists j | 0 <= j < |notes| :: notes[j].id == id && r.value.0[j] == r.value.1)
  {
    var i := FindNote(notes, id).value;
    assert notes[i].id == id;
  }

  /** `delete`: removes the first note with the id, or throws. */
  function Delete(notes: seq<Note>, id: NoteId): (r: Result<seq<Note>>)
    ensures r.Failure? <==> !HasNote(notes, id)
    ensures r.Failure? ==> r.error == NoteNotFound
    ensures r.Success? ==>
      var i := FindNote(notes, id).value;
      && |r.value| == |notes| - 1
      && multiset(r.value) + multiset{notes[i]} == multiset(notes)
      && r.value == RemoveAt(notes, i)
  {
    match RemoveFirst(notes, (n: Note) => n.id == id)
    case None => Failure(NoteNotFound)
    case Some(rest) => Success(rest)
  }

  /** With distinct ids, deleting a note takes its id out of the store and
      leaves every other id findable exactly as before. */
  lemma DeleteRemovesNote(xs: seq<Note>, id: NoteId, other: NoteId)
    requires forall i, j | 0 <= i < j < |xs| :: xs[i].id != xs[j].id
    requires HasNote(xs, id)
    ensures !HasNote(Delete(xs, id).value, id)
    ensures other != id ==> (HasNote(Delete(xs, id).value, other) <==> HasNote(xs, other))
  {
    var i := FindNote(xs, id).value;
    var key := (x: Note) => x.id;
    RemoveAtKeys(xs, i, key, id);
    RemoveAtKeys(xs, i, key, other);
  }
}

=== FILE: progress.dfy ===
/** The figures `StudyProgress.jsx` derives from the current session and the
    page's flashcards. */
module Progress {
  import opened Collections
  import opened Flashcards
  import opened Sessions

  // ---------------------------------------------------------------- rounding

  /** `Math.round` on a real: the nearest integer, halves rounded up. */
  function Round(x: real): (n: int)
    ensures n as real - 0.5 <= x < n as real + 0.5
  {
    (x + 0.5).Floor
  }

  /** `Round` is the only integer within half a unit below and above. */
  lemma RoundUnique(x: real, n: int)
    requires n as real - 0.5 <= x < n as real + 0.5
    ensures Round(x) == n
  {
  }

  lemma RoundMonotone(x: real, y: real)
    requires x <= y
    ensures Round(x) <= Round(y)
  {
  }

  /** Rounding a value in [0, 100] stays in [0, 100]. */
  lemma RoundPercent(x: real)
    requires 0.0 <= x <= 100.0
    ensures 0 <= Round(x) <= 100
  {
    RoundMonotone(0.0, x);
    RoundMonotone(x, 100.0);
    RoundUnique(0.0, 0);
    RoundUnique(100.0, 100);
  }

  // ---------------------------------------------------------------- session figures

  /** The share of correct answers as a percentage. */
  function Percentage(correct: int, reviewed: int): real
    requires reviewed > 0
  {
    correct as real / reviewed as real * 100.0
  }

  /** `accuracy`: the percentage of correct answers to the nearest integer,
      0 before the first answer.  With consistent counters it is a
      percentage: 100 when every reviewed card was answered correctly and 0
      when none was. */
  function Accuracy(s: StudySession): (a: int)
    ensures s.cardsReviewed <= 0 ==> a == 0
    ensures s.cardsReviewed > 0 ==>
      var pct := Percentage(s.correctAnswers, s.cardsReviewed);
      a as real - 0.5 <= pct < a as real + 0.5
    ensures 0 <= s.correctAnswers <= s.cardsReviewed ==> 0 <= a <= 100
    ensures s.cardsReviewed > 0 && s.correctAnswers == s.cardsReviewed ==> a == 100
    ensures s.correctAnswers == 0 ==> a == 0
  {
    if s.cardsReviewed > 0 then
      RoundedPercentage(s.correctAnswers, s.cardsReviewed);
      Round(Percentage(s.correctAnswers, s.cardsReviewed))
    else 0
  }

  lemma RoundedPercentage(correct: int, reviewed: int)
    requires reviewed > 0
    ensures 0 <= correct <= reviewed ==> 0 <= Round(Percentage(correct, reviewed)) <= 100
    ensures correct == reviewed ==> Round(Percentage(correct, reviewed)) == 100
    ensures correct == 0 ==> Round(Percentage(correct, reviewed)) == 0
  {
    var q := correct as real / reviewed as real;
    var pct := Percentage(correct, reviewed);
    assert pct == q * 100.0;
    if 0 <= correct <= reviewed {
      ShareInUnit(correct as real, reviewed as real);
      RoundPercent(pct);
    }
    if correct == reviewed {
      WholeShare(reviewed as real);
      RoundUnique(pct, 100);
    }
    if correct == 0 {
      assert q == 0.0;
      RoundUnique(pct, 0);
    }
  }

  /** A part of a positive whole is a share in [0, 1]. */
  lemma ShareInUnit(part: real, whole: real)
    requires 0.0 <= part <= whole && whole > 0.0
    ensures 0.0 <= part / whole <= 1.0
  {
    var inv := 1.0 / whole;
    assert inv * whole == 1.0;
    assert inv > 0.0;
    assert part / whole == part * inv;
    assert (whole - part) * inv >= 0.0;
    assert whole * inv == 1.0;
  }

  /** A whole is all of itself. */
  lemma WholeShare(whole: real)
    requires whole > 0.0
    ensures whole / whole == 1.0
  {
    assert (whole / whole) * whole == whole;
  }

  /** The "Incorrect" figure. */
  function Incorrect(s: StudySession): (n: int)
    ensures n + s.correctAnswers == s.cardsReviewed
  {
    s.cardsReviewed - s.correctAnswers
  }

  /** One more answer raises the incorrect figure by one exactly when it was
      wrong. */
  lemma IncorrectCountsWrongAnswers(s: StudySession, correct: bool)
    ensures var t := s.(cardsReviewed := s.cardsReviewed + 1,
                        correctAnswers := s.correctAnswers + if correct then 1 else 0);
      Incorrect(t) == Incorrect(s) + if correct then 0 else 1
  {
  }

  // ---------------------------------------------------------------- mastery figures

  predicate MasteriesInUnit(cards: seq<Flashcard>) {
    forall i | 0 <= i < |cards| :: 0.0 <= cards[i].mastery <= 1.0
  }

  /** `cards.reduce((sum, card) => sum + card.mastery, 0)`: with every
      mastery in [0, 1] the sum lies between 0 and the number of cards. */
  function MasterySum(cards: seq<Flashcard>): (r: real)
    ensures MasteriesInUnit(cards) ==> 0.0 <= r <= |cards| as real
    decreases |cards|
  {
    if |cards| == 0 then 0.0
    else
      var init := cards[..|cards| - 1];
      assert MasteriesInUnit(cards) ==> MasteriesInUnit(init) by {
        if MasteriesInUnit(cards) {
          forall i | 0 <= i < |init| ensures 0.0 <= init[i].mastery <= 1.0 {
            assert init[i] == cards[i];
          }
        }
      }
      MasterySum(init) + cards[|cards| - 1].mastery
  }

  /** The mean mastery of a non-empty deck as a percentage. */
  function MeanPercent(cards: seq<Flashcard>): real
    requires |cards| > 0
  {
    MasterySum(cards) / |cards| as real * 100.0
  }

  /** `overallMastery`: the mean mastery as a percentage to the nearest
      integer, 0 for no cards; with every mastery in [0, 1] it is a
      percentage. */
  function OverallMastery(cards: seq<Flashcard>): (m: int)
    ensures |cards| == 0 ==> m == 0
    ensures |cards| > 0 ==> m as real - 0.5 <= MeanPercent(cards) < m as real + 0.5
    ensures MasteriesInUnit(cards) ==> 0 <= m <= 100
  {
    if |cards| > 0 then
      RoundedMean(cards);
      Round(MeanPercent(cards))
    else 0
  }

  lemma RoundedMean(cards: seq<Flashcard>)
    requires |cards| > 0
    ensures MasteriesInUnit(cards) ==> 0 <= Round(MeanPercent(cards)) <= 100
  {
    if MasteriesInUnit(cards) {
      ShareInUnit(MasterySum(cards), |cards| as real);
      RoundPercent(MeanPercent(cards));
    }
  }

  /** Freshly generated cards all have mastery 0, and so does the deck. */
  lemma {:induction false} FreshDeckHasNoMastery(cards: seq<Flashcard>)
    requires forall i | 0 <= i < |cards| :: cards[i].mastery == 0.0
    ensures MasterySum(cards) == 0.0
    ensures OverallMastery(cards) == 0
    decreases |cards|
  {
    if |cards| > 0 {
      FreshDeckHasNoMastery(cards[..|cards| - 1]);
      RoundUnique(0.0, 0);
    }
  }

  /** The "Card Mastery" rows: question and rounded percentage of the first
      five cards. */
  function Breakdown(cards: seq<Flashcard>): (rows: seq<(string, int)>)
    ensures |rows| == if |cards| < 5 then |cards| else 5
    ensures forall i | 0 <= i < |rows| ::
      rows[i] == (cards[i].question, Round(cards[i].mastery * 100.0))
  {
    var shown := Prefix(cards, 5);
    seq(|shown|, i requires 0 <= i < |shown| => (shown[i].question, Round(shown[i].mastery * 100.0)))
  }

  // ---------------------------------------------------------------- duration

  /** JavaScript's `%` for a positive divisor: the remainder takes the sign
      of the dividend. */
  function JsRem(a: int, b: int): (r: int)
    requires b > 0
    ensures a >= 0 ==> 0 <= r < b
    ensures a < 0 ==> -b < r <= 0
  {
    if a >= 0 then a % b else -((-a) % b)
  }

  /** `minutes` and `seconds` of a duration in milliseconds. */
  function MinutesSeconds(d: int): (ms: (int, int))
  {
    (d / 60000, JsRem(d, 60000) / 1000)
  }

  /** For a non-negative duration, the minutes and seconds are the whole
      minutes and the whole seconds left over, so seconds lie in [0, 59]. */
  lemma MinutesSecondsSplit(d: int)
    requires d >= 0
    ensures var (m, s) := MinutesSeconds(d);
      && m >= 0 && 0 <= s <= 59
      && m * 60000 + s * 1000 <= d < m * 60000 + (s + 1) * 1000
  {
  }

  /** A negative duration (a start time in the future) gives non-positive
      seconds, since the remainder keeps the sign. */
  lemma NegativeDurationSeconds(d: int)
    requires d < 0
    ensures -60 <= MinutesSeconds(d).1 <= 0
  {
  }

  /** For a negative duration the minutes are floored but the seconds come
      from a remainder that keeps the sign, so unless the duration is a
      whole number of minutes the pair shown stands for one minute less
      than the duration: -30 s shows as "-1m -30s". */
  lemma NegativeDurationShown(d: int)
    requires d < 0
    ensures var (m, s) := MinutesSeconds(d);
      && m * 60000 <= d < (m + 1) * 60000
      && (d % 60000 == 0 ==> s == 0 && m * 60000 == d)
      && (d % 60000 != 0 ==> m * 60000 + s * 1000 <= d - 60000 < m * 60000 + (s + 1) * 1000)
  {
    var m, r := d / 60000, d % 60000;
    assert d == 60000 * m + r && 0 <= r < 60000;
    if r == 0 {
      MinuteSplitUnique(-d, -m, 0);
    } else {
      MinuteSplitUnique(-d, -m - 1, 60000 - r);
      assert JsRem(d, 60000) == r - 60000;
    }
  }

  /** Whole minutes and the rest are determined by the duration. */
  lemma MinuteSplitUnique(x: int, q: int, rest: int)
    requires 0 <= rest < 60000 && x == 60000 * q + rest
    ensures x / 60000 == q && x % 60000 == rest
  {
  }

  /** A negative half minute shows as "-1m -30s". */
  lemma NegativeHalfMinute()
    ensures MinutesSeconds(-30000) == (-1, -30)
  {
  }
}

=== FILE: sessions.dfy ===
/** Study sessions as kept by `studySessionService.js`. */
module Sessions {
  import opened Wrappers
  import opened Ids
  import opened Collections

  datatype StudySession = StudySession(
    id: SessionId,
    startTime: Timestamp,
    cardsReviewed: int,
    correctAnswers: int,
    endTime: Option<Timestamp>)

  /** The keys a caller may pass to `create` or `update`; `None` is a key
      left out.  `endTime` may be given as `null`, hence the nested option. */
  datatype SessionPatch = SessionPatch(
    id: Option<SessionId>,
    startTime: Option<Timestamp>,
    cardsReviewed: Option<int>,
    correctAnswers: Option<int>,
    endTime: Option<Option<Timestamp>>)

  const SessionNotFound: string := "Study session not found"

  /** A patch carrying only the two counters, as the dashboard sends. */
  function Counters(reviewed: int, correct: int): SessionPatch {
    SessionPatch(None, None, Some(reviewed), Some(correct), None)
  }

  const NoKeys: SessionPatch := SessionPatch(None, None, None, None, None)

  /** `{...session, ...data}`. */
  function Merge(s: StudySession, data: SessionPatch): (u: StudySession)
    ensures data == NoKeys ==> u == s
  {
    StudySession(
      data.id.GetOr(s.id),
      data.startTime.GetOr(s.startTime),
      data.cardsReviewed.GetOr(s.cardsReviewed),
      data.correctAnswers.GetOr(s.correctAnswers),
      data.endTime.GetOr(s.endTime))
  }

  function FindSession(sessions: seq<StudySession>, id: SessionId): Option<nat> {
    FindIndex(sessions, (s: StudySession) => s.id == id)
  }

  predicate HasSession(sessions: seq<StudySession>, id: SessionId) {
    exists i | 0 <= i < |sessions| :: sessions[i].id == id
  }

  /** `getById`: the first session with the id, or `null`. */
  function GetById(sessions: seq<StudySession>, id: SessionId): (r: Option<StudySession>)
    ensures r.Some? <==> HasSession(sessions, id)
    ensures r.Some? ==> r.value in sessions && r.value.id == id
    ensures r.Some? ==> r.value == sessions[FindSession(sessions, id).value]
  {
    Find(sessions, (s: StudySession) => s.id == id)
  }

  /** The session `create` builds: fresh id, start time now, zero counters,
      not ended, and then every key of `data` overriding those defaults. */
  function NewSession(id: SessionId, now: Timestamp, data: SessionPatch): (s: StudySession)
    ensures data == NoKeys ==> s == StudySession(id, now, 0, 0, None)
  {
    Merge(StudySession(id, now, 0, 0, None), data)
  }

  /** `create`: appends exactly one session. */
  function Create(sessions: seq<StudySession>, id: SessionId, now: Timestamp, data: SessionPatch)
    : (r: (seq<StudySession>, StudySession))
    ensures r.0 == sessions + [r.1]
    ensures r.1.id == data.id.GetOr(id)
    ensures r.1.startTime == data.startTime.GetOr(now)
    ensures r.1.cardsReviewed == data.cardsReviewed.GetOr(0)
    ensures r.1.correctAnswers == data.correctAnswers.GetOr(0)
    ensures r.1.endTime == data.endTime.GetOr(None)
  {
    var s := NewSession(id, now, data);
    (sessions + [s], s)
  }

  /** The dashboard starts a session with zero counters: it is open and has
      the generated id and the current time. */
  lemma StartedSessionIsOpen(sessions: seq<StudySession>, id: SessionId, now: Timestamp)
    ensures var r := Create(sessions, id, now, Counters(0, 0));
      r.1 == StudySession(id, now, 0, 0, None) && GetById(r.0, id).Some?
  {
    var r := Create(sessions, id, now, Counters(0, 0));
    assert r.0[|sessions|] == r.1;
  }

  /** Replaces the first session with the id by `f` of itself. */
  function Replace(sessions: seq<StudySession>, id: SessionId, f: StudySession -> StudySession)
    : (r: Result<(seq<StudySession>, StudySession)>)
    ensures r.Failure? <==> !HasSession(sessions, id)
    ensures r.Failure? ==> r.error == SessionNotFound
    ensures r.Success? ==>
      var i := FindSession(sessions, id).value;
      r.value.1 == f(sessions[i]) && r.value.0 == sessions[i := r.value.1]
  {
    match FindSession(sessions, id)
    case None => Failure(SessionNotFound)
    case Some(i) =>
      var u := f(sessions[i]);
      Success((sessions[i := u], u))
  }

  /** `update`: merges `data` into the first session with the id, or throws. */
  function Update(sessions: seq<StudySession>, id: SessionId, data: SessionPatch)
    : (r: Result<(seq<StudySession>, StudySession)>)
    ensures r.Failure? <==> !HasSession(sessions, id)
    ensures r.Failure? ==> r.error == SessionNotFound
    ensures r.Success? ==>
      var i := FindSession(sessions, id).value;
      && r.value.0 == sessions[i := r.value.1]
      && r.value.1.id == data.id.GetOr(id)
      && r.value.1.startTime == data.startTime.GetOr(sessions[i].startTime)
      && r.value.1.cardsReviewed == data.cardsReviewed.GetOr(sessions[i].cardsReviewed)
      && r.value.1.correctAnswers == data.correctAnswers.GetOr(sessions[i].correctAnswers)
      && r.value.1.endTime == data.endTime.GetOr(sessions[i].endTime)
  {
    Replace(sessions, id, (s: StudySession) => Merge(s, data))
  }

  /** `endSession`: stamps the end time of the first session with the id
      and changes nothing else, or throws. */
  function EndSession(sessions: seq<StudySession>, id: SessionId, now: Timestamp)
    : (r: Result<(seq<StudySession>, StudySession)>)
    ensures r.Failure? <==> !HasSession(sessions, id)
    ensures r.Failure? ==> r.error == SessionNotFound
    ensures r.Success? ==>
      var i := FindSession(sessions, id).value;
      && r.value.0 == sessions[i := r.value.1]
      && r.value.1 == sessions[i].(endTime := Some(now))
  {
    Replace(sessions, id, (s: StudySession) => s.(endTime := Some(now)))
  }

  /** Ending a session is `update` with only an end time; ending it again
      later just moves the end time. */
  lemma EndSessionIsUpdate(sessions: seq<StudySession>, id: SessionId, now: Timestamp, later: Timestamp)
    ensures EndSession(sessions, id, now)
      == Update(sessions, id, SessionPatch(None, None, None, None, Some(Some(now))))
    ensures EndSession(sessions, id, now).Success? ==>
      var r := EndSession(sessions, id, now).value;
      EndSession(r.0, id, later) == EndSession(sessions, id, later)
  {
    match FindSession(sessions, id)
    case None =>
    case Some(i) =>
      var r := EndSession(sessions, id, now).value;
      FindIndexAt(r.0, (s: StudySession) => s.id == id, i);
      assert r.0[i := r.0[i].(endTime := Some(later))] == sessions[i := sessions[i].(endTime := Some(later))];
  }

  /** `delete`: removes the first session with the id, or throws. */
  function Delete(sessions: seq<StudySession>, id: SessionId): (r: Result<seq<StudySession>>)
    ensures r.Failure? <==> !HasSession(sessions, id)
    ensures r.Failure? ==> r.error == SessionNotFound
    ensures r.Success? ==>
      var i := FindSession(sessions, id).value;
      && |r.value| == |sessions| - 1
      && multiset(r.value) + multiset{sessions[i]} == multiset(sessions)
      && r.value == RemoveAt(sessions, i)
  {
    match RemoveFirst(sessions, (s: StudySession) => s.id == id)
    case None => Failure(SessionNotFound)
    case Some(rest) => Success(rest)
  }

  /** With distinct ids, deleting a session takes its id out of the store and
      leaves every other id findable exactly as before. */
  lemma DeleteRemovesSession(xs: seq<StudySession>, id: SessionId, other: SessionId)
    requires forall i, j | 0 <= i < j < |xs| :: xs[i].id != xs[j].id
    requires HasSession(xs, id)
    ensures !HasSession(Delete(xs, id).value, id)
    ensures other != id ==> (HasSession(Delete(xs, id).value, other) <==> HasSession(xs, other))
  {
    var i := FindSession(xs, id).value;
    var key := (x: StudySession) => x.id;
    RemoveAtKeys(xs, i, key, id);
    RemoveAtKeys(xs, i, key, other);
  }
}

=== FILE: summary_display.dfy ===
/** What `SummaryDisplay.jsx` derives from a note: the summary read back into
    points, the figures under it, and which sections are open. */
module SummaryDisplay {
  import opened Text
  import opened Collections
  import opened NoteAnalysis
  import opened Ids

  // ---------------------------------------------------------------- summary points

  /** `summary.split('\n').filter(point => point.trim())`: every non-blank
      line of the summary and nothing else, in order (see
      `NoteAnalysis.NonBlankLinesAppend`). */
  function SummaryPoints(summary: string): (r: seq<string>)
    ensures |r| <= |Split(summary, '\n')|
    ensures forall i | 0 <= i < |r| :: NonBlank(r[i]) && '\n' !in r[i]
    ensures var lines := Split(summary, '\n');
      && |r| == Count(lines, NonBlank)
      && (forall i | 0 <= i < |r| :: r[i] in lines)
      && (forall j | 0 <= j < |lines| :: NonBlank(lines[j]) ==> lines[j] in r)
  {
    NonBlankLines(summary)
  }

  /** `point.replace('• ', '')`: the first bullet goes, any later one stays,
      and a point without a bullet is shown as it is. */
  function DisplayPoint(point: string): (r: string)
    ensures |r| <= |point|
    ensures !Contains(point, Bullet) ==> r == point
    ensures Contains(point, Bullet) ==>
      var k := FirstOccurrence(point, Bullet).value;
      r == point[..k] + point[k + |Bullet|..]
  {
    DisplayShrinks(point);
    ReplaceFirstSpec(point, Bullet, "");
    ReplaceFirst(point, Bullet, "")
  }

  lemma {:induction false} DisplayShrinks(point: string)
    ensures |ReplaceFirst(point, Bullet, "")| <= |point|
    decreases |point|
  {
    if |point| >= |Bullet| && point[..|Bullet|] != Bullet {
      DisplayShrinks(point[1..]);
    }
  }

  function DisplayedPoints(summary: string): (r: seq<string>)
    ensures |r| == |SummaryPoints(summary)|
    ensures forall i | 0 <= i < |r| :: r[i] == DisplayPoint(SummaryPoints(summary)[i])
  {
    var ps := SummaryPoints(summary);
    seq(|ps|, i requires 0 <= i < |ps| => DisplayPoint(ps[i]))
  }

  /** The points of two summaries joined by a newline are the points of
      the first, then those of the second. */
  lemma SummaryPointsAppend(a: string, b: string)
    ensures SummaryPoints(a + "\n" + b) == SummaryPoints(a) + SummaryPoints(b)
  {
    NonBlankLinesAppend(a, b);
  }

  /** The lines of a generated summary: the first topic, then each further
      topic behind its bullet. */
  lemma SummaryLines(content: string)
    ensures var ts := SummaryTopics(content);
      Split(GenerateSummary(content), '\n') == if ts == [] then [""] else PrefixRest(ts, Bullet)
  {
    JoinedTopicLines(SummaryTopics(content));
  }

  /** `SummaryLines` for any single-line topics. */
  lemma JoinedTopicLines(ts: seq<string>)
    requires forall i | 0 <= i < |ts| :: '\n' !in ts[i]
    ensures Split(Join(ts, TopicSeparator), '\n') == if ts == [] then [""] else PrefixRest(ts, Bullet)
  {
    if ts != [] {
      assert TopicSeparator == ['\n'] + Bullet;
      JoinLongerSep(ts, '\n', Bullet);
      var ps := PrefixRest(ts, Bullet);
      assert forall i | 0 <= i < |ps| :: '\n' !in ps[i] by {
        forall i | 0 <= i < |ps| ensures '\n' !in ps[i] {
          if i > 0 {
            assert ps[i] == Bullet + ts[i];
          }
        }
      }
      SplitJoin(ps, '\n');
    }
  }

  /** Every line of a non-empty generated summary is a point. */
  lemma GeneratedPoints(content: string)
    requires SummaryTopics(content) != []
    ensures SummaryPoints(GenerateSummary(content)) == PrefixRest(SummaryTopics(content), Bullet)
  {
    JoinedTopicPoints(SummaryTopics(content));
  }

  /** `GeneratedPoints` for any non-empty list of trimmed, non-empty,
      single-line topics. */
  lemma JoinedTopicPoints(ts: seq<string>)
    requires ts != []
    requires forall i | 0 <= i < |ts| :: IsTrimmed(ts[i]) && |ts[i]| > 0 && '\n' !in ts[i]
    ensures Filter(Split(Join(ts, TopicSeparator), '\n'), NonBlank) == PrefixRest(ts, Bullet)
  {
    JoinedTopicLines(ts);
    var ps := PrefixRest(ts, Bullet);
    forall i | 0 <= i < |ps| ensures NonBlank(ps[i]) {
      TrimEmptyIffAllSpace(ps[i]);
      assert !IsSpace(ps[i][0]);
    }
    FilterAll(ps, NonBlank);
  }

  /** Stripping the first bullet of each bulleted part gives back the parts,
      when the unbulleted first part has none. */
  lemma DisplayUndoesBullets(ts: seq<string>)
    requires |ts| > 0 && !Contains(ts[0], Bullet)
    ensures forall i | 0 <= i < |ts| :: DisplayPoint(PrefixRest(ts, Bullet)[i]) == ts[i]
  {
    var ps := PrefixRest(ts, Bullet);
    forall i | 0 <= i < |ts| ensures DisplayPoint(ps[i]) == ts[i] {
      if i == 0 {
        assert FirstOccurrence(ts[0], Bullet).None?;
      } else {
        LeadingBulletLost(ts[i]);
      }
    }
  }

  /** Reading a generated summary back gives its topics, as long as the
      first topic holds no bullet of its own: the display strips the first
      `• ` of every point, and the first point carries none from the join. */
  lemma SummaryRoundTrip(content: string)
    requires var ts := SummaryTopics(content); ts == [] || !Contains(ts[0], Bullet)
    ensures DisplayedPoints(GenerateSummary(content)) == SummaryTopics(content)
  {
    var ts := SummaryTopics(content);
    if ts == [] {
      SummaryLines(content);
      TrimTrimmed("");
      assert !NonBlank("");
      assert Filter([""], NonBlank) == [];
    } else {
      GeneratedPoints(content);
      DisplayUndoesBullets(ts);
    }
  }

  /** A first topic that itself starts with a bullet loses it on display. */
  lemma LeadingBulletLost(t: string)
    ensures DisplayPoint(Bullet + t) == t
  {
    ReplaceFirstLeading(Bullet, t, "");
    assert "" + t == t;
  }

  // ---------------------------------------------------------------- figures

  predicate IsHigh(k: KeyPoint) {
    k.importance == High
  }

  /** The "High Priority" figure. */
  function HighPriorityCount(points: seq<KeyPoint>): (n: nat)
    ensures n <= |points|
    ensures n == |Filter(points, IsHigh)|
  {
    FilterLength(points, IsHigh);
    Count(points, IsHigh)
  }

  /** For freshly extracted key points the high-priority figure is also the
      number of highlighted points. */
  lemma HighPriorityIsHighlighted(content: string, newId: nat -> PointId)
    ensures var ks := ExtractKeyPoints(content, newId);
      HighPriorityCount(ks) == Count(ks, (k: KeyPoint) => k.highlighted)
  {
    var ks := ExtractKeyPoints(content, newId);
    CountSame(ks, IsHigh, (k: KeyPoint) => k.highlighted);
  }

  const WordsPerMinute: nat := 200

  /** `Math.ceil(content.split(' ').length / 200)`. */
  function ReadTime(content: string): (minutes: nat)
    ensures minutes >= 1
    ensures (minutes - 1) * WordsPerMinute < |Split(content, ' ')| <= minutes * WordsPerMinute
  {
    (|Split(content, ' ')| + WordsPerMinute - 1) / WordsPerMinute
  }

  // ---------------------------------------------------------------- sections

  /** `expandedSections`: keys that were never set read as `undefined`,
      which is falsy. */
  type Sections = map<string, bool>

  function IsOpen(m: Sections, section: string): bool {
    section in m && m[section]
  }

  const InitialSections: Sections := map["summary" := true, "original" := false]

  lemma InitialOpenSections()
    ensures IsOpen(InitialSections, "summary") && !IsOpen(InitialSections, "original")
  {
  }

  /** `toggleSection`: `{...prev, [section]: !prev[section]}`. */
  function ToggleSection(m: Sections, section: string): (r: Sections)
    ensures IsOpen(r, section) == !IsOpen(m, section)
    ensures forall k | k != section :: IsOpen(r, k) == IsOpen(m, k)
  {
    m[section := !IsOpen(m, section)]
  }

  /** Toggling the same section twice leaves every section as it was. */
  lemma ToggleSectionTwice(m: Sections, section: string, k: string)
    ensures IsOpen(ToggleSection(ToggleSection(m, section), section), k) == IsOpen(m, k)
  {
  }
}

=== FILE: text.dfy ===
/** The JavaScript string primitives the study pipeline relies on, restricted
    to ASCII: `trim`, `split` on one character, `join`, `toUpperCase`,
    `toLowerCase`, `includes`, `replace` of the first
    occurrence, the `\w`/`\s`/`\b` regular-expression classes, decimal
    rendering of integers and the relational comparison of two strings. */
module Text {
  import opened Wrappers


  /** The ASCII members of the set that `String.prototype.trim` strips and
      that the regular-expression class `\s` matches. */
  predicate IsSpace(c: char) {
    c == ' ' || c == '\t' || c == '\n' || c == '\U{000B}' || c == '\U{000C}' || c == '\r'
  }

  /** The regular-expression class `\w`, which is ASCII-only in JavaScript. */
  predicate IsWordChar(c: char) {
    ('a' <= c <= 'z') || ('A' <= c <= 'Z') || ('0' <= c <= '9') || c == '_'
  }

  predicate AllSpace(s: string) {
    forall i | 0 <= i < |s| :: IsSpace(s[i])
  }

  /** Neither end of `s` is whitespace. */
  predicate IsTrimmed(s: string) {
    s == [] || (!IsSpace(s[0]) && !IsSpace(s[|s| - 1]))
  }

  // ---------------------------------------------------------------- trim

  function TrimStart(s: string): (r: string)
    ensures |r| <= |s|
    ensures r == [] || !IsSpace(r[0])
    decreases |s|
  {
    if |s| > 0 && IsSpace(s[0]) then TrimStart(s[1..]) else s
  }

  /** `TrimStart` drops a whitespace prefix and keeps the rest. */
  lemma {:induction false} TrimStartDropsSpace(s: string)
    ensures TrimStart(s) == s[|s| - |TrimStart(s)|..]
    ensures AllSpace(s[..|s| - |TrimStart(s)|])
    decreases |s|
  {
    if |s| > 0 && IsSpace(s[0]) {
      TrimStartDropsSpace(s[1..]);
      var k := |s| - |TrimStart(s)|;
      assert s[1..][..k - 1] == s[1..k];
      assert forall i | 0 < i < k :: s[..k][i] == s[1..][..k - 1][i - 1];
    }
  }

  function TrimEnd(s: string): (r: string)
    ensures |r| <= |s|
    ensures r == [] || !IsSpace(r[|r| - 1])
    decreases |s|
  {
    if |s| > 0 && IsSpace(s[|s| - 1]) then TrimEnd(s[..|s| - 1]) else s
  }

  /** `TrimEnd` drops a whitespace suffix and keeps the rest. */
  lemma {:induction false} TrimEndDropsSpace(s: string)
    ensures TrimEnd(s) == s[..|TrimEnd(s)|]
    ensures AllSpace(s[|TrimEnd(s)|..])
    decreases |s|
  {
    if |s| > 0 && IsSpace(s[|s| - 1]) {
      var init := s[..|s| - 1];
      TrimEndDropsSpace(init);
      var k := |TrimEnd(s)|;
      assert init[..k] == s[..k];
      assert forall i | 0 <= i < |s| - 1 - k :: s[k..][i] == init[k..][i];
    }
  }

  /** Number of leading whitespace characters that `Trim` drops. */
  function LeadingSpace(s: string): (k: nat)
    ensures k <= |s| && AllSpace(s[..k])
    ensures k < |s| ==> !IsSpace(s[k])
  {
    TrimStartDropsSpace(s);
    |s| - |TrimStart(s)|
  }

  /** `String.prototype.trim`: `s` with leading and trailing whitespace
      removed. */
  function Trim(s: string): (r: string)
    ensures IsTrimmed(r) && |r| <= |s|
  {
    var t := TrimStart(s);
    var r := TrimEnd(t);
    assert r == [] || !IsSpace(r[0]) by {
      TrimEndDropsSpace(t);
      if r != [] { assert r[0] == t[0]; }
    }
    r
  }

  /** What `Trim` keeps is the contiguous middle of `s`, and only whitespace
      lies either side of it. */
  lemma TrimIsMiddle(s: string)
    ensures LeadingSpace(s) + |Trim(s)| <= |s|
    ensures Trim(s) == s[LeadingSpace(s)..LeadingSpace(s) + |Trim(s)|]
    ensures AllSpace(s[LeadingSpace(s) + |Trim(s)|..])
  {
    var t := TrimStart(s);
    var r := Trim(s);
    var k := LeadingSpace(s);
    TrimStartDropsSpace(s);
    TrimEndDropsSpace(t);
    assert t == s[k..];
    assert r == t[..|r|];
    assert r == s[k..k + |r|];
    assert s[k + |r|..] == t[|r|..];
  }

  /** Trimming adds no character. */
  lemma TrimKeepsAbsent(s: string, c: char)
    requires c !in s
    ensures c !in Trim(s)
  {
    TrimIsMiddle(s);
    var k := LeadingSpace(s);
    assert forall i | 0 <= i < |Trim(s)| :: Trim(s)[i] == s[k + i];
  }

  /** A trimmed string is non-empty exactly when the original held a
      non-whitespace character: `!s.trim()` tests for blank text. */
  lemma TrimEmptyIffAllSpace(s: string)
    ensures Trim(s) == [] <==> AllSpace(s)
  {
    TrimIsMiddle(s);
    var k := LeadingSpace(s);
    if Trim(s) == [] {
      assert forall i | 0 <= i < k :: s[..k][i] == s[i];
    } else {
      var c := Trim(s)[0];
      assert c == s[k];
    }
  }

  /** Trimming is idempotent. */
  lemma TrimTrimmed(s: string)
    requires IsTrimmed(s)
    ensures Trim(s) == s
  {
    var r := Trim(s);
    TrimIsMiddle(s);
    if s != [] {
      assert LeadingSpace(s) == 0;
    }
  }

  // ---------------------------------------------------------------- case

  function UpperChar(c: char): char {
    if 'a' <= c <= 'z' then (c as int - 32) as char else c
  }

  function LowerChar(c: char): char {
    if 'A' <= c <= 'Z' then (c as int + 32) as char else c
  }

  /** `String.prototype.toUpperCase` on ASCII. */
  function ToUpper(s: string): (r: string)
    ensures |r| == |s|
    ensures forall i | 0 <= i < |s| :: r[i] == UpperChar(s[i])
  {
    seq(|s|, i requires 0 <= i < |s| => UpperChar(s[i]))
  }

  /** `String.prototype.toLowerCase` on ASCII. */
  function ToLower(s: string): (r: string)
    ensures |r| == |s|
    ensures forall i | 0 <= i < |s| :: r[i] == LowerChar(s[i])
  {
    seq(|s|, i requires 0 <= i < |s| => LowerChar(s[i]))
  }

  /** Lower-casing forgets any earlier upper-casing. */
  lemma LowerOfUpper(s: string)
    ensures ToLower(ToUpper(s)) == ToLower(s)
  {
    assert forall i | 0 <= i < |s| :: ToLower(ToUpper(s))[i] == LowerChar(UpperChar(s[i]));
  }

  predicate HasLowerLetter(s: string) {
    exists i | 0 <= i < |s| :: 'a' <= s[i] <= 'z'
  }

  /** A string equals its own upper-casing exactly when it holds no
      lower-case letter; digits, punctuation and spaces are all "upper". */
  lemma UpperFixedIff(s: string)
    ensures ToUpper(s) == s <==> !HasLowerLetter(s)
  {
    if !HasLowerLetter(s) {
      assert forall i | 0 <= i < |s| :: ToUpper(s)[i] == s[i];
    } else {
      var i :| 0 <= i < |s| && 'a' <= s[i] <= 'z';
      assert ToUpper(s)[i] != s[i];
    }
  }

  // ---------------------------------------------------------------- search

  /** `w` occurs in `s` starting at position `i`. */
  predicate OccursAt(s: string, w: string, i: int) {
    0 <= i && i + |w| <= |s| && s[i..i + |w|] == w
  }

  /** `String.prototype.includes`. */
  predicate Contains(s: string, w: string) {
    exists i | 0 <= i <= |s| - |w| :: OccursAt(s, w, i)
  }

  /** Position of the first `c` in `s`. */
  function FirstIndex(s: string, c: char): (k: nat)
    requires c in s
    ensures k < |s| && s[k] == c && c !in s[..k]
  {
    if s[0] == c then 0 else 1 + FirstIndex(s[1..], c)
  }

  /** The regular-expression assertion `\b` at position `p`: exactly one of
      the characters either side of `p` is a word character. */
  predicate WordBoundary(s: string, p: int)
    requires 0 <= p <= |s|
  {
    (p > 0 && IsWordChar(s[p - 1])) != (p < |s| && IsWordChar(s[p]))
  }

  /** At either end of a string, `\b` holds exactly when the end character
      is a word character; inside, it holds between a word character and a
      non-word one. */
  lemma WordBoundaryCases(s: string, p: int)
    requires 0 <= p <= |s|
    ensures |s| > 0 && p == 0 ==> (WordBoundary(s, p) <==> IsWordChar(s[0]))
    ensures |s| > 0 && p == |s| ==> (WordBoundary(s, p) <==> IsWordChar(s[|s| - 1]))
    ensures 0 < p < |s| ==> (WordBoundary(s, p) <==> IsWordChar(s[p - 1]) != IsWordChar(s[p]))
    ensures |s| == 0 ==> !WordBoundary(s, p)
  {
  }

  // ---------------------------------------------------------------- split / join

  /** `s.split(sep)` for a one-character separator: the maximal runs between
      separators, always at least one (possibly empty) piece. */
  function Split(s: string, sep: char): (r: seq<string>)
    ensures |r| >= 1
    ensures forall i | 0 <= i < |r| :: sep !in r[i]
    decreases |s|
  {
    if sep in s then
      var k := FirstIndex(s, sep);
      [s[..k]] + Split(s[k + 1..], sep)
    else
      [s]
  }

  /** `parts.join(sep)`. */
  function Join(parts: seq<string>, sep: string): string
    decreases |parts|
  {
    if |parts| == 0 then ""
    else if |parts| == 1 then parts[0]
    else parts[0] + sep + Join(parts[1..], sep)
  }

  /** Joining the pieces of a split with the separator gives back the text. */
  lemma {:induction false} JoinSplit(s: string, sep: char)
    ensures Join(Split(s, sep), [sep]) == s
    decreases |s|
  {
    if sep in s {
      var k := FirstIndex(s, sep);
      JoinSplit(s[k + 1..], sep);
      assert s == s[..k] + [sep] + s[k + 1..];
    }
  }

  /** Splitting a join of separator-free pieces gives back the pieces. */
  lemma {:induction false} SplitJoin(parts: seq<string>, sep: char)
    requires |parts| >= 1
    requires forall i | 0 <= i < |parts| :: sep !in parts[i]
    ensures Split(Join(parts, [sep]), sep) == parts
    decreases |parts|
  {
    if |parts| > 1 {
      var s := Join(parts, [sep]);
      var rest := Join(parts[1..], [sep]);
      assert s == parts[0] + [sep] + rest;
      assert sep in s by { assert s[|parts[0]|] == sep; }
      var k := FirstIndex(s, sep);
      FirstIndexAfterFree(parts[0], [sep] + rest, sep);
      assert k == |parts[0]|;
      assert s[..k] == parts[0];
      assert s[k + 1..] == rest;
      SplitJoin(parts[1..], sep);
    }
  }

  /** The pieces of `a + [sep] + b` are the piece `a` followed by the pieces of `b`. */
  lemma SplitPrefix(a: string, b: string, sep: char)
    requires sep !in a
    ensures Split(a + [sep] + b, sep) == [a] + Split(b, sep)
  {
    var s := a + [sep] + b;
    assert s == a + ([sep] + b);
    FirstIndexAfterFree(a, [sep] + b, sep);
    assert FirstIndex(s, sep) == |a|;
    assert s[..|a|] == a;
    assert s[|a| + 1..] == b;
  }

  /** A join starts with its first piece. */
  lemma JoinStartsWithFirst(parts: seq<string>, sep: string)
    requires |parts| > 0
    ensures |Join(parts, sep)| >= |parts[0]| && Join(parts, sep)[..|parts[0]|] == parts[0]
  {
    if |parts| > 1 {
      assert Join(parts, sep) == parts[0] + (sep + Join(parts[1..], sep));
    }
  }

  /** Joining two non-empty lists of pieces is joining each and putting
      the separator between them. */
  lemma {:induction false} JoinAppend(p: seq<string>, q: seq<string>, sep: string)
    requires |p| >= 1 && |q| >= 1
    ensures Join(p + q, sep) == Join(p, sep) + sep + Join(q, sep)
    decreases |p|
  {
    if |p| > 1 {
      JoinAppend(p[1..], q, sep);
      assert (p + q)[1..] == p[1..] + q;
    }
  }

  /** Splitting at a separator between two texts splits each text on its
      own: no piece of `a` runs into a piece of `b`. */
  lemma SplitAppend(a: string, b: string, sep: char)
    ensures Split(a + [sep] + b, sep) == Split(a, sep) + Split(b, sep)
  {
    var pa, pb := Split(a, sep), Split(b, sep);
    JoinSplit(a, sep);
    JoinSplit(b, sep);
    JoinAppend(pa, pb, [sep]);
    SplitJoin(pa + pb, sep);
  }

  /** Each line followed by `sep`, as text built line by line with
      `content += line + '\n'`. */
  function Terminated(lines: seq<string>, sep: char): (r: string)
    ensures |lines| == 0 <==> r == ""
    ensures |lines| > 0 ==> r[|r| - 1] == sep
    decreases |lines|
  {
    if |lines| == 0 then "" else lines[0] + [sep] + Terminated(lines[1..], sep)
  }

  /** Terminated lines are the lines and one empty piece joined by `sep`. */
  lemma {:induction false} TerminatedIsJoin(lines: seq<string>, sep: char)
    ensures Terminated(lines, sep) == Join(lines + [""], [sep])
    decreases |lines|
  {
    if |lines| > 0 {
      TerminatedIsJoin(lines[1..], sep);
      assert (lines + [""])[1..] == lines[1..] + [""];
    } else {
      assert lines + [""] == [""];
    }
  }

  /** Terminating two runs of lines is terminating them together. */
  lemma {:induction false} TerminatedAppend(a: seq<string>, b: seq<string>, sep: char)
    ensures Terminated(a + b, sep) == Terminated(a, sep) + Terminated(b, sep)
    decreases |a|
  {
    if |a| > 0 {
      TerminatedAppend(a[1..], b, sep);
      assert (a + b)[1..] == a[1..] + b;
      assert (a + b)[0] == a[0];
    } else {
      assert a + b == b;
    }
  }

  /** Splitting terminated lines gives the lines and an empty last piece. */
  lemma SplitTerminated(lines: seq<string>, sep: char)
    requires forall i | 0 <= i < |lines| :: sep !in lines[i]
    ensures Split(Terminated(lines, sep), sep) == lines + [""]
  {
    TerminatedIsJoin(lines, sep);
    var ps := lines + [""];
    assert forall i | 0 <= i < |ps| :: sep !in ps[i] by {
      forall i | 0 <= i < |ps| ensures sep !in ps[i] {
        if i < |lines| { assert ps[i] == lines[i]; }
      }
    }
    SplitJoin(ps, sep);
  }

  /** The first `c` of `a + b` is the first `c` of `b` when `a` has none. */
  lemma FirstIndexAfterFree(a: string, b: string, c: char)
    requires c !in a && c in b
    ensures c in a + b
    ensures FirstIndex(a + b, c) == |a| + FirstIndex(b, c)
  {
    var s := a + b;
    var m := FirstIndex(b, c);
    var j := |a| + m;
    assert s[j] == c;
    var k := FirstIndex(s, c);
    assert forall i | 0 <= i < |a| :: s[i] == a[i];
    assert forall i | 0 <= i < m :: s[|a| + i] == b[..m][i];
    assert forall i | 0 <= i < k :: s[..k][i] == s[i];
  }

  /** Every `\n` of `s` replaced by `\n` followed by `rep`:
      `s.replace(/\n/g, '\n' + rep)`. */
  function ReplaceNewlines(s: string, rep: string): (r: string)
    ensures |r| >= |s|
    decreases |s|
  {
    if |s| == 0 then ""
    else if s[0] == '\n' then "\n" + rep + ReplaceNewlines(s[1..], rep)
    else [s[0]] + ReplaceNewlines(s[1..], rep)
  }

  /** Global newline replacement is the same as splitting on `\n` and joining
      with the longer separator. */
  lemma {:induction false} ReplaceNewlinesIsJoin(s: string, rep: string)
    ensures ReplaceNewlines(s, rep) == Join(Split(s, '\n'), "\n" + rep)
    decreases |s|
  {
    if |s| > 0 {
      var c, t, sep := s[0], s[1..], "\n" + rep;
      var parts, tail := Split(t, '\n'), ReplaceNewlines(t, rep);
      assert [c] + t == s;
      ReplaceNewlinesIsJoin(t, rep);
      assert tail == Join(parts, sep);
      SplitCons(c, t, '\n');
      if c == '\n' {
        assert ReplaceNewlines(s, rep) == sep + tail;
        JoinCons("", parts, sep);
        assert "" + sep + tail == sep + tail;
      } else {
        assert ReplaceNewlines(s, rep) == [c] + tail;
        JoinHeadExtend([c], parts, sep);
      }
    }
  }

  /** Splitting a text with one more character in front: a separator opens a
      new empty first part, any other character joins the first part. */
  lemma SplitCons(c: char, t: string, sep: char)
    ensures var parts := Split(t, sep);
      Split([c] + t, sep) == if c == sep then [""] + parts else [[c] + parts[0]] + parts[1..]
  {
    var s := [c] + t;
    assert s[1..] == t;
    if c == sep {
      assert FirstIndex(s, sep) == 0;
    } else if sep in t {
      var k := FirstIndex(t, sep);
      assert FirstIndex(s, sep) == k + 1;
      assert s[..k + 1] == [c] + t[..k];
      assert s[k + 2..] == t[k + 1..];
    } else {
      assert sep !in s;
    }
  }

  lemma JoinCons(x: string, xs: seq<string>, sep: string)
    requires |xs| >= 1
    ensures Join([x] + xs, sep) == x + sep + Join(xs, sep)
  {
    assert ([x] + xs)[1..] == xs;
  }

  lemma JoinHeadExtend(p: string, xs: seq<string>, sep: string)
    requires |xs| >= 1
    ensures Join([p + xs[0]] + xs[1..], sep) == p + Join(xs, sep)
  {
    if |xs| > 1 {
      assert ([p + xs[0]] + xs[1..])[1..] == xs[1..];
    }
  }

  /** `parts` with `b` put in front of every part but the first. */
  function PrefixRest(parts: seq<string>, b: string): (r: seq<string>)
    ensures |r| == |parts|
    ensures |parts| > 0 ==> r[0] == parts[0]
    ensures forall i | 1 <= i < |parts| :: r[i] == b + parts[i]
  {
    seq(|parts|, i requires 0 <= i < |parts| => if i == 0 then parts[i] else b + parts[i])
  }

  /** Joining with `c` followed by `b` is joining with `c` alone once `b`
      has been moved onto the following part. */
  lemma {:induction false} JoinLongerSep(parts: seq<string>, c: char, b: string)
    ensures Join(parts, [c] + b) == Join(PrefixRest(parts, b), [c])
    decreases |parts|
  {
    if |parts| > 1 {
      var rest := parts[1..];
      JoinLongerSep(rest, c, b);
      var pr := PrefixRest(rest, b);
      var whole := PrefixRest(parts, b);
      assert whole[1..] == [b + rest[0]] + pr[1..];
      JoinHeadExtend(b, pr, [c]);
      assert Join(whole, [c]) == whole[0] + [c] + Join(whole[1..], [c]);
    }
  }

  /** An occurrence one position into `s` is an occurrence in `s[1..]`. */
  lemma OccursAtTail(s: string, w: string, i: nat)
    requires |s| > 0
    ensures OccursAt(s[1..], w, i) <==> OccursAt(s, w, i + 1)
  {
    if i + 1 + |w| <= |s| {
      assert s[1..][i..i + |w|] == s[i + 1..i + 1 + |w|];
    }
  }

  /** `s.indexOf(pat)` for a non-empty `pat`, with `-1` rendered as `None`:
      the least position where `pat` occurs. */
  function FirstOccurrence(s: string, pat: string): (r: Option<nat>)
    requires |pat| > 0
    ensures r.None? <==> !Contains(s, pat)
    ensures r.Some? ==> OccursAt(s, pat, r.value) && forall j | 0 <= j < r.value :: !OccursAt(s, pat, j)
    decreases |s|
  {
    if |s| < |pat| then None
    else if s[..|pat|] == pat then
      assert OccursAt(s, pat, 0);
      Some(0)
    else
      assert !OccursAt(s, pat, 0);
      assert forall i: nat :: OccursAt(s[1..], pat, i) <==> OccursAt(s, pat, i + 1) by {
        forall i: nat ensures OccursAt(s[1..], pat, i) <==> OccursAt(s, pat, i + 1) {
          OccursAtTail(s, pat, i);
        }
      }
      match FirstOccurrence(s[1..], pat)
      case None =>
        assert forall i | 0 <= i <= |s| - |pat| :: !OccursAt(s, pat, i) by {
          forall i | 0 <= i <= |s| - |pat| ensures !OccursAt(s, pat, i) {
            if i > 0 { assert !OccursAt(s[1..], pat, i - 1); }
          }
        }
        None
      case Some(k) =>
        assert forall j | 0 < j < k + 1 :: !OccursAt(s, pat, j) by {
          forall j | 0 < j < k + 1 ensures !OccursAt(s, pat, j) {
            assert !OccursAt(s[1..], pat, j - 1);
          }
        }
        Some(k + 1)
  }

  /** `s.replace(pat, rep)` with a string pattern and a non-empty `pat`. */
  function ReplaceFirst(s: string, pat: string, rep: string): string
    requires |pat| > 0
    decreases |s|
  {
    if |s| < |pat| then s
    else if s[..|pat|] == pat then rep + s[|pat|..]
    else [s[0]] + ReplaceFirst(s[1..], pat, rep)
  }

  /** Only the first occurrence of `pat` is replaced by `rep`, and a string
      without `pat` is left alone. */
  lemma {:induction false} ReplaceFirstSpec(s: string, pat: string, rep: string)
    requires |pat| > 0
    ensures FirstOccurrence(s, pat).None? ==> ReplaceFirst(s, pat, rep) == s
    ensures FirstOccurrence(s, pat).Some? ==>
      var k := FirstOccurrence(s, pat).value;
      ReplaceFirst(s, pat, rep) == s[..k] + rep + s[k + |pat|..]
    decreases |s|
  {
    if |s| >= |pat| {
      if s[..|pat|] == pat {
        assert FirstOccurrence(s, pat) == Some(0);
        assert s[..0] + rep + s[|pat|..] == rep + s[|pat|..];
      } else {
        var r := ReplaceFirst(s, pat, rep);
        var tail := ReplaceFirst(s[1..], pat, rep);
        assert r == [s[0]] + tail;
        ReplaceFirstSpec(s[1..], pat, rep);
        match FirstOccurrence(s[1..], pat)
        case None =>
          assert FirstOccurrence(s, pat) == None;
          assert [s[0]] + s[1..] == s;
        case Some(k) =>
          assert FirstOccurrence(s, pat) == Some(k + 1);
          ReplaceShift(s, k, rep, k + |pat|, tail);
      }
    }
  }

  /** Putting the first character back in front of a replacement made in
      `s[1..]` is the same replacement made one position later in `s`. */
  lemma ReplaceShift(s: string, k: nat, rep: string, e: nat, tail: string)
    requires |s| > 0 && k <= e <= |s| - 1
    requires tail == s[1..][..k] + rep + s[1..][e..]
    ensures [s[0]] + tail == s[..k + 1] + rep + s[e + 1..]
  {
    assert [s[0]] + s[1..][..k] == s[..k + 1];
    assert s[1..][e..] == s[e + 1..];
  }

  /** A leading occurrence of the pattern is the one replaced. */
  lemma ReplaceFirstLeading(pat: string, t: string, rep: string)
    requires |pat| > 0
    ensures ReplaceFirst(pat + t, pat, rep) == rep + t
  {
    assert (pat + t)[..|pat|] == pat;
    assert (pat + t)[|pat|..] == t;
  }


  /** `c.repeat(n)`. */
  function Repeat(c: char, n: nat): (r: string)
    ensures |r| == n && forall i | 0 <= i < n :: r[i] == c
  {
    seq(n, _ => c)
  }

  // ---------------------------------------------------------------- numbers

  function DigitChar(d: nat): char
    requires d < 10
  {
    ('0' as int + d) as char
  }

  predicate IsDigit(c: char) {
    '0' <= c <= '9'
  }

  /** The value of `c` as a digit in bases up to 16: `0`-`9`, then `a`-`f`
      or `A`-`F` for 10 to 15, and 16 for a character that is no such digit. */
  function DigitWeight(c: char): (d: nat)
    ensures d <= 16
    ensures d < 10 <==> IsDigit(c)
  {
    if IsDigit(c) then c as int - '0' as int
    else if 'a' <= c <= 'f' then c as int - 'a' as int + 10
    else if 'A' <= c <= 'F' then c as int - 'A' as int + 10
    else 16
  }

  /** `c` is a digit of base `radix`. */
  predicate IsDigitIn(c: char, radix: nat) {
    DigitWeight(c) < radix
  }

  /** The value of a string of base-`radix` digits, most significant first. */
  function ValueIn(s: string, radix: nat): nat
    requires forall i | 0 <= i < |s| :: IsDigitIn(s[i], radix)
  {
    if |s| == 0 then 0
    else
      var init := s[..|s| - 1];
      assert forall i | 0 <= i < |init| :: init[i] == s[i];
      var high := ValueIn(init, radix);
      ProductOfNats(radix, high);
      radix * high + DigitWeight(s[|s| - 1])
  }

  lemma ProductOfNats(a: nat, b: nat)
    ensures a * b >= 0
  {
  }

  /** Template-literal rendering `${n}` of a non-negative integer: decimal
      digits with no leading zero. */
  function NatToDecimal(n: nat): (r: string)
    ensures |r| >= 1 && (forall i | 0 <= i < |r| :: IsDigit(r[i]))
    ensures |r| > 1 ==> r[0] != '0'
  {
    if n < 10 then [DigitChar(n)] else NatToDecimal(n / 10) + [DigitChar(n % 10)]
  }

  /** Reading back the rendered digits gives the number. */
  lemma {:induction false} NatToDecimalValue(n: nat)
    ensures ValueIn(NatToDecimal(n), 10) == n
  {
    if n >= 10 {
      NatToDecimalValue(n / 10);
      var r := NatToDecimal(n);
      assert r[..|r| - 1] == NatToDecimal(n / 10);
    }
  }

  /** Template-literal rendering of any integer. */
  function IntToDecimal(n: int): (r: string)
    ensures |r| >= 1
    ensures (r[0] == '-') <==> n < 0
  {
    if n < 0 then "-" + NatToDecimal(-n) else NatToDecimal(n)
  }

  /** The longest prefix of `s` made of base-`radix` digits. */
  function DigitPrefix(s: string, radix: nat): (r: string)
    ensures |r| <= |s| && r == s[..|r|]
    ensures forall i | 0 <= i < |r| :: IsDigitIn(r[i], radix)
    ensures |r| < |s| ==> !IsDigitIn(s[|r|], radix)
    ensures r == [] <==> s == [] || !IsDigitIn(s[0], radix)
    decreases |s|
  {
    if |s| > 0 && IsDigitIn(s[0], radix) then [s[0]] + DigitPrefix(s[1..], radix) else []
  }

  /** `t` without one leading sign character. */
  function Unsigned(t: string): (u: string)
    ensures |t| > 0 && (t[0] == '-' || t[0] == '+') ==> u == t[1..]
    ensures |t| == 0 || (t[0] != '-' && t[0] != '+') ==> u == t
  {
    if |t| > 0 && (t[0] == '-' || t[0] == '+') then t[1..] else t
  }

  /** `u` starts with `0x` or `0X`. */
  predicate HexPrefixed(u: string) {
    |u| >= 2 && u[0] == '0' && (u[1] == 'x' || u[1] == 'X')
  }

  /** The base `parseInt` reads in when no radix is given, and the text
      holding its digits: a `0x` or `0X` prefix selects base 16 and is
      skipped; anything else is read in base 10. */
  function RadixOf(u: string): (rb: (nat, string))
    ensures HexPrefixed(u) ==> rb == (16, u[2..])
    ensures !HexPrefixed(u) ==> rb == (10, u)
  {
    if HexPrefixed(u) then (16, u[2..]) else (10, u)
  }

  /** The magnitude `parseInt` reads after the sign: the value of the
      longest run of digits of the base `RadixOf` picks, or `None` when no
      such digit follows. */
  function Magnitude(u: string): (m: Option<nat>)
    ensures var (radix, body) := RadixOf(u);
      m.None? <==> body == [] || !IsDigitIn(body[0], radix)
  {
    var (radix, body) := RadixOf(u);
    var digits := DigitPrefix(body, radix);
    if digits == [] then None else Some(ValueIn(digits, radix))
  }

  /** `parseInt(s)` with no radix: leading whitespace is skipped, one sign
      is read, then a `0x`/`0X` prefix selects base 16, and the longest run
      of digits of that base is the magnitude.  `None` stands for `NaN`,
      which equals no number: it is the result exactly when no digit of
      the base follows. */
  function ParseInt(s: string): (r: Option<int>)
    ensures var (radix, body) := RadixOf(Unsigned(TrimStart(s)));
      r.None? <==> body == [] || !IsDigitIn(body[0], radix)
  {
    var t := TrimStart(s);
    match Magnitude(Unsigned(t))
    case None => None
    case Some(v) => if |t| > 0 && t[0] == '-' then Some(-(v as int)) else Some(v)
  }

  /** The digit prefix of a run of digits followed by anything that does
      not start with a digit is that run. */
  lemma {:induction false} DigitPrefixStops(digits: string, tail: string, radix: nat)
    requires forall i | 0 <= i < |digits| :: IsDigitIn(digits[i], radix)
    requires tail == [] || !IsDigitIn(tail[0], radix)
    ensures DigitPrefix(digits + tail, radix) == digits
    decreases |digits|
  {
    if |digits| > 0 {
      assert (digits + tail)[1..] == digits[1..] + tail;
      DigitPrefixStops(digits[1..], tail, radix);
    } else {
      assert digits + tail == tail;
    }
  }

  /** `parseInt` reads back the rendering of any integer, so looking a
      record up by `String(n)` or by `n` itself finds the same record. */
  lemma ParseIntRendered(n: int)
    ensures ParseInt(IntToDecimal(n)) == Some(n)
  {
    var m: nat := if n < 0 then -n else n;
    var d := NatToDecimal(m);
    var s := IntToDecimal(n);
    assert !IsSpace(s[0]);
    assert TrimStart(s) == s;
    assert Unsigned(s) == d by {
      if n < 0 { assert s[1..] == d; }
    }
    assert !HexPrefixed(d) by {
      if |d| >= 2 { assert d[0] != '0'; }
    }
    DigitPrefixStops(d, [], 10);
    assert d + [] == d;
    NatToDecimalValue(m);
  }

  /** A sign of `parseInt`'s input: nothing, `-` or `+`. */
  predicate IsSign(sign: string) {
    |sign| <= 1 && (sign == [] || sign[0] == '-' || sign[0] == '+')
  }

  /** Without a radix, a `0x` or `0X` prefix switches to base 16, behind a
      sign too, and reading stops at the first character that is no hex
      digit. */
  lemma {:induction false} ParseIntHexValue(sign: string, u: string, digits: string, tail: string)
    requires IsSign(sign)
    requires HexPrefixed(u) && u[2..] == digits + tail && digits != []
    requires forall i | 0 <= i < |digits| :: IsDigitIn(digits[i], 16)
    requires tail == [] || !IsDigitIn(tail[0], 16)
    ensures ParseInt(sign + u).Some?
    ensures var v: int := ValueIn(digits, 16);
      ParseInt(sign + u).value == if sign != [] && sign[0] == '-' then -v else v
  {
    var s := sign + u;
    HexMagnitude(u, digits, tail);
    assert Unsigned(s) == u by {
      if sign != [] { assert s[1..] == u; } else { assert s == u; }
    }
    assert s[0] == '-' || s[0] == '+' || s[0] == '0';
    SignedMagnitude(s, u, ValueIn(digits, 16));
    assert (s[0] == '-') == (sign != [] && sign[0] == '-');
  }

  /** A `0x` or `0X` prefix with no hex digit after it reads as `NaN`, even
      where a decimal reading would have found the `0`. */
  lemma ParseIntHexNaN(sign: string, u: string)
    requires IsSign(sign)
    requires HexPrefixed(u) && (|u| == 2 || !IsDigitIn(u[2], 16))
    ensures ParseInt(sign + u) == None
  {
    var s := sign + u;
    assert Unsigned(s) == u by {
      if sign != [] { assert s[1..] == u; } else { assert s == u; }
    }
    assert s[0] == '-' || s[0] == '+' || s[0] == '0';
    assert TrimStart(s) == s;
    assert Magnitude(u) == None;
  }

  /** `parseInt("0x1A")` is 26 and `parseInt("0x")` is `NaN`. */
  lemma ParseIntHexExamples(a: string, b: string)
    requires a == "0x1A" && b == "0x"
    ensures ParseInt(a) == Some(26)
    ensures ParseInt(b) == None
  {
    var digits := a[2..];
    assert digits == "1A";
    HexValueExample(digits);
    assert digits + [] == digits;
    ParseIntHexValue([], a, digits, []);
    assert [] + a == a;
    ParseIntHexNaN([], b);
    assert [] + b == b;
  }

  /** Behind a `0x` prefix the magnitude is the value of the hex run. */
  lemma {:induction false} HexMagnitude(u: string, digits: string, tail: string)
    requires HexPrefixed(u) && u[2..] == digits + tail
    requires forall i | 0 <= i < |digits| :: IsDigitIn(digits[i], 16)
    requires tail == [] || !IsDigitIn(tail[0], 16)
    ensures Magnitude(u) == if digits == [] then None else Some(ValueIn(digits, 16))
  {
    DigitPrefixStops(digits, tail, 16);
  }

  /** With no leading whitespace, the sign character decides the sign of
      the magnitude read after it. */
  lemma {:induction false} SignedMagnitude(s: string, u: string, m: nat)
    requires |s| > 0 && (s[0] == '-' || s[0] == '+' || s[0] == '0')
    requires Unsigned(s) == u && Magnitude(u) == Some(m)
    ensures var v: int := m; ParseInt(s) == Some(if s[0] == '-' then -v else v)
  {
    assert TrimStart(s) == s;
  }

  /** Without a `0x` prefix the magnitude is the value of the decimal run
      the text starts with. */
  lemma {:induction false} DecimalMagnitude(u: string, digits: string, tail: string)
    requires !HexPrefixed(u) && u == digits + tail
    requires forall i | 0 <= i < |digits| :: IsDigitIn(digits[i], 10)
    requires tail == [] || !IsDigitIn(tail[0], 10)
    ensures Magnitude(u) == if digits == [] then None else Some(ValueIn(digits, 10))
  {
    DigitPrefixStops(digits, tail, 10);
  }

  /** Leading whitespace in front of text that does not start with any is
      dropped, and nothing else is. */
  lemma {:induction false} TrimStartSkips(ws: string, rest: string)
    requires AllSpace(ws)
    requires rest == [] || !IsSpace(rest[0])
    ensures TrimStart(ws + rest) == rest
    decreases |ws|
  {
    if ws == [] {
      assert ws + rest == rest;
    } else {
      assert (ws + rest)[1..] == ws[1..] + rest;
      TrimStartSkips(ws[1..], rest);
    }
  }

  /** Without a `0x` prefix `parseInt` skips leading whitespace, reads one
      optional sign, and reads the decimal run after it, leading zeros
      included, up to the first character that is no decimal digit. */
  lemma {:induction false} ParseIntDecimalValue(ws: string, sign: string, digits: string, tail: string)
    requires AllSpace(ws) && IsSign(sign)
    requires digits != [] && forall i | 0 <= i < |digits| :: IsDigitIn(digits[i], 10)
    requires tail == [] || !IsDigitIn(tail[0], 10)
    requires !HexPrefixed(digits + tail)
    ensures ParseInt(ws + sign + digits + tail) == Some(WithSign(sign, ValueIn(digits, 10)))
  {
    DecimalMagnitude(digits + tail, digits, tail);
    assert IsDigitIn(digits[0], 10);
    ParseIntSigned(ws, sign, digits, tail, ValueIn(digits, 10));
  }

  /** The magnitude `v` under the sign `sign`: negated after `-`. */
  function WithSign(sign: string, v: nat): (r: int)
    ensures |sign| > 0 && sign[0] == '-' ==> r == -(v as int)
    ensures !(|sign| > 0 && sign[0] == '-') ==> r == v
  {
    if |sign| > 0 && sign[0] == '-' then -(v as int) else v
  }

  /** `parseInt` of whitespace, a sign and a text `head + tail` whose
      magnitude is `m`. */
  lemma {:induction false} ParseIntSigned(ws: string, sign: string, head: string, tail: string, m: nat)
    requires AllSpace(ws) && IsSign(sign)
    requires head != [] && !IsSpace(head[0]) && head[0] != '-' && head[0] != '+'
    requires Magnitude(head + tail) == Some(m)
    ensures ParseInt(ws + sign + head + tail) == Some(WithSign(sign, m))
  {
    var u := head + tail;
    var rest := sign + u;
    AppendAssoc(ws + sign, head, tail);
    assert ws + sign + u == ws + rest;
    assert rest[0] == if sign == [] then head[0] else sign[0];
    TrimStartSkips(ws, rest);
    assert Unsigned(rest) == u by {
      if sign != [] { assert rest[1..] == u; } else { assert rest == u; }
    }
    ReadAfterTrim(ws + rest, rest, m);
  }

  lemma AppendAssoc(a: string, b: string, c: string)
    ensures a + b + c == a + (b + c)
  {
  }

  /** Once leading whitespace is gone, the sign character decides the sign
      of the magnitude read after it. */
  lemma {:induction false} ReadAfterTrim(s: string, t: string, m: nat)
    requires TrimStart(s) == t && |t| > 0
    requires Magnitude(Unsigned(t)) == Some(m)
    ensures var v: int := m; ParseInt(s) == Some(if t[0] == '-' then -v else v)
  {
  }

  /* What makes `parseInt` lenient, one example each: leading whitespace,
     a plus sign, trailing junk, leading zeros and a fraction. */

  lemma {:induction false} ParseIntLeadingSpace(s: string)
    requires s == " 12"
    ensures ParseInt(s) == Some(12)
  {
    DecimalValueExamples();
    assert s == " " + [] + "12" + [];
    ParseIntDecimalValue(" ", [], "12", []);
  }

  lemma {:induction false} ParseIntPlusSign(s: string)
    requires s == "+12"
    ensures ParseInt(s) == Some(12)
  {
    DecimalValueExamples();
    assert s == [] + "+" + "12" + [];
    ParseIntDecimalValue([], "+", "12", []);
  }

  lemma {:induction false} ParseIntTrailingJunk(s: string)
    requires s == "12abc"
    ensures ParseInt(s) == Some(12)
  {
    DecimalValueExamples();
    assert s == [] + [] + "12" + "abc";
    assert DigitWeight('a') == 10;
    ParseIntDecimalValue([], [], "12", "abc");
  }

  lemma {:induction false} ParseIntLeadingZeros(s: string)
    requires s == "007"
    ensures ParseInt(s) == Some(7)
  {
    DecimalValueExamples();
    assert s == [] + [] + "007" + [];
    ParseIntDecimalValue([], [], "007", []);
  }

  lemma {:induction false} ParseIntFraction(s: string)
    requires s == "5.0"
    ensures ParseInt(s) == Some(5)
  {
    DecimalValueExamples();
    assert s == [] + [] + "5" + ".0";
    ParseIntDecimalValue([], [], "5", ".0");
  }

  /** The decimal values the examples read. */
  lemma DecimalValueExamples()
    ensures ValueIn("12", 10) == 12 && ValueIn("007", 10) == 7 && ValueIn("5", 10) == 5
  {
    assert "12"[..1] == "1" && "1"[..0] == [];
    assert "007"[..2] == "00" && "00"[..1] == "0" && "0"[..0] == [];
    assert "5"[..0] == [];
  }

  /** The value the first hex example reads. */
  lemma HexValueExample(digits: string)
    requires digits == "1A"
    ensures forall i | 0 <= i < |digits| :: IsDigitIn(digits[i], 16)
    ensures ValueIn(digits, 16) == 26
  {
    assert DigitWeight(digits[0]) == 1 && DigitWeight(digits[1]) == 10;
    var one := digits[..1];
    assert one[..0] == [];
    assert ValueIn(one, 16) == 1;
  }

  // ---------------------------------------------------------------- ordering

  /** The relational `a < b` of two JavaScript strings: lexicographic by
      character code, a proper prefix being smaller. */
  predicate LexLess(a: string, b: string)
    decreases |a|
  {
    if |a| == 0 then |b| > 0
    else if |b| == 0 then false
    else if a[0] < b[0] then true
    else if a[0] == b[0] then LexLess(a[1..], b[1..])
    else false
  }

  /** `a <= b`, which JavaScript evaluates as `!(b < a)`. */
  predicate LexLe(a: string, b: string) {
    !LexLess(b, a)
  }

  lemma {:induction false} LexLessIrreflexive(a: string)
    ensures !LexLess(a, a)
    decreases |a|
  {
    if |a| > 0 {
      LexLessIrreflexive(a[1..]);
    }
  }

  lemma {:induction false} LexLessTransitive(a: string, b: string, c: string)
    requires LexLess(a, b) && LexLess(b, c)
    ensures LexLess(a, c)
    decreases |a|
  {
    if |a| > 0 && a[0] == b[0] && b[0] == c[0] {
      LexLessTransitive(a[1..], b[1..], c[1..]);
    }
  }

  lemma {:induction false} LexLessTrichotomy(a: string, b: string)
    ensures LexLess(a, b) || a == b || LexLess(b, a)
    decreases |a|
  {
    if |a| > 0 && |b| > 0 && a[0] == b[0] {
      LexLessTrichotomy(a[1..], b[1..]);
      if a[1..] == b[1..] {
        assert a == [a[0]] + a[1..] && b == [b[0]] + b[1..];
      }
    }
  }

  /** `<=` on strings is a total order. */
  lemma LexLeTotalOrder(a: string, b: string, c: string)
    ensures LexLe(a, a)
    ensures LexLe(a, b) && LexLe(b, a) ==> a == b
    ensures LexLe(a, b) && LexLe(b, c) ==> LexLe(a, c)
    ensures LexLe(a, b) || LexLe(b, a)
  {
    LexLessIrreflexive(a);
    LexLessTrichotomy(a, b);
    LexLessTrichotomy(b, c);
    LexLessTrichotomy(a, c);
    if LexLess(b, a) && LexLess(a, b) { LexLessTransitive(a, b, a); LexLessIrreflexive(a); }
    if LexLe(a, b) && LexLe(b, c) && LexLess(c, a) {
      if a == b { } else if b == c { } else {
        LexLessTransitive(a, b, c);
        LexLessTransitive(c, a, c);
        LexLessIrreflexive(c);
      }
    }
  }
}

=== FILE: viewer.dfy ===
/** The card-by-card study view of `FlashcardViewer.jsx`: a position in the
    deck and whether the answer side is showing. */
module Viewer {
  import opened Wrappers
  import opened Ids
  import opened Flashcards

  /** `currentIndex`, `isFlipped` and `showAnswer`. */
  datatype ViewerState = ViewerState(index: nat, flipped: bool, showAnswer: bool)

  const Start: ViewerState := ViewerState(0, false, false)

  /** The index names a card (or is the initial 0 of an empty deck), and the
      two flags agree. */
  predicate Valid(v: ViewerState, n: nat) {
    (v.index < n || v.index == 0) && v.flipped == v.showAnswer
  }

  lemma StartValid(n: nat)
    ensures Valid(Start, n)
  {
  }

  /** `handleFlip`: turns the card over. */
  function Flip(v: ViewerState): (r: ViewerState)
    ensures r.index == v.index
    ensures r.flipped != v.flipped && r.showAnswer != v.showAnswer
  {
    v.(flipped := !v.flipped, showAnswer := !v.showAnswer)
  }

  /** The front side of card `i`. */
  function FrontOf(i: nat): ViewerState {
    ViewerState(i, false, false)
  }

  /** `goToNext`: one card on, front side up; a no-op on the last card. */
  function Next(v: ViewerState, n: nat): (r: ViewerState)
    ensures v.index + 1 < n ==> r == FrontOf(v.index + 1)
    ensures v.index + 1 >= n ==> r == v
  {
    if v.index < n - 1 then FrontOf(v.index + 1) else v
  }

  /** `goToPrevious`: one card back, front side up; a no-op on the first
      card. */
  function Previous(v: ViewerState): (r: ViewerState)
    ensures v.index > 0 ==> r == FrontOf(v.index - 1)
    ensures v.index == 0 ==> r == v
  {
    if v.index > 0 then FrontOf(v.index - 1) else v
  }

  /** What `handleAnswer` did: the new state, the `(id, correct)` pair it
      passed to `onAnswer` (if any), and whether it called `onEndSession`. */
  datatype AnswerOutcome = AnswerOutcome(state: ViewerState, reported: Option<(CardId, bool)>, endSession: bool)

  /** `handleAnswer`: with a current card and an active session, reports the
      answer and moves to the next card, or on the last card asks for the
      session to end and stays put.  Otherwise does nothing. */
  function Answer(v: ViewerState, cards: seq<Flashcard>, sessionActive: bool, correct: bool): (r: AnswerOutcome)
    ensures !(v.index < |cards| && sessionActive) ==> r == AnswerOutcome(v, None, false)
    ensures v.index < |cards| && sessionActive ==>
      && r.reported == Some((cards[v.index].id, correct))
      && (v.index + 1 < |cards| ==> r.state == FrontOf(v.index + 1) && !r.endSession)
      && (v.index + 1 == |cards| ==> r.state == v && r.endSession)
  {
    if v.index < |cards| && sessionActive then
      var reported := Some((cards[v.index].id, correct));
      if v.index < |cards| - 1 then AnswerOutcome(FrontOf(v.index + 1), reported, false)
      else AnswerOutcome(v, reported, true)
    else AnswerOutcome(v, None, false)
  }

  /** Every transition keeps the state valid. */
  lemma TransitionsKeepValid(v: ViewerState, cards: seq<Flashcard>, sessionActive: bool, correct: bool)
    requires Valid(v, |cards|)
    ensures Valid(Flip(v), |cards|)
    ensures Valid(Next(v, |cards|), |cards|)
    ensures Valid(Previous(v), |cards|)
    ensures Valid(Answer(v, cards, sessionActive, correct).state, |cards|)
  {
  }

  /** Stepping forward and back returns to the same card, front side up. */
  lemma NextThenPrevious(v: ViewerState, n: nat)
    requires v.index + 1 < n
    ensures Previous(Next(v, n)) == FrontOf(v.index)
  {
  }

  /** Answering every card of a deck from the start, with the session open
      throughout, reports each card once in order and ends on the last. */
  function AnswerAll(v: ViewerState, cards: seq<Flashcard>, answers: seq<bool>): (r: (seq<CardId>, bool))
    requires v.index <= |cards|
    decreases |answers|
  {
    if |answers| == 0 then ([], false)
    else
      var o := Answer(v, cards, true, answers[0]);
      if o.endSession || o.reported.None? then
        (if o.reported.Some? then [o.reported.value.0] else [], o.endSession)
      else
        var rest := AnswerAll(o.state, cards, answers[1..]);
        ([o.reported.value.0] + rest.0, rest.1)
  }

  /** Ids of the deck from position `i` on. */
  function IdsFrom(cards: seq<Flashcard>, i: nat): (r: seq<CardId>)
    requires i <= |cards|
    ensures |r| == |cards| - i
    ensures forall k | 0 <= k < |r| :: r[k] == cards[i + k].id
    decreases |cards| - i
  {
    if i == |cards| then [] else [cards[i].id] + IdsFrom(cards, i + 1)
  }

  lemma {:induction false} AnswerAllReportsDeck(i: nat, cards: seq<Flashcard>, answers: seq<bool>)
    requires i < |cards| && |answers| == |cards| - i
    ensures AnswerAll(FrontOf(i), cards, answers) == (IdsFrom(cards, i), true)
    decreases |answers|
  {
    var o := Answer(FrontOf(i), cards, true, answers[0]);
    assert o.reported == Some((cards[i].id, answers[0]));
    assert IdsFrom(cards, i) == [cards[i].id] + IdsFrom(cards, i + 1);
    if i + 1 < |cards| {
      assert o.state == FrontOf(i + 1) && !o.endSession;
      AnswerAllReportsDeck(i + 1, cards, answers[1..]);
    } else {
      assert o.endSession && IdsFrom(cards, i + 1) == [];
      assert [cards[i].id] + [] == [cards[i].id];
    }
  }

  /** `progress`: `(currentIndex + 1) / n * 100`; `None` for an empty deck,
      where the division yields no finite number. */
  function Progress(index: nat, n: nat): (r: Option<real>)
    ensures r.None? <==> n == 0
    ensures r.Some? && index < n ==> 0.0 < r.value <= 100.0
    ensures r.Some? && index < n ==> (r.value == 100.0 <==> index == n - 1)
  {
    if n == 0 then None
    else Some((index + 1) as real / n as real * 100.0)
  }

  /** Progress grows strictly with the position. */
  lemma ProgressIncreases(i: nat, j: nat, n: nat)
    requires i < j < n
    ensures Progress(i, n).value < Progress(j, n).value
  {
  }

  datatype Tier = Mastered | Learning | Weak

  /** `getMasteryColor`: green from 0.8, yellow from 0.5, red below. */
  function MasteryTier(m: real): (t: Tier)
    ensures t == Mastered <==> m >= 0.8
    ensures t == Learning <==> 0.5 <= m < 0.8
    ensures t == Weak <==> m < 0.5
  {
    if m >= 0.8 then Mastered
    else if m >= 0.5 then Learning
    else Weak
  }

  function TierRank(t: Tier): nat {
    match t
    case Weak => 0
    case Learning => 1
    case Mastered => 2
  }

  /** More mastery never means a lower tier. */
  lemma MasteryTierMonotone(a: real, b: real)
    requires a <= b
    ensures TierRank(MasteryTier(a)) <= TierRank(MasteryTier(b))
  {
  }
}

=== FILE: wrappers.dfy ===
/** Failure-compatible wrappers shared by every store of the model.

    `Option` stands for a JavaScript value that may be `null` (a lookup that
    found nothing, an `endTime` that is not set yet) or for an object key that
    may be absent (a field of an update patch).  `Result` stands for an
    operation that either returns a value or throws an `Error` carrying a
    message. */
module Wrappers {

  datatype Option<+T> = None | Some(value: T) {

    /** The wrapped value, or `default` when there is none: the effect of an
        object spread where the later object may or may not carry the key. */
    function GetOr(default: T): T {
      match this
      case Some(v) => v
      case None => default
    }
  }

  /** Either the value an operation returns, or the message of the `Error`
      it throws.  A thrown operation leaves its store untouched, so a
      `Failure` never carries a new store. */
  datatype Result<+T> = Success(value: T) | Failure(error: string)
}
